=== FILE: README.md ===
# pieceplustree in Dafny

This project models the core of pieceplustree, a piece table for a text
editor. The table describes a large buffer as runs ("pieces") of
`(kind, offset, length)`. Each piece points into one of two buffers:
- the original buffer (`PIECE_INITIAL`);
- the change buffer (`PIECE_CHANGE`).

The pieces live in a B+ tree with fanout 26. The model has three layers, one per source file, plus the tests of the last.

- **IQueue** (`iqueue.dfy`, iqueue.h) is the intrusive index queue.
  - It is a doubly linked order of 8-bit slot ids, kept in fixed `prev`/`next` arrays, with `0xFF` as the invalid id.
  - A queue is abstracted as the sequence of slot ids met walking `next` from the head (`Elements`).
  - `Represents` is the link invariant; `_IQUEUE_VALIDATE` is modelled as `Validate`.
- **LinkedArray** (`linked_array.dfy`, linked-array.h) is a payload array ordered by an IQueue over cell indices.
  - Its abstraction is the sequence of values in logical order (`Values`).
  - The invariant is the no-holes rule: the occupied cells are exactly `0 .. length-1`.
- **Pieces**, **PieceTree**, **TreeSplit**, **TreeInsert** and **PieceTable** (piece-table.c, piece-table.h) model the piece tree and the public API.
  - The tree is an immutable datatype: `Leaf(entries)` or `Branch(children)`, where each child carries the length its parent records for it.
  - Its meaning is the in-order concatenation of the leaves' entries (`Flatten`). That in turn expands to one `(buffer, offset)` reference per character (`Expand`).
  - Search routes by recorded lengths, and ties go to the left child.
  - `piece_tree_node_split` is modelled as the cascade of nodes it splits, parent before child (`Cascade`, `SplitOff`, `SplitFor`).
  - `piece_table_insert_full` is modelled as split-then-search-again followed by the entry loop on the target leaf (`Scan`, `LeafStep`). The loop includes head and tail chaining and the three-way cut of an entry.
- **Scenarios** (`scenarios.dfy`, test-piece-table.c) are the four table tests, each stated as a method whose postcondition is the test's expectation.

Where the model deliberately differs from the code, and what the code does that one might not expect:
- **Offsets are stored in 63 bits.** `PieceTableEntry.offset` is a 63-bit bitfield, so storing the advanced offset of a cut entry keeps the low 63 bits (`Store63`). The tree invariant `Inv` requires every piece to end within `2^63`, and the content law needs the inserted piece to end there too.
- **`piece_table_validate` is shallow.** The recursive call at piece-table.c:824 is commented out, so only the root's children are checked. `Validate` models exactly that. The deep invariant is `WellFormed`: it is what `piece_tree_node_validate` would check if applied at every node. `ShallowCounterexample` shows a malformed table that passes `Validate`.
- **Leaf `prev` links are not repaired on a split.** `piece_tree_node_split_leaf` never repairs the old successor's `prev` link (piece-table.c:473-476). The model claims nothing about `prev` (see Left out).
- **Tail inserts never split.** In `test_inserts_at_tail` (test-piece-table.c:205-224) every insert tail-chains into the single entry, so the table stays one leaf and no split happens (`Scenarios.InsertsAtTail`).

## Model

| member | source | states |
|---|---|---|
| IQueue.RepresentsElements | iqueue.h:27-36 | the links of a queue describe at most one order: any order they represent is the one obtained by walking `next` from head for `length` steps |
| IQueue.ValidPassesValidate | iqueue.h:52-68 | every well-formed non-empty queue passes _IQUEUE_VALIDATE: tail's next and head's prev are invalid, and walking `next` from head meets invalid after exactly `length` ids |
| IQueue.Init | iqueue.h:45-50 | IQUEUE_INIT gives a well-formed empty queue with the same capacity |
| IQueue.IsEmpty | iqueue.h:40 | the head is invalid exactly when the order is empty |
| IQueue.PushHead | iqueue.h:73-84 | the order becomes `[id] + s`; on an empty queue head and tail are both `id` and both of its links are invalid; the result passes validation |
| IQueue.PushTail | iqueue.h:86-97 | the order becomes `s + [id]`; on an empty queue head and tail are both `id` and both of its links are invalid; the result passes validation |
| IQueue.Insert | iqueue.h:99-138 | with room and `nth <= length`, the order becomes `s[..nth] + [val] + s[nth..]` on all three paths (head, tail, walk), and the result passes validation |
| IQueue.LinkBeforeValid | iqueue.h:120-136 | linking `val` between the id at an inner position and its predecessor puts `val` at exactly that position of the order |
| IQueue.Nth | iqueue.h:174-188 | the head shortcut, the tail shortcut and the walk all return `s[n]`; position 0 of an empty queue yields the invalid id |
| IQueue.Foreach | iqueue.h:190-198 | the ids visited are exactly the order, head to tail |
| IQueue.PopNth | iqueue.h:143-172 | on a non-empty queue it returns `s[n]`, leaves `s[..n] + s[n+1..]` and resets the popped slot's links to invalid; on an empty queue it returns invalid and changes nothing |
| IQueue.UnlinkValid | iqueue.h:154-169 | unlinking the id at position `n` joins its neighbours, moves head/tail off it and removes exactly that position |
| IQueue.PopHead | iqueue.h:140 | returns the first id and leaves the rest, or invalid on an empty queue |
| IQueue.PopTail | iqueue.h:141 | returns the last id and leaves the rest, or invalid on an empty queue |
| IQueue.Move | iqueue.h:200-211 | relocating the links of `src` to an unlisted slot `dst` keeps the queue well formed, with `src` renamed `dst` in the order and nothing else changed |
| IQueue.PopInsertRoundTrip | iqueue.h:99-172 | POP_NTH(i) followed by INSERT(i, v) of the popped id restores the original order |
| LinkedArray.CellsAreNotSentinel | linked-array.h:37-43 | with at most 0xFE cells no occupied cell index equals the invalid id |
| LinkedArray.Init | linked-array.h:53-57 | LINKED_ARRAY_INIT gives a valid empty array of the same capacity |
| LinkedArray.Length | linked-array.h:66 | the queue length is the number of stored values |
| LinkedArray.IsFull | linked-array.h:85 | full exactly when the number of values equals the capacity |
| LinkedArray.IsEmpty | linked-array.h:93 | empty exactly when no value is stored |
| LinkedArray.PeekHead | linked-array.h:209 | the head cell holds the first value in logical order |
| LinkedArray.PeekNext | linked-array.h:165-167 | during a walk at logical index `i`, the peek yields the value at `i + 1`, or none at the tail |
| LinkedArray.InsertVal | linked-array.h:95-115 | with `pos <= length` and a free cell, the value goes into cell `length` and the values become `s[..pos] + [e] + s[pos..]`; no holes appear |
| LinkedArray.PushHead | linked-array.h:213-219 | with a free cell, the value goes into cell `length` and the values become `[e] + s` |
| LinkedArray.RemoveIndex | linked-array.h:117-141 | returns `s[pos]`, leaves `s[..pos] + s[pos+1..]`, and keeps the array free of holes by moving the last cell into the freed one |
| LinkedArray.PopHead | linked-array.h:210 | removes and returns the first value |
| LinkedArray.PopTail | linked-array.h:211 | removes and returns the last value |
| LinkedArray.Foreach | linked-array.h:154-163 | the values visited are the values in logical order |
| LinkedArray.MoveTail | linked-array.h:177-182 | popping the tail and pushing it on the head of `into`, `n` times, moves the last `n` values across in order |
| LinkedArray.Split | linked-array.h:169-183 | the source keeps its first `len - len/2` values and the reset destination receives the last `len/2`, in order |
| LinkedArray.Split2 | linked-array.h:185-207 | the source is emptied, RIGHT holds the last `len/2` values, LEFT the rest, and LEFT + RIGHT is the original sequence |
| Pieces.ChainHead | piece-table.c:209-225 | a piece ending where an entry of the same buffer starts is absorbed at the entry's head: the entry's characters become the piece's followed by its own |
| Pieces.ChainTail | piece-table.c:227-242 | a piece starting where an entry of the same buffer ends is absorbed at the entry's tail |
| Pieces.ChainTestsAgree | piece-table.c:209-241 | for a request offset below 2^63, testing the stored 63-bit offset decides head and tail chaining exactly as the source's 64-bit tests do |
| Pieces.ChainTestsDiverge | piece-table.c:216-235 | from 2^63 on the two tests part: one request tail-chains only in the model, another head-chains only in the source |
| Pieces.ScanAfter | piece-table.c:642-644 | the entry loop steps over every whole entry before the one the position falls in, leaving them unchanged |
| Pieces.ScanCuts | piece-table.c:626-640 | strictly inside an entry `{k, off, len}` at relative position `p`, the entry becomes `{k, off, p}`, the new piece, `{k, off + p, len - p}`; nothing else changes |
| Pieces.ScanAtEnd | piece-table.c:616-625 | at the end of an entry, tail-chaining is tried first, then head-chaining into the next entry of the same leaf, else the piece goes in after the entry |
| Pieces.ScanTotal | piece-table.c:598-647 | the leaf covers exactly the piece's length more characters |
| Pieces.ScanPositive | piece-table.c:829-831 | every entry stays non-empty when the inserted piece is non-empty |
| Pieces.ScanInRange | piece-table.h:35-40 | entries that fit the 63-bit offset field keep fitting |
| Pieces.ScanExpand | piece-table.c:598-647 | content law at a leaf: the characters described afterwards are the old ones with the piece's characters spliced in at the relative position |
| Pieces.LeafStepExpand | piece-table.c:571-577 | the content law also holds when the target leaf is empty and takes the piece by PUSH_HEAD |
| PieceTree.NodeLengthTotal | piece-table.c:141-162 | in a well-formed tree a node's length (sum of recorded child lengths or entry lengths) is the number of characters it describes |
| PieceTree.PickSpec | piece-table.c:325-342 | the child the search takes is the least one whose prefix sum of recorded lengths reaches the position (ties go left), with the position made relative to it |
| PieceTree.PickChar | piece-table.c:325-342 | conversely, the least child whose prefix sum reaches the position is the one the search takes |
| PieceTree.SearchSpec | piece-table.c:306-343 | the search reaches a leaf whose entries sit in the flattened tree after entries covering `pos - rel` characters, and the relative position is within the leaf |
| PieceTree.LeavesFlatten | piece-table.c:94-100 | walking the leaves in their chain order and concatenating their entries gives the flattened tree |
| PieceTree.FirstLeaf | piece-table.c:264-276 | the first leaf of a branch is the first leaf of its head child |
| TreeSplit.Replace2Pick | piece-table.c:425-443 | replacing a child by two halves whose lengths add up to its own keeps routing: a position within the left half goes left (ties included), otherwise right |
| TreeSplit.SplitLeafSpec | piece-table.c:449-501 | a leaf split leaves the first n - n/2 entries in the leaf and moves the rest, in order, to a new right leaf; the parent's entry for the leaf loses the right leaf's length, the right leaf's entry goes in directly after it, and every other entry of the parent stays in place |
| TreeSplit.SplitOffSpec | piece-table.c:345-501 | splitting a node of the cascade keeps its characters in order across the two halves, both well formed; each branch half has exactly the length the parent records for it |
| TreeSplit.SplitOffFits | piece-table.c:283-296 | a node that needs a split becomes two halves within capacity, each holding at most half a node's cells |
| TreeSplit.SplitOffBalanced | piece-table.c:400-409 | both halves of a split node sit at the node's own height |
| TreeSplit.SplitOffSearch | piece-table.c:579-596 | after the cascade, the search repeated from the original position ends in a leaf with at most half a leaf's cells |
| TreeSplit.SplitBelowSpec | piece-table.c:503-526 | the splits below the root keep the tree's characters, length and well-formedness |
| TreeSplit.SplitForSpec | piece-table.c:503-526 | piece_tree_node_split on the target leaf keeps the characters, the length and the root's kind |
| TreeSplit.RootSplitSpec | piece-table.c:346-379 | after a root split the root keeps its place and holds exactly two children, its halves, each recorded with its own length, whose contents together are the old root's |
| TreeSplit.SplitForBalanced | piece-table.c:345-384 | only a cascade that reaches the root makes the tree taller, by exactly one level |
| TreeSplit.SplitForFits | piece-table.c:283-296 | after the split every node is within capacity |
| TreeSplit.SplitForSearch | piece-table.c:588-595 | when the target leaf needs a split, the repeated search lands in a leaf with room for the two entries the insert may add |
| TreeInsert.InsertIntoOthers | piece-table.c:657-668 | off the search path nothing changes, and the path child's recorded length grows by exactly the piece's length |
| TreeInsert.InsertIntoSpec | piece-table.c:598-670 | the insert keeps the tree well formed, adds the piece's length, and changes only the target leaf's entries |
| TreeInsert.InsertIntoContent | piece-table.c:598-670 | tree-level content law: the characters described afterwards are the old ones with the piece's characters spliced in at `pos` |
| TreeInsert.InsertIntoFits | piece-table.c:579-596 | with room for two more entries in the target leaf, every node stays within capacity |
| TreeInsert.PreparedSpec | piece-table.c:564-596 | splitting before the insert changes neither the characters nor the length |
| TreeInsert.InsertFullShape | piece-table.c:545-671 | piece_table_insert_full keeps the tree well formed, within capacity and balanced, and grows its length by the piece's; the height grows exactly when the root splits |
| TreeInsert.InsertFullContent | piece-table.c:545-671 | piece_table_insert_full splices the piece's characters in at `pos` and keeps every offset in range |
| PieceTable.New | piece-table.c:680-704 | a new table satisfies the invariant, has length 0, no pieces and a single empty leaf |
| PieceTable.Insert | piece-table.c:723-747 | an insert is refused exactly when it would take the length past PIECE_TREE_MAX_LENGTH; an accepted one grows the cached length by the piece's length; an empty one leaves the table unchanged |
| PieceTable.InsertKeepsShape | piece-table.c:722-747 | whatever the offset, an accepted insert leaves a table that takes the next one: a root branch over a well-formed tree whose cached length is the root's, so a piece ending past 2^63 does not stop later inserts |
| PieceTable.InsertKeepsInv | piece-table.c:722-747 | an accepted insert of a piece that ends within the 63-bit offset space keeps the table invariant |
| PieceTable.InsertContent | piece-table.c:722-747 | an accepted insert splices the piece's characters in at `pos` and grows the cached length by the piece's length |
| PieceTable.InsertHeight | piece-table.c:503-526 | the tree grows one level taller exactly when the split cascade reaches the root |
| PieceTable.GetLength | piece-table.c:783-789 | the cached length is the number of characters the table describes |
| PieceTable.Foreach | piece-table.c:761-781 | walking the leaves in chain order and their entries in order visits exactly the table's pieces |
| PieceTable.GetFirstLeaf | piece-table.c:254-281 | following head children from the root reaches the first leaf of the chain, whose entries begin the table's pieces |
| PieceTable.InvValidates | piece-table.c:852-872 | every table satisfying the invariant passes piece_table_validate |
| PieceTable.ShallowCounterexample | piece-table.c:817-826 | piece_table_validate accepts a table whose grandchild is recorded with a wrong length, which the invariant rejects |
| Scenarios.PastEndLandsInside | piece-table.c:339-342 | a position past the end survives the search: in a one-leaf table of 100 characters, position 150 reaches the leaf at 50 without a split, and the entry loop cuts the piece in there |
| Scenarios.InsertOneLeaf | piece-table.c:564-598 | while the only leaf has fewer than 24 entries, an accepted insert runs just the entry loop on that leaf |
| Scenarios.Basic | test-piece-table.c:70-182 | the ten inserts of test_basic leave exactly the listed pieces and length 2385 |
| Scenarios.InsertsAtHead | test-piece-table.c:184-203 | 10000 unit inserts at position 0 with falling offsets head-chain into the single piece `{CHANGE, 1, 10000}`, and the table validates |
| Scenarios.InsertsAtTail | test-piece-table.c:205-224 | 10000 unit inserts at the tail with rising offsets tail-chain into the single piece `{CHANGE, 0, 10000}`, and the table validates |
| Scenarios.RootSplit | test-piece-table.c:226-236 | 10000 unchainable inserts at position 0 keep the invariant throughout, describe the characters newest first, and validate |

## Left out

- Memory management is not modelled: `g_slice` allocation, `piece_tree_node_free` and `piece_table_free`. Nodes are immutable values.
- The union that lets branch and leaf nodes share one layout is replaced by a tagged datatype.
- `piece_table_delete` and `piece_table_copy` are declared in piece-table.h but have no implementation.
- Parent pointers and the leaf `prev`/`next` pointers are not modelled.
  - Leaf order is the in-order sequence of leaves (`Leaves`), which is the order the `next` chain gives.
  - `split_leaf` never repairs the old successor's `prev`, and the `prev` checks in validate are disabled, so nothing is claimed about `prev`. The `g_assert (ret->prev == NULL)` in `piece_table_get_first_leaf` always holds, because the first leaf's `prev` is never set. The one in `piece_table_foreach` can fail, as the next line says.
- The tree's nodes hold sequences (`LinkedArray.Values`) rather than linked arrays, so the tree does not reuse the LinkedArray model. The two are related only through the split counts (`KeepCount`).
- `GFunc` callbacks become a returned sequence: `Foreach` returns the entries it would visit.
- `G_DISABLE_ASSERT` builds are not modelled. `g_assert` conditions become preconditions, for example the non-empty piece `piece_table_insert_full` asserts (piece-table.c:558). The exception is the `prev` check in `piece_table_foreach`; see PieceTable.Foreach below.
- The GTK widgets and the `timed.c` benchmark are outside the core.
- PieceTable.InsertKeepsInv and PieceTable.InsertContent: both require the new piece to end within `2^63`. The source stores a wrapped offset without complaint. The model states the full invariant and the content law only for offsets it can hold. `Insert` itself requires only `Shaped`, which `PieceTable.InsertKeepsShape` shows every accepted insert keeps whatever the offset.
- PieceTable.Insert: it requires an accepted, non-empty insert to have `pos <= t.length`. The source checks less. `piece_table_insert` does not bound the position, and the assert after the search (piece-table.c:569) only bounds the position left within the leaf reached. The search falls through to the last child after subtracting every child's length (piece-table.c:339-342), so some positions past the end pass that assert and are inserted inside the buffer: in a one-leaf table of 100 characters, position 150 is cut in at 50 (`Scenarios.PastEndLandsInside`). The model does not describe inserts at such positions.
- PieceTable.Insert: the chaining tests see the request's offset as stored in the entry's 63-bit field. The source compares the full 64-bit offset (piece-table.c:216-217, 234-235). Below 2^63 the two decide alike (`Pieces.ChainTestsAgree`). For offsets of 2^63 or more they can chain differently (`Pieces.ChainTestsDiverge`), and the model then follows the stored offset.
- PieceTable.Foreach: it returns every entry in leaf order with no precondition, which is what an assert-disabled build does. With assertions on, the source aborts at `g_assert (leaf->next == NULL || leaf->next->prev == leaf)` (piece-table.c:775) once a leaf that already had a successor has been split: that successor's `prev` still names the old leaf (piece-table.c:473-476). Repeated inserts at position 0, as in `test_root_split`, reach this state at the second split of the first leaf. The model has no `prev` links, so it does not model the abort.
- LinkedArray.Init: the `memset` to zero takes the all-zero payload as a `zero` parameter, because a generic payload type has no zero value.
- Scenarios.RootSplit: it proves the invariant, content and validation after 10000 inserts, but not how tall the tree ends up.

=== FILE: iqueue.dfy ===
/*
 * Model of iqueue.h: an intrusive queue that orders the slot ids of a
 * fixed-size array through per-slot `prev`/`next` links, with head, tail
 * and length kept beside them.  The link arrays are immutable sequences
 * here; every macro becomes a function or a method that returns the
 * updated queue.
 */
module IQueue {

  /** Slot ids are unsigned 8-bit values (every caller instantiates the queue with guint8). */
  type Slot = x: int | 0 <= x < 256

  /** IQUEUE_INVALID: the all-ones id, `(guint8)-1`, meaning "no slot". */
  const INVALID: Slot := 0xFF

  /** Most items an 8-bit queue can hold while no real slot id equals INVALID. */
  const MaxItems: nat := 0xFF

  /** IQUEUE_NODE: length, head, tail and one (prev, next) pair per slot. */
  datatype Queue = Queue(length: nat, head: Slot, tail: Slot, prev: seq<Slot>, next: seq<Slot>)

  /** The number of slots, G_N_ELEMENTS(items). */
  function Capacity(q: Queue): nat
  {
    |q.next|
  }

  /** Both link arrays cover the same slots, and every slot id differs from INVALID. */
  predicate Shaped(q: Queue)
  {
    |q.prev| == |q.next| <= MaxItems
  }

  ghost predicate Distinct(s: seq<Slot>)
  {
    forall i, j | 0 <= i < j < |s| :: s[i] != s[j]
  }

  /**
   * The links of `q` describe exactly the logical order `s`: the ids are
   * distinct real slots, head and tail are the ends of `s` (INVALID when
   * empty), and each listed slot's `next`/`prev` name its neighbours in `s`.
   */
  ghost predicate Represents(q: Queue, s: seq<Slot>)
  {
    && Shaped(q)
    && q.length == |s|
    && (forall i | 0 <= i < |s| :: s[i] < Capacity(q))
    && Distinct(s)
    && q.head == (if |s| == 0 then INVALID else s[0])
    && q.tail == (if |s| == 0 then INVALID else s[|s| - 1])
    && (forall i {:trigger q.next[s[i]]} | 0 <= i < |s| :: q.next[s[i]] == After(s, i))
    && (forall i {:trigger q.prev[s[i]]} | 0 <= i < |s| :: q.prev[s[i]] == Before(s, i))
  }

  /** The id following position `i` of `s`, INVALID past the end. */
  function After(s: seq<Slot>, i: int): Slot
    requires 0 <= i < |s|
  {
    if i + 1 < |s| then s[i + 1] else INVALID
  }

  /** The id preceding position `i` of `s`, INVALID before the start. */
  function Before(s: seq<Slot>, i: int): Slot
    requires 0 <= i < |s|
  {
    if i == 0 then INVALID else s[i - 1]
  }

  /** The ids met by following `next` from `from`, at most `n` of them. */
  function Chain(next: seq<Slot>, from: Slot, n: nat): seq<Slot>
    decreases n
  {
    if n == 0 || from >= |next| then [] else [from] + Chain(next, next[from], n - 1)
  }

  /** The logical order of a queue: `length` steps along `next` from head. */
  function Elements(q: Queue): seq<Slot>
  {
    Chain(q.next, q.head, q.length)
  }

  /** A queue is well formed when its links describe the order they produce. */
  ghost predicate Valid(q: Queue)
  {
    Represents(q, Elements(q))
  }

  /** Following `next` from `from`, INVALID is met after exactly `n` steps. */
  predicate ReachesEnd(next: seq<Slot>, from: Slot, n: nat)
    decreases n
  {
    if from == INVALID then n == 0
    else from < |next| && n > 0 && ReachesEnd(next, next[from], n - 1)
  }

  /**
   * _IQUEUE_VALIDATE: tail.next and head.prev are INVALID, and walking
   * `next` from head counts exactly `length` ids.  The source only runs it
   * on non-empty queues (it indexes the arrays with head and tail).
   */
  predicate Validate(q: Queue)
  {
    && q.tail < |q.next| && q.head < |q.prev|
    && q.next[q.tail] == INVALID && q.prev[q.head] == INVALID
    && ReachesEnd(q.next, q.head, q.length)
  }

  /** s with every occurrence of `src` replaced by `dst`. */
  function Replace(s: seq<Slot>, src: Slot, dst: Slot): (r: seq<Slot>)
    ensures |r| == |s|
  {
    seq(|s|, i requires 0 <= i < |s| => if s[i] == src then dst else s[i])
  }

  // ---------------------------------------------------------------------
  // The abstraction

  lemma {:induction false} ChainFollows(q: Queue, s: seq<Slot>, i: nat)
    requires Represents(q, s)
    requires i <= |s|
    ensures Chain(q.next, if i < |s| then s[i] else INVALID, |s| - i) == s[i..]
    decreases |s| - i
  {
    if i < |s| {
      ChainFollows(q, s, i + 1);
      assert s[i..] == [s[i]] + s[i + 1..];
    }
  }

  /** A queue represents exactly one order: the one its links produce. */
  lemma RepresentsElements(q: Queue, s: seq<Slot>)
    requires Represents(q, s)
    ensures Elements(q) == s
    ensures Valid(q)
  {
    ChainFollows(q, s, 0);
    assert s[0..] == s;
  }

  lemma {:induction false} ReachesEndFrom(q: Queue, s: seq<Slot>, i: nat)
    requires Represents(q, s)
    requires i <= |s|
    ensures ReachesEnd(q.next, if i < |s| then s[i] else INVALID, |s| - i)
    decreases |s| - i
  {
    if i < |s| {
      ReachesEndFrom(q, s, i + 1);
    }
  }

  /** Every well-formed non-empty queue passes _IQUEUE_VALIDATE. */
  lemma {:induction false} ValidPassesValidate(q: Queue)
    requires Valid(q)
    requires q.length > 0
    ensures Validate(q)
  {
    var s := Elements(q);
    ReachesEndFrom(q, s, 0);
    assert q.next[s[|s| - 1]] == INVALID;
    assert q.prev[s[0]] == INVALID;
  }

  // ---------------------------------------------------------------------
  // Operations

  /** IQUEUE_INIT: length 0, head and tail INVALID; the link arrays are left as they were. */
  function Init(q: Queue): (r: Queue)
    requires Shaped(q)
    ensures Valid(r) && Elements(r) == []
    ensures Capacity(r) == Capacity(q)
  {
    var r := q.(length := 0, head := INVALID, tail := INVALID);
    RepresentsElements(r, []);
    r
  }

  /** IQUEUE_EMPTY: the head is INVALID. */
  function IsEmpty(q: Queue): (r: bool)
    requires Valid(q)
    ensures r <==> Elements(q) == []
  {
    q.head == INVALID
  }

  lemma PushHeadRepresents(q: Queue, s: seq<Slot>, id: Slot, r: Queue)
    requires Represents(q, s)
    requires id < Capacity(q) && id !in s
    requires r.length == q.length + 1 && r.head == id
    requires r.tail == (if q.tail != INVALID then q.tail else id)
    requires r.next == q.next[id := q.head]
    requires r.prev == (if q.head != INVALID then q.prev[id := INVALID][q.head := id] else q.prev[id := INVALID])
    ensures Represents(r, [id] + s)
  {
    PushHeadNext(q, s, id, r);
    PushHeadPrev(q, s, id, r);
    PrependedShape(s, id, Capacity(r));
  }

  lemma PushHeadNext(q: Queue, s: seq<Slot>, id: Slot, r: Queue)
    requires Represents(q, s)
    requires id < Capacity(q) && id !in s
    requires r.next == q.next[id := q.head]
    ensures forall i | 0 <= i < |s| + 1 :: r.next[([id] + s)[i]] == After([id] + s, i)
  {
    var t := [id] + s;
    forall i | 0 <= i < |t|
      ensures r.next[t[i]] == After(t, i)
    {
      if i > 0 {
        assert t[i] == s[i - 1] != id;
        assert q.next[s[i - 1]] == After(s, i - 1);
        if i + 1 < |t| {
          assert t[i + 1] == s[i];
        }
      } else {
        assert t[0] == id;
        if |s| > 0 {
          assert t[1] == s[0];
        }
      }
    }
  }

  lemma PushHeadPrev(q: Queue, s: seq<Slot>, id: Slot, r: Queue)
    requires Represents(q, s)
    requires id < Capacity(q) && id !in s
    requires r.prev == (if q.head != INVALID then q.prev[id := INVALID][q.head := id] else q.prev[id := INVALID])
    ensures forall i | 0 <= i < |s| + 1 :: r.prev[([id] + s)[i]] == Before([id] + s, i)
  {
    var t := [id] + s;
    forall i | 0 <= i < |t|
      ensures r.prev[t[i]] == Before(t, i)
    {
      if i > 0 {
        assert t[i] == s[i - 1] != id;
        assert q.prev[s[i - 1]] == Before(s, i - 1);
        assert t[i - 1] == if i == 1 then id else s[i - 2];
      } else {
        assert t[0] == id;
      }
    }
  }

  /** Prepending a fresh id to a distinct sequence of in-range ids keeps it distinct and in range. */
  lemma PrependedShape(s: seq<Slot>, id: Slot, cap: nat)
    requires Distinct(s) && id !in s
    requires id < cap && forall i | 0 <= i < |s| :: s[i] < cap
    ensures Distinct([id] + s)
    ensures forall i | 0 <= i < |s| + 1 :: ([id] + s)[i] < cap
  {
    var t := [id] + s;
    forall i, j | 0 <= i < j < |t|
      ensures t[i] != t[j]
    {
      assert t[j] == s[j - 1];
      if i > 0 {
        assert t[i] == s[i - 1];
      }
    }
    forall i | 0 <= i < |t|
      ensures t[i] < cap
    {
      if i > 0 {
        assert t[i] == s[i - 1];
      }
    }
  }

  /** IQUEUE_PUSH_HEAD: links `id` in front of the current head. */
  function PushHead(q: Queue, id: Slot): (r: Queue)
    requires Valid(q)
    requires id < Capacity(q) && id !in Elements(q)
    ensures Valid(r) && Elements(r) == [id] + Elements(q)
    ensures Capacity(r) == Capacity(q)
    ensures Elements(q) == [] ==> r.head == r.tail == id && r.prev[id] == INVALID && r.next[id] == INVALID
    ensures Validate(r)
  {
    var prev := q.prev[id := INVALID];
    var next := q.next[id := q.head];
    var prev := if q.head != INVALID then prev[q.head := id] else prev;
    var tail := if q.tail != INVALID then q.tail else id;
    var q' := Queue(q.length + 1, id, tail, prev, next);
    PushHeadRepresents(q, Elements(q), id, q');
    RepresentsElements(q', [id] + Elements(q));
    ValidPassesValidate(q');
    q'
  }

  lemma PushTailRepresents(q: Queue, s: seq<Slot>, id: Slot, r: Queue)
    requires Represents(q, s)
    requires id < Capacity(q) && id !in s
    requires r.length == q.length + 1 && r.tail == id
    requires r.head == (if q.head != INVALID then q.head else id)
    requires r.prev == q.prev[id := q.tail]
    requires r.next == (if q.tail != INVALID then q.next[id := INVALID][q.tail := id] else q.next[id := INVALID])
    ensures Represents(r, s + [id])
  {
    PushTailNext(q, s, id, r);
    PushTailPrev(q, s, id, r);
    AppendedShape(s, id, Capacity(r));
  }

  /** Appending a fresh id to a distinct sequence of in-range ids keeps it distinct and in range. */
  lemma AppendedShape(s: seq<Slot>, id: Slot, cap: nat)
    requires Distinct(s) && id !in s
    requires id < cap && forall i | 0 <= i < |s| :: s[i] < cap
    ensures Distinct(s + [id])
    ensures forall i | 0 <= i < |s| + 1 :: (s + [id])[i] < cap
  {
    var t := s + [id];
    forall i, j | 0 <= i < j < |t|
      ensures t[i] != t[j]
    {
      assert t[i] == s[i];
    }
    forall i | 0 <= i < |t|
      ensures t[i] < cap
    {
      if i < |s| {
        assert t[i] == s[i];
      }
    }
  }

  lemma PushTailNext(q: Queue, s: seq<Slot>, id: Slot, r: Queue)
    requires Represents(q, s)
    requires id < Capacity(q) && id !in s
    requires r.next == (if q.tail != INVALID then q.next[id := INVALID][q.tail := id] else q.next[id := INVALID])
    ensures forall i | 0 <= i < |s| + 1 :: r.next[(s + [id])[i]] == After(s + [id], i)
  {
    var t := s + [id];
    forall i | 0 <= i < |t|
      ensures r.next[t[i]] == After(t, i)
    {
      if i < |s| {
        assert t[i] == s[i] != id;
        assert q.next[s[i]] == After(s, i);
        if i + 1 < |s| {
          assert t[i + 1] == s[i + 1];
        }
      } else {
        assert t[i] == id;
      }
    }
  }

  lemma PushTailPrev(q: Queue, s: seq<Slot>, id: Slot, r: Queue)
    requires Represents(q, s)
    requires id < Capacity(q) && id !in s
    requires r.prev == q.prev[id := q.tail]
    ensures forall i | 0 <= i < |s| + 1 :: r.prev[(s + [id])[i]] == Before(s + [id], i)
  {
    var t := s + [id];
    forall i | 0 <= i < |t|
      ensures r.prev[t[i]] == Before(t, i)
    {
      if i < |s| {
        assert t[i] == s[i] != id;
        assert q.prev[s[i]] == Before(s, i);
        if i > 0 {
          assert t[i - 1] == s[i - 1];
        }
      } else {
        assert t[i] == id;
        if |s| > 0 {
          assert t[i - 1] == s[|s| - 1];
        }
      }
    }
  }

  /** IQUEUE_PUSH_TAIL: links `id` after the current tail. */
  function PushTail(q: Queue, id: Slot): (r: Queue)
    requires Valid(q)
    requires id < Capacity(q) && id !in Elements(q)
    ensures Valid(r) && Elements(r) == Elements(q) + [id]
    ensures Capacity(r) == Capacity(q)
    ensures Elements(q) == [] ==> r.head == r.tail == id && r.prev[id] == INVALID && r.next[id] == INVALID
    ensures Validate(r)
  {
    var prev := q.prev[id := q.tail];
    var next := q.next[id := INVALID];
    var next := if q.tail != INVALID then next[q.tail := id] else next;
    var head := if q.head != INVALID then q.head else id;
    var q' := Queue(q.length + 1, head, id, prev, next);
    PushTailRepresents(q, Elements(q), id, q');
    RepresentsElements(q', Elements(q) + [id]);
    ValidPassesValidate(q');
    q'
  }

  /**
   * IQUEUE_NTH: the id at logical position `n`, using the head and tail
   * shortcuts and otherwise walking `next` from head.  On an empty queue
   * position 0 yields the head, INVALID.
   */
  method Nth(q: Queue, n: int) returns (id: Slot)
    requires Valid(q)
    requires 0 <= n < q.length || n == 0
    ensures id == if n < q.length then Elements(q)[n] else INVALID
  {
    ghost var s := Elements(q);
    assert Represents(q, s);
    if n == 0 {
      id := q.head;
    } else if n == q.length - 1 {
      id := q.tail;
    } else {
      id := q.head;
      var k := 0;
      while k < n
        invariant 0 <= k <= n
        invariant id == s[k]
      {
        id := q.next[id];
        k := k + 1;
      }
    }
  }

  /** IQUEUE_FOREACH: the ids visited from head along `next` until INVALID. */
  method Foreach(q: Queue) returns (ids: seq<Slot>)
    requires Valid(q)
    ensures ids == Elements(q)
  {
    ghost var s := Elements(q);
    assert Represents(q, s);
    ids := [];
    var it := q.head;
    while it != INVALID
      invariant |ids| <= |s|
      invariant ids == s[..|ids|]
      invariant it == if |ids| < |s| then s[|ids|] else INVALID
      decreases |s| - |ids|
    {
      ids := ids + [it];
      it := q.next[it];
    }
  }

  /** Positions of `s` with `val` put in at position `nth`. */
  lemma InsertedAt(s: seq<Slot>, nth: nat, val: Slot, i: nat)
    requires nth <= |s| && i <= |s|
    ensures (s[..nth] + [val] + s[nth..])[i] == if i < nth then s[i] else if i == nth then val else s[i - 1]
  {
  }

  lemma InsertMiddleNext(q: Queue, s: seq<Slot>, nth: nat, val: Slot, r: Queue)
    requires Represents(q, s)
    requires 0 < nth < |s|
    requires val < Capacity(q) && val !in s
    requires r.next == q.next[val := s[nth]][s[nth - 1] := val]
    ensures forall i | 0 <= i < |s| + 1 ::
      r.next[(s[..nth] + [val] + s[nth..])[i]] == After(s[..nth] + [val] + s[nth..], i)
  {
    var t := s[..nth] + [val] + s[nth..];
    forall i | 0 <= i < |t|
      ensures r.next[t[i]] == After(t, i)
    {
      InsertedAt(s, nth, val, i);
      if i + 1 < |t| {
        InsertedAt(s, nth, val, i + 1);
      }
      if i < nth - 1 {
        assert q.next[s[i]] == After(s, i);
      } else if i > nth {
        assert q.next[s[i - 1]] == After(s, i - 1);
      }
    }
  }

  lemma InsertMiddlePrev(q: Queue, s: seq<Slot>, nth: nat, val: Slot, r: Queue)
    requires Represents(q, s)
    requires 0 < nth < |s|
    requires val < Capacity(q) && val !in s
    requires r.prev == q.prev[val := s[nth - 1]][s[nth] := val]
    ensures forall i | 0 <= i < |s| + 1 ::
      r.prev[(s[..nth] + [val] + s[nth..])[i]] == Before(s[..nth] + [val] + s[nth..], i)
  {
    var t := s[..nth] + [val] + s[nth..];
    forall i | 0 <= i < |t|
      ensures r.prev[t[i]] == Before(t, i)
    {
      InsertedAt(s, nth, val, i);
      if i > 0 {
        InsertedAt(s, nth, val, i - 1);
      }
      if i < nth {
        assert q.prev[s[i]] == Before(s, i);
      } else if i > nth + 1 {
        assert q.prev[s[i - 1]] == Before(s, i - 1);
      }
    }
  }

  /** Putting a fresh id into a distinct sequence of in-range ids keeps it distinct and in range. */
  lemma InsertedShape(s: seq<Slot>, nth: nat, val: Slot, cap: nat)
    requires Distinct(s) && val !in s && 0 < nth < |s|
    requires val < cap && forall i | 0 <= i < |s| :: s[i] < cap
    ensures Distinct(s[..nth] + [val] + s[nth..])
    ensures forall i | 0 <= i < |s| + 1 :: (s[..nth] + [val] + s[nth..])[i] < cap
    ensures (s[..nth] + [val] + s[nth..])[0] == s[0]
    ensures (s[..nth] + [val] + s[nth..])[|s|] == s[|s| - 1]
  {
    var t := s[..nth] + [val] + s[nth..];
    forall i, j | 0 <= i < j < |t|
      ensures t[i] != t[j]
    {
      InsertedAt(s, nth, val, i);
      InsertedAt(s, nth, val, j);
    }
    forall i | 0 <= i < |t|
      ensures t[i] < cap
    {
      InsertedAt(s, nth, val, i);
    }
    InsertedAt(s, nth, val, 0);
    InsertedAt(s, nth, val, |s|);
  }

  lemma InsertMiddleRepresents(q: Queue, s: seq<Slot>, nth: nat, val: Slot, r: Queue)
    requires Represents(q, s)
    requires 0 < nth < |s|
    requires val < Capacity(q) && val !in s
    requires r.length == q.length + 1 && r.head == q.head && r.tail == q.tail
    requires r.next == q.next[val := s[nth]][s[nth - 1] := val]
    requires r.prev == q.prev[val := s[nth - 1]][s[nth] := val]
    ensures Represents(r, s[..nth] + [val] + s[nth..])
  {
    InsertMiddleNext(q, s, nth, val, r);
    InsertMiddlePrev(q, s, nth, val, r);
    InsertedShape(s, nth, val, Capacity(r));
  }

  /**
   * IQUEUE_INSERT: puts `val` at logical position `nth`.  The source
   * asserts room for one more id and, on the walking path, that position
   * `nth` exists; `val` must not already be linked.
   */
  method Insert(q: Queue, nth: nat, val: Slot) returns (r: Queue)
    requires Valid(q)
    requires q.length < Capacity(q)
    requires nth <= q.length
    requires val < Capacity(q) && val !in Elements(q)
    ensures Valid(r) && Elements(r) == Elements(q)[..nth] + [val] + Elements(q)[nth..]
    ensures Capacity(r) == Capacity(q)
    ensures Validate(r)
  {
    ghost var s := Elements(q);
    assert Represents(q, s);
    if nth == 0 {
      r := PushHead(q, val);
      assert s[..0] == [] && s[0..] == s;
    } else if nth == q.length {
      r := PushTail(q, val);
      assert s[..nth] == s && s[nth..] == [];
    } else {
      var id := q.head;
      var k := 0;
      while k < nth && id != INVALID
        invariant 0 <= k <= nth
        invariant id == s[k]
        decreases nth - k
      {
        id := q.next[id];
        k := k + 1;
      }
      r := LinkBefore(q, id, val);
      LinkBeforeValid(q, nth, val);
    }
  }

  /** The linking step of IQUEUE_INSERT: `val` goes between `id` and its predecessor. */
  function LinkBefore(q: Queue, id: Slot, val: Slot): Queue
    requires Shaped(q) && id < Capacity(q) && val < Capacity(q) && q.prev[id] < Capacity(q)
  {
    var prev := q.prev[val := q.prev[id]];
    var next := q.next[val := id];
    Queue(q.length + 1, q.head, q.tail, prev[id := val], next[prev[val] := val])
  }

  /** Linking `val` before the id at an inner position `nth` puts it at that position. */
  lemma LinkBeforeValid(q: Queue, nth: nat, val: Slot)
    requires Valid(q) && 0 < nth < q.length
    requires val < Capacity(q) && val !in Elements(q)
    ensures Elements(q)[nth] < Capacity(q) && q.prev[Elements(q)[nth]] < Capacity(q)
    ensures var r := LinkBefore(q, Elements(q)[nth], val);
      && Valid(r) && Elements(r) == Elements(q)[..nth] + [val] + Elements(q)[nth..]
      && Capacity(r) == Capacity(q) && Validate(r)
  {
    var s := Elements(q);
    assert Represents(q, s);
    assert q.prev[s[nth]] == Before(s, nth) == s[nth - 1];
    var r := LinkBefore(q, s[nth], val);
    InsertMiddleRepresents(q, s, nth, val, r);
    RepresentsElements(r, s[..nth] + [val] + s[nth..]);
    ValidPassesValidate(r);
  }

  /** The shape of `s` with position `n` removed. */
  lemma RemoveAt(s: seq<Slot>, n: nat)
    requires n < |s|
    ensures |s[..n] + s[n + 1..]| == |s| - 1
    ensures forall i | 0 <= i < |s| - 1 :: (s[..n] + s[n + 1..])[i] == if i < n then s[i] else s[i + 1]
  {
  }

  /** Removing one position of a distinct sequence keeps it distinct. */
  lemma RemoveAtDistinct(s: seq<Slot>, n: nat)
    requires n < |s| && Distinct(s)
    ensures Distinct(s[..n] + s[n + 1..])
  {
    var t := s[..n] + s[n + 1..];
    RemoveAt(s, n);
    forall i, j | 0 <= i < j < |t|
      ensures t[i] != t[j]
    {
      var i' := if i < n then i else i + 1;
      var j' := if j < n then j else j + 1;
      assert t[i] == s[i'] && t[j] == s[j'] && i' < j';
    }
  }

  /** Distinct ids below `cap` number at most `cap`. */
  lemma {:induction false} DistinctBound(s: seq<Slot>, cap: nat)
    requires Distinct(s)
    requires forall i | 0 <= i < |s| :: s[i] < cap
    ensures |s| <= cap
    decreases cap
  {
    if |s| == 0 {
    } else if cap - 1 in s {
      var k := IndexOf(s, cap - 1);
      assert s[0] < cap;
      var t := s[..k] + s[k + 1..];
      RemoveAt(s, k);
      RemoveAtDistinct(s, k);
      forall i | 0 <= i < |t|
        ensures t[i] < cap - 1
      {
        var j := if i < k then i else i + 1;
        assert t[i] == s[j] && s[j] != s[k];
      }
      DistinctBound(t, cap - 1);
    } else {
      assert s[0] < cap;
      forall i | 0 <= i < |s|
        ensures s[i] < cap - 1
      {
        assert s[i] != cap - 1;
      }
      DistinctBound(s, cap - 1);
    }
  }

  /** A well-formed queue never lists more ids than it has slots. */
  lemma LengthBound(q: Queue)
    requires Valid(q)
    ensures q.length <= Capacity(q)
  {
    DistinctBound(Elements(q), Capacity(q));
  }

  lemma PopNextLinks(q: Queue, s: seq<Slot>, n: nat, r: Queue, t: seq<Slot>)
    requires Represents(q, s)
    requires n < |s|
    requires t == s[..n] + s[n + 1..]
    requires |r.next| == Capacity(q)
    requires forall x | 0 <= x < Capacity(q) && x != s[n] ::
      r.next[x] == (if n > 0 && x == s[n - 1] then q.next[s[n]] else q.next[x])
    ensures forall i {:trigger r.next[t[i]]} | 0 <= i < |t| :: r.next[t[i]] == After(t, i)
  {
    RemoveAt(s, n);
    assert q.next[s[n]] == After(s, n);
    forall i {:trigger r.next[t[i]]} | 0 <= i < |t|
      ensures r.next[t[i]] == After(t, i)
    {
      var j := if i < n then i else i + 1;
      assert t[i] == s[j] && s[j] != s[n];
      assert q.next[s[j]] == After(s, j);
    }
  }

  lemma PopPrevLinks(q: Queue, s: seq<Slot>, n: nat, r: Queue, t: seq<Slot>)
    requires Represents(q, s)
    requires n < |s|
    requires t == s[..n] + s[n + 1..]
    requires |r.prev| == Capacity(q)
    requires forall x | 0 <= x < Capacity(q) && x != s[n] ::
      r.prev[x] == (if n + 1 < |s| && x == s[n + 1] then q.prev[s[n]] else q.prev[x])
    ensures forall i {:trigger r.prev[t[i]]} | 0 <= i < |t| :: r.prev[t[i]] == Before(t, i)
  {
    RemoveAt(s, n);
    assert q.prev[s[n]] == Before(s, n);
    forall i {:trigger r.prev[t[i]]} | 0 <= i < |t|
      ensures r.prev[t[i]] == Before(t, i)
    {
      var j := if i < n then i else i + 1;
      assert t[i] == s[j] && s[j] != s[n];
      assert q.prev[s[j]] == Before(s, j);
    }
  }

  lemma PopRepresents(q: Queue, s: seq<Slot>, n: nat, r: Queue)
    requires Represents(q, s)
    requires n < |s|
    requires |r.next| == |r.prev| == Capacity(q)
    requires r.length == q.length - 1
    requires r.head == (if n == 0 then q.next[s[n]] else q.head)
    requires r.tail == (if n == |s| - 1 then q.prev[s[n]] else q.tail)
    requires forall x | 0 <= x < Capacity(q) && x != s[n] ::
      r.next[x] == (if n > 0 && x == s[n - 1] then q.next[s[n]] else q.next[x])
    requires forall x | 0 <= x < Capacity(q) && x != s[n] ::
      r.prev[x] == (if n + 1 < |s| && x == s[n + 1] then q.prev[s[n]] else q.prev[x])
    ensures Represents(r, s[..n] + s[n + 1..])
  {
    var t := s[..n] + s[n + 1..];
    RemoveAt(s, n);
    RemoveAtDistinct(s, n);
    PopNextLinks(q, s, n, r, t);
    PopPrevLinks(q, s, n, r, t);
    PopEnds(q, s, n, r, t);
  }

  lemma PopEnds(q: Queue, s: seq<Slot>, n: nat, r: Queue, t: seq<Slot>)
    requires Represents(q, s)
    requires n < |s|
    requires t == s[..n] + s[n + 1..]
    requires |r.next| == Capacity(q)
    requires r.head == (if n == 0 then q.next[s[n]] else q.head)
    requires r.tail == (if n == |s| - 1 then q.prev[s[n]] else q.tail)
    ensures r.head == (if |t| == 0 then INVALID else t[0])
    ensures r.tail == (if |t| == 0 then INVALID else t[|t| - 1])
    ensures forall i | 0 <= i < |t| :: t[i] < Capacity(r)
  {
    RemoveAt(s, n);
    assert q.next[s[n]] == After(s, n);
    assert q.prev[s[n]] == Before(s, n);
  }

  /**
   * IQUEUE_POP_NTH: unlinks and returns the id at logical position `n`,
   * resetting its own links to INVALID.  On an empty queue it returns
   * INVALID and changes nothing, whatever `n` is.
   */
  method PopNth(q: Queue, n: int) returns (r: Queue, id: Slot)
    requires Valid(q)
    requires q.length == 0 || 0 <= n < q.length
    ensures q.length == 0 ==> id == INVALID && r == q
    ensures q.length > 0 ==> id == Elements(q)[n]
    ensures q.length > 0 ==> Valid(r) && Elements(r) == Elements(q)[..n] + Elements(q)[n + 1..]
    ensures Capacity(r) == Capacity(q)
    ensures q.length > 0 ==> r.prev[id] == INVALID && r.next[id] == INVALID
  {
    id := INVALID;
    if n == 0 {
      id := q.head;
    } else if n == q.length - 1 {
      id := q.tail;
    } else if q.length > 0 {
      id := Nth(q, n);
    }
    PopNthFinds(q, n);
    r := q;
    if id != INVALID {
      r := Unlink(q, id);
      UnlinkValid(q, n);
    }
  }

  /** The id POP_NTH picks is the one at position `n`, and it is INVALID only on an empty queue. */
  lemma PopNthFinds(q: Queue, n: int)
    requires Valid(q)
    requires q.length == 0 || 0 <= n < q.length
    ensures q.length == 0 ==> q.head == INVALID
    ensures q.length > 0 ==> q.head == Elements(q)[0] && q.tail == Elements(q)[q.length - 1]
    ensures q.length > 0 ==> Elements(q)[n] != INVALID
  {
    assert Represents(q, Elements(q));
  }

  /** Unlinking the id at position `n` of a valid queue leaves a valid queue of the rest. */
  lemma UnlinkValid(q: Queue, n: nat)
    requires Valid(q) && n < q.length
    ensures Elements(q)[n] < Capacity(q)
    ensures var id := Elements(q)[n];
      && q.prev[id] == Before(Elements(q), n) && q.next[id] == After(Elements(q), n)
      && (q.prev[id] == INVALID || q.prev[id] < Capacity(q))
      && (q.next[id] == INVALID || q.next[id] < Capacity(q))
    ensures var id := Elements(q)[n]; var r := Unlink(q, id);
      && Valid(r) && Elements(r) == Elements(q)[..n] + Elements(q)[n + 1..]
      && Capacity(r) == Capacity(q) && r.prev[id] == INVALID && r.next[id] == INVALID
  {
    var s := Elements(q);
    assert Represents(q, s);
    UnlinkRepresents(q, s, n);
    RepresentsElements(Unlink(q, s[n]), s[..n] + s[n + 1..]);
  }

  /**
   * The unlinking step of IQUEUE_POP_NTH: the neighbours of `id` are
   * joined, head and tail move off it, and its own links become INVALID.
   */
  function Unlink(q: Queue, id: Slot): Queue
    requires Shaped(q) && q.length > 0 && id < Capacity(q)
    requires q.prev[id] == INVALID || q.prev[id] < Capacity(q)
    requires q.next[id] == INVALID || q.next[id] < Capacity(q)
  {
    var next := if q.prev[id] != INVALID then q.next[q.prev[id] := q.next[id]] else q.next;
    var prev := if q.next[id] != INVALID then q.prev[q.next[id] := q.prev[id]] else q.prev;
    var head := if q.head == id then next[id] else q.head;
    var tail := if q.tail == id then prev[id] else q.tail;
    Queue(q.length - 1, head, tail, prev[id := INVALID], next[id := INVALID])
  }

  /** Unlinking the id at position `n` removes exactly that position. */
  lemma UnlinkRepresents(q: Queue, s: seq<Slot>, n: nat)
    requires Represents(q, s) && n < |s|
    ensures Before(s, n) == INVALID || Before(s, n) < Capacity(q)
    ensures After(s, n) == INVALID || After(s, n) < Capacity(q)
    ensures Represents(Unlink(q, s[n]), s[..n] + s[n + 1..])
  {
    var id := s[n];
    assert q.prev[s[n]] == Before(s, n) && q.next[s[n]] == After(s, n);
    var r := Unlink(q, id);
    forall x | 0 <= x < Capacity(q) && x != s[n]
      ensures r.next[x] == (if n > 0 && x == s[n - 1] then q.next[s[n]] else q.next[x])
    {
    }
    forall x | 0 <= x < Capacity(q) && x != s[n]
      ensures r.prev[x] == (if n + 1 < |s| && x == s[n + 1] then q.prev[s[n]] else q.prev[x])
    {
    }
    assert n > 0 ==> s[n - 1] != s[n];
    assert n + 1 < |s| ==> s[n + 1] != s[n];
    PopRepresents(q, s, n, r);
  }

  /** IQUEUE_POP_HEAD: POP_NTH at position 0. */
  method PopHead(q: Queue) returns (r: Queue, id: Slot)
    requires Valid(q)
    ensures q.length == 0 ==> id == INVALID && r == q
    ensures q.length > 0 ==> id == Elements(q)[0] && Valid(r) && Elements(r) == Elements(q)[1..]
    ensures Capacity(r) == Capacity(q)
  {
    r, id := PopNth(q, 0);
    assert Elements(q)[..0] == [];
  }

  /** IQUEUE_POP_TAIL: POP_NTH at position length - 1 (which is -1 on an empty queue). */
  method PopTail(q: Queue) returns (r: Queue, id: Slot)
    requires Valid(q)
    ensures q.length == 0 ==> id == INVALID && r == q
    ensures q.length > 0 ==> id == Elements(q)[q.length - 1] && Valid(r) && Elements(r) == Elements(q)[..q.length - 1]
    ensures Capacity(r) == Capacity(q)
  {
    r, id := PopNth(q, q.length - 1);
    assert Elements(q)[q.length..] == [];
  }

  /** Renaming the id at position `k` of a distinct sequence. */
  lemma ReplaceAt(s: seq<Slot>, k: nat, src: Slot, dst: Slot)
    requires k < |s| && s[k] == src && Distinct(s)
    requires dst == src || dst !in s
    ensures forall i | 0 <= i < |s| :: Replace(s, src, dst)[i] == if i == k then dst else s[i]
    ensures Distinct(Replace(s, src, dst))
  {
    var t := Replace(s, src, dst);
    forall i | 0 <= i < |s|
      ensures t[i] == if i == k then dst else s[i]
    {
      if i != k {
        assert s[i] != s[k];
      }
    }
    forall i, j | 0 <= i < j < |t|
      ensures t[i] != t[j]
    {
      if i != k && j != k {
        assert s[i] != s[j];
      } else if i == k {
        assert s[j] != src;
      } else {
        assert s[i] != src;
      }
    }
  }

  /** The position at which `x` occurs in a sequence that holds it. */
  lemma IndexOf(s: seq<Slot>, x: Slot) returns (k: nat)
    requires x in s
    ensures k < |s| && s[k] == x
  {
    k :| 0 <= k < |s| && s[k] == x;
  }

  lemma MoveNextLinks(q: Queue, s: seq<Slot>, k: nat, dst: Slot, r: Queue, t: seq<Slot>)
    requires Represents(q, s)
    requires k < |s| && dst < Capacity(q) && (dst == s[k] || dst !in s)
    requires t == Replace(s, s[k], dst)
    requires |r.next| == Capacity(q)
    requires r.next[dst] == q.next[s[k]]
    requires forall x | 0 <= x < Capacity(q) && x != dst ::
      r.next[x] == (if x == q.prev[s[k]] then dst else q.next[x])
    ensures forall i {:trigger r.next[t[i]]} | 0 <= i < |t| :: r.next[t[i]] == After(t, i)
  {
    ReplaceAt(s, k, s[k], dst);
    assert q.next[s[k]] == After(s, k);
    assert q.prev[s[k]] == Before(s, k);
    forall i {:trigger r.next[t[i]]} | 0 <= i < |t|
      ensures r.next[t[i]] == After(t, i)
    {
      if i != k {
        assert t[i] == s[i] && s[i] != dst;
        assert q.next[s[i]] == After(s, i);
        assert s[i] == q.prev[s[k]] <==> i + 1 == k;
      }
    }
  }

  lemma MovePrevLinks(q: Queue, s: seq<Slot>, k: nat, dst: Slot, r: Queue, t: seq<Slot>)
    requires Represents(q, s)
    requires k < |s| && dst < Capacity(q) && (dst == s[k] || dst !in s)
    requires t == Replace(s, s[k], dst)
    requires |r.prev| == Capacity(q)
    requires r.prev[dst] == q.prev[s[k]]
    requires forall x | 0 <= x < Capacity(q) && x != dst ::
      r.prev[x] == (if x == q.next[s[k]] then dst else q.prev[x])
    ensures forall i {:trigger r.prev[t[i]]} | 0 <= i < |t| :: r.prev[t[i]] == Before(t, i)
  {
    ReplaceAt(s, k, s[k], dst);
    assert q.next[s[k]] == After(s, k);
    assert q.prev[s[k]] == Before(s, k);
    forall i {:trigger r.prev[t[i]]} | 0 <= i < |t|
      ensures r.prev[t[i]] == Before(t, i)
    {
      if i != k {
        assert t[i] == s[i] && s[i] != dst;
        assert q.prev[s[i]] == Before(s, i);
        assert s[i] == q.next[s[k]] <==> i == k + 1;
      }
    }
  }

  lemma MoveEnds(q: Queue, s: seq<Slot>, k: nat, dst: Slot, r: Queue, t: seq<Slot>)
    requires Represents(q, s)
    requires k < |s| && dst < Capacity(q) && (dst == s[k] || dst !in s)
    requires t == Replace(s, s[k], dst)
    requires |r.next| == Capacity(q)
    requires r.head == (if q.head == s[k] then dst else q.head)
    requires r.tail == (if q.tail == s[k] then dst else q.tail)
    ensures r.head == (if |t| == 0 then INVALID else t[0])
    ensures r.tail == (if |t| == 0 then INVALID else t[|t| - 1])
    ensures forall i | 0 <= i < |t| :: t[i] < Capacity(r)
  {
    ReplaceAt(s, k, s[k], dst);
    assert s[0] == s[k] <==> k == 0;
    assert s[|s| - 1] == s[k] <==> k == |s| - 1;
  }

  lemma {:induction false} MoveRepresents(q: Queue, s: seq<Slot>, src: Slot, dst: Slot, r: Queue)
    requires Represents(q, s)
    requires src in s
    requires dst < Capacity(q) && (dst == src || dst !in s)
    requires |r.next| == |r.prev| == Capacity(q)
    requires r.length == q.length
    requires r.head == (if q.head == src then dst else q.head)
    requires r.tail == (if q.tail == src then dst else q.tail)
    requires r.next[dst] == q.next[src] && r.prev[dst] == q.prev[src]
    requires forall x | 0 <= x < Capacity(q) && x != dst ::
      r.next[x] == (if x == q.prev[src] then dst else q.next[x])
    requires forall x | 0 <= x < Capacity(q) && x != dst ::
      r.prev[x] == (if x == q.next[src] then dst else q.prev[x])
    ensures Represents(r, Replace(s, src, dst))
  {
    var t := Replace(s, src, dst);
    var k := IndexOf(s, src);
    ReplaceAt(s, k, src, dst);
    MoveNextLinks(q, s, k, dst, r, t);
    MovePrevLinks(q, s, k, dst, r, t);
    MoveEnds(q, s, k, dst, r, t);
  }

  /**
   * _IQUEUE_MOVE: relocates the links of slot `src` to slot `dst`, points
   * the neighbours (and head/tail) at `dst`, and leaves `src`'s own links
   * stale.  The logical order keeps its shape with `src` renamed `dst`.
   */
  function Move(q: Queue, src: Slot, dst: Slot): (r: Queue)
    requires Valid(q)
    requires src in Elements(q)
    requires dst < Capacity(q) && (dst == src || dst !in Elements(q))
    ensures Valid(r) && Elements(r) == Replace(Elements(q), src, dst)
    ensures Capacity(r) == Capacity(q)
  {
    var prev := q.prev[dst := q.prev[src]];
    var next := q.next[dst := q.next[src]];
    var next := if prev[dst] != INVALID then next[prev[dst] := dst] else next;
    var prev := if next[dst] != INVALID then prev[next[dst] := dst] else prev;
    var head := if q.head == src then dst else q.head;
    var tail := if q.tail == src then dst else q.tail;
    var q' := Queue(q.length, head, tail, prev, next);
    MoveRepresents(q, Elements(q), src, dst, q');
    RepresentsElements(q', Replace(Elements(q), src, dst));
    q'
  }

  /** The order survives POP_NTH(i) followed by INSERT(i, v) of the popped id. */
  method PopInsertRoundTrip(q: Queue, i: nat) returns (r: Queue)
    requires Valid(q)
    requires i < q.length
    ensures Valid(r) && Elements(r) == Elements(q)
  {
    var q1, v := PopNth(q, i);
    ghost var s := Elements(q);
    LengthBound(q);
    assert v < Capacity(q1);
    assert v !in Elements(q1) by {
      forall j | 0 <= j < |Elements(q1)|
        ensures Elements(q1)[j] != v
      {
        if j < i {
          assert Elements(q1)[j] == s[j];
        } else {
          assert Elements(q1)[j] == s[j + 1];
        }
      }
    }
    r := Insert(q1, i, v);
    assert Elements(q1)[..i] == s[..i];
    assert Elements(q1)[i..] == s[i + 1..];
    assert s == s[..i] + [s[i]] + s[i + 1..];
  }
}

=== FILE: linked_array.dfy ===
/*
 * Model of linked-array.h: a fixed array of payload cells whose logical
 * order is kept by an IQueue over the cell indices.  The array never has
 * holes: with `length` values stored, the occupied cells are exactly
 * 0 .. length-1, so a new value always goes into cell `length`, and a
 * removal fills the freed cell with the value from the last cell.
 */
module LinkedArray {
  import opened IQueue

  /** LINKED_ARRAY_FIELD refuses more than 0xFE cells, so no cell index equals INVALID. */
  const MaxCapacity: nat := 0xFE

  datatype Option<T> = None | Some(value: T)

  /** LINKED_ARRAY_FIELD: the payload cells and the queue that orders them. */
  datatype LinkedArray<T> = LinkedArray(items: seq<T>, q: Queue)

  /** LINKED_ARRAY_CAPACITY: the number of cells. */
  function Capacity<T>(a: LinkedArray<T>): nat
  {
    |a.items|
  }

  /** The occupied cells are exactly 0 .. |s|-1. */
  predicate NoHoles(s: seq<Slot>)
  {
    forall i | 0 <= i < |s| :: s[i] < |s|
  }

  /**
   * The representation invariant: a well-formed queue over one slot per
   * cell, at most 0xFE cells, and no holes.
   */
  ghost predicate Valid<T>(a: LinkedArray<T>)
  {
    && IQueue.Valid(a.q)
    && IQueue.Capacity(a.q) == |a.items| <= MaxCapacity
    && NoHoles(Elements(a.q))
  }

  lemma ValidCellsInRange<T>(a: LinkedArray<T>)
    requires Valid(a)
    ensures forall i | 0 <= i < |Elements(a.q)| :: Elements(a.q)[i] < |a.items|
    ensures a.q.length == |Elements(a.q)| <= |a.items|
  {
    assert Represents(a.q, Elements(a.q));
    LengthBound(a.q);
  }

  /** The values stored in cells `ids`, in that order. */
  function Cells<T>(items: seq<T>, ids: seq<Slot>): (r: seq<T>)
    requires forall i | 0 <= i < |ids| :: ids[i] < |items|
    ensures |r| == |ids|
  {
    seq(|ids|, i requires 0 <= i < |ids| => items[ids[i]])
  }

  /** The values in logical order: the cells the queue lists, head to tail. */
  function Values<T>(a: LinkedArray<T>): (r: seq<T>)
    requires Valid(a)
    ensures |r| == a.q.length <= Capacity(a)
  {
    ValidCellsInRange(a);
    Cells(a.items, Elements(a.q))
  }

  /** No real cell is the sentinel: the queue can always tell a cell from INVALID. */
  lemma CellsAreNotSentinel<T>(a: LinkedArray<T>)
    requires Valid(a)
    ensures forall i | 0 <= i < |Elements(a.q)| :: Elements(a.q)[i] != INVALID
  {
    ValidCellsInRange(a);
  }

  // ---------------------------------------------------------------------
  // No holes: a distinct list of n ids below n lists every id below n

  /** `s` with every id above `k` lowered by one. */
  function Lower(s: seq<Slot>, k: nat): (r: seq<Slot>)
    ensures |r| == |s|
  {
    seq(|s|, i requires 0 <= i < |s| => if s[i] > k then s[i] - 1 else s[i])
  }

  /** A distinct list of ids below `n` that misses `k < n` has fewer than `n` entries. */
  lemma MissingBound(s: seq<Slot>, n: nat, k: nat)
    requires Distinct(s) && k < n
    requires forall i | 0 <= i < |s| :: s[i] < n
    requires k !in s
    ensures |s| < n
  {
    var t := Lower(s, k);
    forall i, j | 0 <= i < j < |t|
      ensures t[i] != t[j]
    {
      assert s[i] != s[j] && s[i] != k && s[j] != k;
    }
    forall i | 0 <= i < |t|
      ensures t[i] < n - 1
    {
      assert s[i] != k;
    }
    DistinctBound(t, n - 1);
  }

  /** With no holes, every cell below the length is occupied. */
  lemma NoHolesCovers(s: seq<Slot>, k: nat)
    requires Distinct(s) && NoHoles(s)
    requires k < |s|
    ensures k in s
  {
    if k !in s {
      MissingBound(s, |s|, k);
    }
  }

  // ---------------------------------------------------------------------
  // Operations

  /**
   * LINKED_ARRAY_INIT: every cell and link zeroed (`zero` stands for the
   * all-zero payload), then IQUEUE_INIT.
   */
  function Init<T>(a: LinkedArray<T>, zero: T): (r: LinkedArray<T>)
    requires Capacity(a) <= MaxCapacity
    ensures Valid(r) && Values(r) == []
    ensures Capacity(r) == Capacity(a)
  {
    var n := |a.items|;
    var zeros := seq(n, _ => 0);
    var q := IQueue.Init(Queue(0, 0, 0, zeros, zeros));
    LinkedArray(seq(n, _ => zero), q)
  }

  /** LINKED_ARRAY_LENGTH: the queue length. */
  function Length<T>(a: LinkedArray<T>): (r: nat)
    requires Valid(a)
    ensures r == |Values(a)|
  {
    a.q.length
  }

  /** LINKED_ARRAY_IS_FULL: every cell is occupied. */
  function IsFull<T>(a: LinkedArray<T>): (r: bool)
    requires Valid(a)
    ensures r <==> |Values(a)| == Capacity(a)
  {
    a.q.length == |a.items|
  }

  /** LINKED_ARRAY_IS_EMPTY: nothing is stored. */
  function IsEmpty<T>(a: LinkedArray<T>): (r: bool)
    requires Valid(a)
    ensures r <==> Values(a) == []
  {
    a.q.length == 0
  }

  /** LINKED_ARRAY_PEEK_HEAD: the cell at the queue head (the source reads it unchecked, so the array must not be empty). */
  function PeekHead<T>(a: LinkedArray<T>): (r: T)
    requires Valid(a) && a.q.length > 0
    ensures |Values(a)| > 0 && r == Values(a)[0]
  {
    ValidCellsInRange(a);
    a.items[a.q.head]
  }

  /**
   * LINKED_ARRAY_FOREACH_PEEK: during a walk positioned at logical index
   * `i`, the value that follows, or None at the tail.
   */
  function PeekNext<T>(a: LinkedArray<T>, i: nat): (r: Option<T>)
    requires Valid(a) && i < a.q.length
    ensures r == if i + 1 < |Values(a)| then Some(Values(a)[i + 1]) else None
  {
    var ids := Elements(a.q);
    ValidCellsInRange(a);
    assert a.q.next[ids[i]] == After(ids, i);
    var it := a.q.next[ids[i]];
    if it != INVALID then Some(a.items[it]) else None
  }

  /** Writing a cell that no listed id names leaves the listed values alone. */
  lemma CellsUnchanged<T>(items: seq<T>, ids: seq<Slot>, c: nat, v: T)
    requires c < |items|
    requires forall i | 0 <= i < |ids| :: ids[i] < |items| && ids[i] != c
    ensures Cells(items[c := v], ids) == Cells(items, ids)
  {
  }

  /**
   * LINKED_ARRAY_INSERT_VAL: stores `e` in cell `length` and links that
   * cell in at logical position `pos`.  The source asserts `pos <= length`;
   * the queue insert asserts that a cell is free.
   */
  method InsertVal<T>(a: LinkedArray<T>, pos: nat, e: T) returns (r: LinkedArray<T>)
    requires Valid(a)
    requires pos <= Length(a)
    requires !IsFull(a)
    ensures Valid(r) && Capacity(r) == Capacity(a)
    ensures Values(r) == Values(a)[..pos] + [e] + Values(a)[pos..]
    ensures r.items[Length(a)] == e
  {
    ValidCellsInRange(a);
    var c: Slot := a.q.length;
    var items := a.items[c := e];
    var q := IQueue.Insert(a.q, pos, c);
    r := LinkedArray(items, q);
    InsertValKeeps(a, pos, e, r);
  }

  lemma InsertValKeeps<T>(a: LinkedArray<T>, pos: nat, e: T, r: LinkedArray<T>)
    requires Valid(a) && !IsFull(a) && pos <= a.q.length
    requires r.items == a.items[a.q.length := e]
    requires IQueue.Valid(r.q) && IQueue.Capacity(r.q) == IQueue.Capacity(a.q)
    requires Elements(r.q) == Elements(a.q)[..pos] + [a.q.length] + Elements(a.q)[pos..]
    ensures Valid(r) && Values(r) == Values(a)[..pos] + [e] + Values(a)[pos..]
  {
    var ids := Elements(a.q);
    var ids' := Elements(r.q);
    ValidCellsInRange(a);
    assert NoHoles(ids') by {
      forall i | 0 <= i < |ids'|
        ensures ids'[i] < |ids'|
      {
        if i < pos {
          assert ids'[i] == ids[i];
        } else if i > pos {
          assert ids'[i] == ids[i - 1];
        }
      }
    }
    CellsUnchanged(a.items, ids, a.q.length, e);
    assert Values(r) == Cells(r.items, ids');
    assert Values(a) == Cells(a.items, ids);
  }

  /**
   * LINKED_ARRAY_PUSH_HEAD: asserts a free cell, stores `e` in cell
   * `length` and links it at the head.
   */
  function PushHead<T>(a: LinkedArray<T>, e: T): (r: LinkedArray<T>)
    requires Valid(a)
    requires !IsFull(a)
    ensures Valid(r) && Capacity(r) == Capacity(a)
    ensures Values(r) == [e] + Values(a)
    ensures r.items[Length(a)] == e
  {
    var ids := Elements(a.q);
    ValidCellsInRange(a);
    var c: Slot := a.q.length;
    var items := a.items[c := e];
    var q := IQueue.PushHead(a.q, c);
    var r := LinkedArray(items, q);
    PushHeadKeeps(a, e, r);
    r
  }

  lemma PushHeadKeeps<T>(a: LinkedArray<T>, e: T, r: LinkedArray<T>)
    requires Valid(a) && !IsFull(a)
    requires r.items == a.items[a.q.length := e]
    requires IQueue.Valid(r.q) && IQueue.Capacity(r.q) == IQueue.Capacity(a.q)
    requires Elements(r.q) == [a.q.length] + Elements(a.q)
    ensures Valid(r) && Values(r) == [e] + Values(a)
  {
    var ids := Elements(a.q);
    var ids' := Elements(r.q);
    ValidCellsInRange(a);
    assert NoHoles(ids') by {
      forall i | 0 <= i < |ids'|
        ensures ids'[i] < |ids'|
      {
        if i > 0 {
          assert ids'[i] == ids[i - 1];
        }
      }
    }
    CellsUnchanged(a.items, ids, a.q.length, e);
    assert Values(r) == Cells(r.items, ids');
    assert Values(a) == Cells(a.items, ids);
  }

  /**
   * LINKED_ARRAY_REMOVE_INDEX: pops logical position `pos` from the queue,
   * returns its value, and if the freed cell is not the last one, copies
   * the last cell into it and moves that cell's links along.  Removing
   * from an empty array reads cell INVALID, out of bounds, so the array
   * must hold a value at `pos`.
   */
  method RemoveIndex<T>(a: LinkedArray<T>, pos: nat) returns (r: LinkedArray<T>, e: T)
    requires Valid(a)
    requires pos < Length(a)
    ensures Valid(r) && Capacity(r) == Capacity(a)
    ensures e == Values(a)[pos]
    ensures Values(r) == Values(a)[..pos] + Values(a)[pos + 1..]
  {
    var ids := Elements(a.q);
    ValidCellsInRange(a);
    var q, c := PopNth(a.q, pos);
    e := a.items[c];
    var len := q.length;
    var ids1 := Elements(q);
    if c < len {
      RemovedKeepsLast(ids, pos);
      RemovedAvoids(ids, pos, |ids|, ids1);
      var items := a.items[c := a.items[len]];
      var q2 := Move(q, len, c);
      r := LinkedArray(items, q2);
      MoveKeeps(a, ids, pos, ids1, r);
    } else {
      r := LinkedArray(a.items, q);
      PopLastCellKeeps(a, ids, pos, ids1, r);
    }
  }

  /** Removing position `pos` of a distinct list leaves ids other than the removed one, within the same bound. */
  lemma RemovedAvoids(ids: seq<Slot>, pos: nat, bound: nat, ids1: seq<Slot>)
    requires Distinct(ids) && pos < |ids|
    requires forall i | 0 <= i < |ids| :: ids[i] < bound
    requires ids1 == ids[..pos] + ids[pos + 1..]
    ensures |ids1| == |ids| - 1
    ensures forall i | 0 <= i < |ids1| :: ids1[i] != ids[pos] && ids1[i] < bound
  {
    RemoveAt(ids, pos);
    forall i | 0 <= i < |ids1|
      ensures ids1[i] != ids[pos]
    {
      var j := if i < pos then i else i + 1;
      assert ids[j] != ids[pos];
    }
  }

  /** When the removed cell is not the last, the last cell is still listed. */
  lemma RemovedKeepsLast(ids: seq<Slot>, pos: nat)
    requires Distinct(ids) && NoHoles(ids) && pos < |ids|
    requires ids[pos] < |ids| - 1
    ensures |ids| - 1 in ids[..pos] + ids[pos + 1..]
  {
    RemoveAt(ids, pos);
    NoHolesCovers(ids, |ids| - 1);
    var k := IndexOf(ids, |ids| - 1);
    var ids1 := ids[..pos] + ids[pos + 1..];
    if k < pos {
      assert ids1[k] == |ids| - 1;
    } else {
      assert ids1[k - 1] == |ids| - 1;
    }
  }

  /** The values of a list with position `pos` removed. */
  lemma CellsRemove<T>(items: seq<T>, ids: seq<Slot>, pos: nat)
    requires pos < |ids|
    requires forall i | 0 <= i < |ids| :: ids[i] < |items|
    ensures Cells(items, ids[..pos] + ids[pos + 1..]) == Cells(items, ids)[..pos] + Cells(items, ids)[pos + 1..]
  {
    RemoveAt(ids, pos);
  }

  /**
   * Copying the last cell `last` into the freed cell `c` and renaming
   * `last` to `c` in the order keeps the values; no cell is above `last`.
   */
  lemma MovedCells<T>(items: seq<T>, ids: seq<Slot>, c: Slot, last: Slot)
    requires c < last < |items|
    requires forall i | 0 <= i < |ids| :: ids[i] != c && ids[i] <= last
    ensures forall i | 0 <= i < |ids| :: Replace(ids, last, c)[i] < last
    ensures Cells(items[c := items[last]], Replace(ids, last, c)) == Cells(items, ids)
  {
  }

  lemma PopLastCellKeeps<T>(a: LinkedArray<T>, ids: seq<Slot>, pos: nat, ids1: seq<Slot>, r: LinkedArray<T>)
    requires Valid(a) && ids == Elements(a.q) && pos < |ids|
    requires ids1 == ids[..pos] + ids[pos + 1..]
    requires ids[pos] >= |ids1|
    requires r.items == a.items && IQueue.Valid(r.q) && IQueue.Capacity(r.q) == IQueue.Capacity(a.q)
    requires Elements(r.q) == ids1
    ensures Valid(r) && Values(r) == Values(a)[..pos] + Values(a)[pos + 1..]
  {
    ValidCellsInRange(a);
    assert Represents(a.q, ids);
    assert ids[pos] == |ids1|;
    RemovedAvoids(ids, pos, |ids|, ids1);
    CellsRemove(a.items, ids, pos);
  }

  lemma MoveKeeps<T>(a: LinkedArray<T>, ids: seq<Slot>, pos: nat, ids1: seq<Slot>, r: LinkedArray<T>)
    requires Valid(a) && ids == Elements(a.q) && pos < |ids| <= |a.items|
    requires ids1 == ids[..pos] + ids[pos + 1..]
    requires ids[pos] < |ids1|
    requires r.items == a.items[ids[pos] := a.items[|ids1|]]
    requires IQueue.Valid(r.q) && IQueue.Capacity(r.q) == IQueue.Capacity(a.q)
    requires Elements(r.q) == Replace(ids1, |ids1|, ids[pos])
    ensures Valid(r) && Values(r) == Values(a)[..pos] + Values(a)[pos + 1..]
  {
    ValidCellsInRange(a);
    assert Represents(a.q, ids);
    RemovedAvoids(ids, pos, |ids|, ids1);
    MovedCells(a.items, ids1, ids[pos], |ids1|);
    CellsRemove(a.items, ids, pos);
  }

  /** LINKED_ARRAY_POP_HEAD: REMOVE_INDEX at position 0. */
  method PopHead<T>(a: LinkedArray<T>) returns (r: LinkedArray<T>, e: T)
    requires Valid(a) && Length(a) > 0
    ensures Valid(r) && Capacity(r) == Capacity(a)
    ensures [e] + Values(r) == Values(a)
  {
    r, e := RemoveIndex(a, 0);
    assert Values(a) == [Values(a)[0]] + Values(a)[1..];
  }

  /** LINKED_ARRAY_POP_TAIL: REMOVE_INDEX at position length - 1. */
  method PopTail<T>(a: LinkedArray<T>) returns (r: LinkedArray<T>, e: T)
    requires Valid(a) && Length(a) > 0
    ensures Valid(r) && Capacity(r) == Capacity(a)
    ensures Values(r) + [e] == Values(a)
  {
    r, e := RemoveIndex(a, Length(a) - 1);
    assert Values(a)[Length(a)..] == [];
  }

  /** LINKED_ARRAY_FOREACH: the values met walking the queue from the head. */
  method Foreach<T>(a: LinkedArray<T>) returns (vals: seq<T>)
    requires Valid(a)
    ensures vals == Values(a)
  {
    ValidCellsInRange(a);
    var ids := IQueue.Foreach(a.q);
    vals := [];
    var i := 0;
    while i < |ids|
      invariant 0 <= i <= |ids|
      invariant vals == Values(a)[..i]
    {
      vals := vals + [a.items[ids[i]]];
      i := i + 1;
    }
  }

  /** How many values SPLIT and SPLIT2 leave on the left: the first n - n/2. */
  function KeepCount(n: nat): (k: nat)
    ensures k + n / 2 == n
  {
    n - n / 2
  }

  /** Taking the last element off the first |s|-i values of `s` moves the cut one place left. */
  lemma TailStep<T>(s: seq<T>, i: nat, pre: seq<T>, e: T)
    requires i < |s| && pre + [e] == s[..|s| - i]
    ensures pre == s[..|s| - (i + 1)]
    ensures [e] + s[|s| - i..] == s[|s| - (i + 1)..]
  {
    assert e == s[|s| - i - 1];
    assert pre == (pre + [e])[..|pre|];
  }

  /** One round of the split loops: POP_TAIL from `a`, PUSH_HEAD onto `into`. */
  method Shift<T>(a: LinkedArray<T>, into: LinkedArray<T>, ghost s: seq<T>, ghost i: nat, ghost rest: seq<T>)
    returns (r: LinkedArray<T>, into': LinkedArray<T>)
    requires Valid(a) && Valid(into)
    requires i < |s| && Values(a) == s[..|s| - i] && Values(into) == s[|s| - i..] + rest
    requires Length(into) < Capacity(into)
    ensures Valid(r) && Valid(into')
    ensures Capacity(r) == Capacity(a) && Capacity(into') == Capacity(into)
    ensures Values(r) == s[..|s| - (i + 1)]
    ensures Values(into') == s[|s| - (i + 1)..] + rest
  {
    var e;
    r, e := PopTail(a);
    TailStep(s, i, Values(r), e);
    into' := PushHead(into, e);
  }

  /**
   * The loop body both splits share: `n` times, pop the tail of `a` and
   * push it on the head of `into`.
   */
  method MoveTail<T>(a: LinkedArray<T>, into: LinkedArray<T>, n: nat) returns (r: LinkedArray<T>, into': LinkedArray<T>)
    requires Valid(a) && Valid(into)
    requires n <= Length(a) && Length(into) + n <= Capacity(into)
    ensures Valid(r) && Valid(into')
    ensures Capacity(r) == Capacity(a) && Capacity(into') == Capacity(into)
    ensures Values(r) == Values(a)[..Length(a) - n]
    ensures Values(into') == Values(a)[Length(a) - n..] + Values(into)
  {
    var s := Values(a);
    var rest := Values(into);
    r, into' := a, into;
    var i := 0;
    while i < n
      invariant 0 <= i <= n
      invariant Valid(r) && Valid(into')
      invariant Capacity(r) == Capacity(a) && Capacity(into') == Capacity(into)
      invariant Values(r) == s[..|s| - i]
      invariant Values(into') == s[|s| - i..] + rest
    {
      r, into' := Shift(r, into', s, i, rest);
      i := i + 1;
    }
  }

  /**
   * LINKED_ARRAY_SPLIT: resets `into`, then moves the tail `length/2`
   * values across, in order.
   */
  method Split<T>(a: LinkedArray<T>, into: LinkedArray<T>, zero: T) returns (r: LinkedArray<T>, right: LinkedArray<T>)
    requires Valid(a)
    requires Capacity(into) <= MaxCapacity && Length(a) / 2 <= Capacity(into)
    ensures Valid(r) && Valid(right)
    ensures Capacity(r) == Capacity(a) && Capacity(right) == Capacity(into)
    ensures Values(r) == Values(a)[..KeepCount(Length(a))]
    ensures Values(right) == Values(a)[KeepCount(Length(a))..]
  {
    right := Init(into, zero);
    r, right := MoveTail(a, right, Length(a) / 2);
  }

  /**
   * LINKED_ARRAY_SPLIT2: resets `left` and `right`, moves the tail
   * `length/2` values into `right`, then the rest into `left` until `a`
   * is empty.
   */
  method Split2<T>(a: LinkedArray<T>, left: LinkedArray<T>, right: LinkedArray<T>, zero: T)
    returns (r: LinkedArray<T>, l: LinkedArray<T>, rt: LinkedArray<T>)
    requires Valid(a)
    requires Capacity(left) <= MaxCapacity && KeepCount(Length(a)) <= Capacity(left)
    requires Capacity(right) <= MaxCapacity && Length(a) / 2 <= Capacity(right)
    ensures Valid(r) && Valid(l) && Valid(rt)
    ensures Values(r) == []
    ensures Values(l) == Values(a)[..KeepCount(Length(a))]
    ensures Values(rt) == Values(a)[KeepCount(Length(a))..]
    ensures Values(l) + Values(rt) == Values(a)
  {
    l := Init(left, zero);
    rt := Init(right, zero);
    r, rt := MoveTail(a, rt, Length(a) / 2);
    r, l := MoveTail(r, l, Length(r));
    assert Values(a)[..KeepCount(Length(a))] + Values(a)[KeepCount(Length(a))..] == Values(a);
  }
}

=== FILE: piece_table.dfy ===
/*
 * The public interface of piece-table.c: piece_table_new,
 * piece_table_insert, piece_table_get_length, piece_table_foreach,
 * piece_table_get_first_leaf and piece_table_validate.
 *
 * A table is its root branch and the length it caches.  The leaves'
 * next chain, which foreach walks, is the in-order sequence of leaves
 * (Leaves).
 */
module PieceTable {
  import opened Pieces
  import opened PieceTree
  import opened TreeInsert

  /** PieceTable: the root node, always a branch, and the cached length. */
  datatype Table = Table(root: Node, length: nat)

  /** Why piece_table_insert refuses a request (g_return_if_fail). */
  datatype InsertError = TooLong

  datatype Result<T> = Ok(value: T) | Err(error: InsertError)

  /**
   * What every table built by New and Insert satisfies: the tree
   * invariants (well-formed, within capacity, all leaves at one depth),
   * every piece within the 63-bit offset space, and a cached length equal
   * to the root's and at most PIECE_TREE_MAX_LENGTH.
   */
  predicate Inv(t: Table)
  {
    && t.root.Branch?
    && WellFormed(t.root) && Fits(t.root) && Balanced(t.root, Height(t.root))
    && AllInRange(Flatten(t.root))
    && t.length == NodeLength(t.root) && t.length <= MaxLength
  }

  /**
   * What piece_table_insert itself relies on: a root branch over a
   * well-formed tree whose cached length is the root's and within
   * PIECE_TREE_MAX_LENGTH.  Unlike Inv, it says nothing about offsets, so
   * a table holding a piece that ends past 2^63 still takes inserts.
   */
  predicate Shaped(t: Table)
  {
    && t.root.Branch? && WellFormed(t.root)
    && t.length == NodeLength(t.root) && t.length <= MaxLength
  }

  /** piece_table_new: a root branch with one empty leaf recorded at length 0. */
  function New(): (t: Table)
    ensures Inv(t)
    ensures t.length == 0 && Flatten(t.root) == [] && Leaves(t.root) == [[]]
  {
    var cs := [Child(Leaf([]), 0)];
    FlattenBranch(cs);
    assert Flats(cs) == [[]];
    assert Concat(Flats(cs)) == [] + Concat([]);
    var ls := seq(|cs|, i requires 0 <= i < |cs| => Leaves(cs[i].node));
    assert ls == [[[]]];
    assert Concat(ls) == [[]] + Concat([]);
    assert SumLengths(cs) == 0 + SumLengths([]);
    Table(Branch(cs), 0)
  }

  /**
   * piece_table_insert: a length that would take the table past
   * PIECE_TREE_MAX_LENGTH is refused; an empty insert changes nothing;
   * otherwise the piece goes in at `pos` and the cached length grows.
   * The 64-bit offset is stored into the entry's 63-bit field, and the
   * chaining tests see that stored value; the source tests the full
   * 64-bit offset, which decides the same below 2^63
   * (Pieces.ChainTestsAgree) and may not from there on
   * (Pieces.ChainTestsDiverge).
   * Accepted, non-empty inserts are required to have `pos` within the
   * table.  The source asserts less: only that the position left after
   * its search lies within the leaf reached, which a position past the
   * end can also meet (Scenarios.PastEndLandsInside).
   */
  function Insert(t: Table, pos: nat, kind: PieceKind, offset: nat, length: nat): (r: Result<Table>)
    requires Shaped(t)
    requires length == 0 || length > MaxLength - t.length || pos <= t.length
    ensures r.Err? <==> t.length + length > MaxLength
    ensures r.Ok? ==> r.value.length == t.length + length
    ensures length == 0 && r.Ok? ==> r.value == t
  {
    if length > MaxLength - t.length then Err(TooLong)
    else if length == 0 then Ok(t)
    else Ok(Table(InsertFull(t.root, pos, Piece(kind, Store63(offset), length)), t.length + length))
  }

  /**
   * Whatever its offset, an accepted insert leaves a table that takes the
   * next insert: the tree stays well-formed and the cached length is the
   * root's length, grown by the piece's.
   */
  lemma InsertKeepsShape(t: Table, pos: nat, kind: PieceKind, offset: nat, length: nat)
    requires Shaped(t) && pos <= t.length
    ensures Insert(t, pos, kind, offset, length).Ok? ==> Shaped(Insert(t, pos, kind, offset, length).value)
  {
    if length > 0 && length <= MaxLength - t.length {
      var x := Piece(kind, Store63(offset), length);
      PreparedSpec(t.root, pos, x);
      var p := Prepared(t.root, pos);
      InsertIntoSpec(p, pos, x);
    }
  }

  /**
   * An accepted insert keeps the table invariant, provided the piece ends
   * within the 63-bit offset space.
   */
  lemma InsertKeepsInv(t: Table, pos: nat, kind: PieceKind, offset: nat, length: nat)
    requires Inv(t) && pos <= t.length
    requires offset + length <= OffsetLimit
    ensures Insert(t, pos, kind, offset, length).Ok? ==> Inv(Insert(t, pos, kind, offset, length).value)
  {
    if length > 0 && length <= MaxLength - t.length {
      var x := Piece(kind, Store63(offset), length);
      var h := Height(t.root);
      InsertFullShape(t.root, pos, x, h);
      InsertFullContent(t.root, pos, x);
      var r := InsertFull(t.root, pos, x);
      BalancedHeight(r, if RootSplits(t.root, pos) then h + 1 else h);
    }
  }

  /**
   * The content law of piece_table_insert: an accepted insert makes the
   * table describe its old characters with the piece's characters
   * spliced in at `pos`, and the cached length grows by the piece's
   * length.  (An empty piece splices in nothing.)
   */
  lemma InsertContent(t: Table, pos: nat, kind: PieceKind, offset: nat, length: nat)
    requires Inv(t) && pos <= t.length
    requires offset + length <= OffsetLimit
    ensures pos <= |Expand(Flatten(t.root))|
    ensures Insert(t, pos, kind, offset, length).Ok? ==>
      && Insert(t, pos, kind, offset, length).value.length == t.length + length
      && Expand(Flatten(Insert(t, pos, kind, offset, length).value.root))
         == Splice(Expand(Flatten(t.root)), pos, Run(Piece(kind, Store63(offset), length)))
  {
    ExpandLength(Flatten(t.root));
    NodeLengthTotal(t.root);
    var x := Piece(kind, Store63(offset), length);
    if length == 0 {
      var s := Expand(Flatten(t.root));
      assert Run(x) == [];
      assert s[..pos] + [] + s[pos..] == s;
    } else if length <= MaxLength - t.length {
      InsertFullContent(t.root, pos, x);
    }
  }

  /** The tree grows one level taller exactly when the insert's split cascade reaches the root. */
  lemma InsertHeight(t: Table, pos: nat, kind: PieceKind, offset: nat, length: nat)
    requires Inv(t) && pos <= t.length && 0 < length <= MaxLength - t.length
    ensures var r := Insert(t, pos, kind, offset, length).value;
      Height(r.root) == Height(t.root) + (if RootSplits(t.root, pos) then 1 else 0)
  {
    var x := Piece(kind, Store63(offset), length);
    var h := Height(t.root);
    InsertFullShape(t.root, pos, x, h);
    BalancedHeight(InsertFull(t.root, pos, x), if RootSplits(t.root, pos) then h + 1 else h);
  }

  /** piece_table_get_length: the cached length, which is the number of characters the table describes. */
  function GetLength(t: Table): (r: nat)
    requires Inv(t)
    ensures r == Total(Flatten(t.root)) == |Expand(Flatten(t.root))|
  {
    NodeLengthTotal(t.root);
    ExpandLength(Flatten(t.root));
    t.length
  }

  lemma ConcatSnoc<T>(ss: seq<seq<T>>, i: nat)
    requires i < |ss|
    ensures Concat(ss[..i + 1]) == Concat(ss[..i]) + ss[i]
  {
    assert ss[..i + 1] == ss[..i] + [ss[i]];
    ConcatAppend(ss[..i], [ss[i]]);
    assert Concat([ss[i]]) == ss[i] + Concat([ss[i]][1..]);
  }

  /**
   * piece_table_foreach: walk the leaves from the first along the next
   * chain and visit each leaf's entries in order; the entries visited
   * are exactly the table's pieces, in order.
   */
  method Foreach(t: Table) returns (visited: seq<Piece>)
    ensures visited == Flatten(t.root)
  {
    var leaves := Leaves(t.root);
    visited := [];
    var i := 0;
    while i < |leaves|
      invariant 0 <= i <= |leaves|
      invariant visited == Concat(leaves[..i])
    {
      ConcatSnoc(leaves, i);
      visited := visited + leaves[i];
      i := i + 1;
    }
    assert leaves[..|leaves|] == leaves;
    LeavesFlatten(t.root);
  }

  /**
   * piece_table_get_first_leaf: follow the head child down from the
   * root; the leaf reached is the first of the leaf chain, and its
   * entries begin the table's sequence of pieces.
   */
  method GetFirstLeaf(t: Table) returns (first: seq<Piece>)
    requires WellFormed(t.root)
    ensures |Leaves(t.root)| > 0 && first == Leaves(t.root)[0]
    ensures first <= Flatten(t.root)
  {
    LeavesNonEmpty(t.root);
    var iter := t.root;
    while iter.Branch?
      invariant WellFormed(iter)
      invariant |Leaves(iter)| > 0 && Leaves(iter)[0] == Leaves(t.root)[0]
      decreases iter
    {
      FirstLeaf(iter.children);
      iter := iter.children[0].node;
    }
    first := iter.entries;
    assert Leaves(iter) == [first];
    FirstLeafPrefix(t.root);
  }

  /** The first leaf's entries are a prefix of the flattened tree. */
  lemma FirstLeafPrefix(n: Node)
    requires WellFormed(n)
    ensures |Leaves(n)| > 0 && Leaves(n)[0] <= Flatten(n)
  {
    LeavesNonEmpty(n);
    LeavesFlatten(n);
    var ls := Leaves(n);
    assert Concat(ls) == ls[0] + Concat(ls[1..]);
  }

  // ---------------------------------------------------------------------
  // Validation

  /** The head children down from `n` are all non-empty branches or the final leaf. */
  predicate LeftSpine(n: Node)
  {
    match n
    case Leaf(_) => true
    case Branch(cs) => |cs| > 0 && LeftSpine(cs[0].node)
  }

  /**
   * piece_table_validate: the root is a non-empty branch, each of the
   * root's children is recorded with its own length, the first leaf can
   * be reached, and the cached length is the root's.  The recursive
   * check of deeper nodes is commented out in the source, so deeper
   * nodes are not examined.
   */
  predicate Validate(t: Table)
  {
    && t.root.Branch?
    && |t.root.children| > 0
    && (forall i | 0 <= i < |t.root.children| ::
          t.root.children[i].length == NodeLength(t.root.children[i].node))
    && LeftSpine(t.root)
    && t.length == NodeLength(t.root)
  }

  lemma {:induction false} WellFormedSpine(n: Node)
    requires WellFormed(n)
    ensures LeftSpine(n)
  {
    if n.Branch? {
      WellFormedSpine(n.children[0].node);
    }
  }

  /** Every table satisfying the invariant passes piece_table_validate. */
  lemma InvValidates(t: Table)
    requires Inv(t)
    ensures Validate(t)
  {
    WellFormedSpine(t.root);
  }

  /**
   * piece_table_validate is weaker than the invariant: a table whose
   * grandchild is recorded with the wrong length still passes.
   */
  function ShallowCounterexample(): (bad: Table)
    ensures Validate(bad) && !Inv(bad)
  {
    var inner := Branch([Child(Leaf([]), 1)]);
    assert SumLengths([Child(Leaf([]), 1)]) == 1 + SumLengths([]);
    assert SumLengths([Child(inner, 1)]) == 1 + SumLengths([]);
    assert !WellFormed(inner);
    Table(Branch([Child(inner, 1)]), 1)
  }
}

=== FILE: piece_tree.dfy ===
/*
 * The piece tree of piece-table.c: a B+ tree whose leaves hold pieces and
 * whose branches hold (child, recorded length) pairs.  Each node's
 * linked array appears here through its logical contents, the sequence
 * LinkedArray.Values returns.
 *
 * The meaning of a tree is the in-order concatenation of its leaves'
 * entries (Flatten).  Search walks down by recorded lengths.
 */
module PieceTree {
  import opened Pieces

  /** PIECE_TREE_BRANCH_FANOUT and PIECE_TREE_LEAF_FANOUT: cells per node. */
  const BranchFanout: nat := 26
  const LeafFanout: nat := 26

  /** PIECE_TREE_MAX_LENGTH: G_MAXUINT64 >> 1. */
  const MaxLength: nat := 0x7FFF_FFFF_FFFF_FFFF

  /** PieceTreeNode: a leaf of entries or a branch of children. */
  datatype Node = Leaf(entries: seq<Piece>) | Branch(children: seq<Child>)

  /** PieceTreeChild: a child and the length its parent records for it. */
  datatype Child = Child(node: Node, length: nat)

  // ---------------------------------------------------------------------
  // Sequences of sequences

  function Concat<T>(ss: seq<seq<T>>): seq<T>
  {
    if |ss| == 0 then [] else ss[0] + Concat(ss[1..])
  }

  lemma {:induction false} ConcatAppend<T>(a: seq<seq<T>>, b: seq<seq<T>>)
    ensures Concat(a + b) == Concat(a) + Concat(b)
  {
    if |a| > 0 {
      ConcatAppend(a[1..], b);
      assert (a + b)[1..] == a[1..] + b;
    } else {
      assert a + b == b;
    }
  }

  /** Concat around one element. */
  lemma ConcatAt<T>(ss: seq<seq<T>>, j: nat)
    requires j < |ss|
    ensures Concat(ss) == Concat(ss[..j]) + ss[j] + Concat(ss[j + 1..])
  {
    var rest := ss[j..];
    assert ss == ss[..j] + rest;
    ConcatAppend(ss[..j], rest);
    assert rest[0] == ss[j] && rest[1..] == ss[j + 1..];
    assert Concat(rest) == rest[0] + Concat(rest[1..]);
  }

  // ---------------------------------------------------------------------
  // Lengths

  /** The sum of the recorded lengths of `cs`. */
  function SumLengths(cs: seq<Child>): nat
  {
    if |cs| == 0 then 0 else cs[0].length + SumLengths(cs[1..])
  }

  lemma {:induction false} SumLengthsAppend(a: seq<Child>, b: seq<Child>)
    ensures SumLengths(a + b) == SumLengths(a) + SumLengths(b)
  {
    if |a| > 0 {
      SumLengthsAppend(a[1..], b);
      assert (a + b)[1..] == a[1..] + b;
    } else {
      assert a + b == b;
    }
  }

  /** SumLengths of the first `k` children. */
  function Prefix(cs: seq<Child>, k: nat): nat
    requires k <= |cs|
  {
    SumLengths(cs[..k])
  }

  lemma PrefixStep(cs: seq<Child>, k: nat)
    requires k < |cs|
    ensures Prefix(cs, k + 1) == Prefix(cs, k) + cs[k].length
  {
    assert cs[..k + 1] == cs[..k] + [cs[k]];
    SumLengthsAppend(cs[..k], [cs[k]]);
    assert SumLengths([cs[k]]) == cs[k].length + SumLengths([]);
  }

  lemma {:induction false} PrefixMonotone(cs: seq<Child>, i: nat, k: nat)
    requires i <= k <= |cs|
    ensures Prefix(cs, i) <= Prefix(cs, k)
    decreases k - i
  {
    if i < k {
      PrefixStep(cs, i);
      PrefixMonotone(cs, i + 1, k);
    }
  }

  lemma PrefixAll(cs: seq<Child>)
    ensures Prefix(cs, |cs|) == SumLengths(cs)
  {
    assert cs[..|cs|] == cs;
  }

  /**
   * piece_tree_node_length: a leaf sums its entries' lengths, a branch
   * sums the lengths it records for its children.
   */
  function NodeLength(n: Node): nat
  {
    match n
    case Leaf(es) => Total(es)
    case Branch(cs) => SumLengths(cs)
  }

  // ---------------------------------------------------------------------
  // Meaning

  /** The entries of the tree's leaves, left to right. */
  function Flatten(n: Node): seq<Piece>
  {
    match n
    case Leaf(es) => es
    case Branch(cs) => Concat(seq(|cs|, i requires 0 <= i < |cs| => Flatten(cs[i].node)))
  }

  /** The flattened children, one sequence per child. */
  function Flats(cs: seq<Child>): (r: seq<seq<Piece>>)
    ensures |r| == |cs|
  {
    seq(|cs|, i requires 0 <= i < |cs| => Flatten(cs[i].node))
  }

  lemma FlattenBranch(cs: seq<Child>)
    ensures Flatten(Branch(cs)) == Concat(Flats(cs))
  {
    assert seq(|cs|, i requires 0 <= i < |cs| => Flatten(cs[i].node)) == Flats(cs);
  }

  lemma FlatsAppend(a: seq<Child>, b: seq<Child>)
    ensures Flats(a + b) == Flats(a) + Flats(b)
  {
  }

  lemma FlatsTake(cs: seq<Child>, k: nat)
    requires k <= |cs|
    ensures Flats(cs[..k]) == Flats(cs)[..k]
  {
  }

  lemma FlatsDrop(cs: seq<Child>, k: nat)
    requires k <= |cs|
    ensures Flats(cs[k..]) == Flats(cs)[k..]
  {
  }

  /** Flatten of a branch with the children `cs`, taken apart around child `j`. */
  lemma FlattenAround(cs: seq<Child>, j: nat)
    requires j < |cs|
    ensures Flatten(Branch(cs)) == Concat(Flats(cs[..j])) + Flatten(cs[j].node) + Concat(Flats(cs[j + 1..]))
  {
    FlattenBranch(cs);
    ConcatAt(Flats(cs), j);
    FlatsTake(cs, j);
    FlatsDrop(cs, j + 1);
  }

  /** The leaves' entry lists, left to right: the order of the leaf `next` chain. */
  function Leaves(n: Node): seq<seq<Piece>>
  {
    match n
    case Leaf(es) => [es]
    case Branch(cs) => Concat(seq(|cs|, i requires 0 <= i < |cs| => Leaves(cs[i].node)))
  }

  // ---------------------------------------------------------------------
  // Invariants

  /** The number of occupied cells in a node's linked array. */
  function Count(n: Node): nat
  {
    match n
    case Leaf(es) => |es|
    case Branch(cs) => |cs|
  }

  function Fanout(n: Node): nat
  {
    if n.Leaf? then LeafFanout else BranchFanout
  }

  /**
   * piece_tree_node_needs_split: fewer than two free cells, so the node
   * could not take one entry cut in two plus a new one.
   */
  predicate NeedsSplit(n: Node)
  {
    Count(n) >= Fanout(n) - 2
  }

  /**
   * The structural invariant piece_tree_node_validate checks, applied at
   * every node: branches are non-empty and record each child's true
   * length; leaf entries are non-empty.
   */
  predicate WellFormed(n: Node)
  {
    match n
    case Leaf(es) => AllPositive(es)
    case Branch(cs) =>
      && |cs| > 0
      && (forall i | 0 <= i < |cs| :: cs[i].length == NodeLength(cs[i].node))
      && (forall i | 0 <= i < |cs| :: WellFormed(cs[i].node))
  }

  /**
   * Occupancy the insert path maintains: a leaf keeps one free cell and a
   * branch keeps two, so no linked-array insert ever meets a full array.
   */
  predicate Fits(n: Node)
  {
    match n
    case Leaf(es) => |es| <= LeafFanout - 1
    case Branch(cs) =>
      && |cs| <= BranchFanout - 2
      && (forall i | 0 <= i < |cs| :: Fits(cs[i].node))
  }

  /** Every leaf sits exactly `h` levels below `n`. */
  predicate Balanced(n: Node, h: nat)
  {
    match n
    case Leaf(_) => h == 0
    case Branch(cs) => h > 0 && (forall i | 0 <= i < |cs| :: Balanced(cs[i].node, h - 1))
  }

  /** The height along the leftmost path. */
  function Height(n: Node): nat
  {
    match n
    case Leaf(_) => 0
    case Branch(cs) => if |cs| == 0 then 1 else 1 + Height(cs[0].node)
  }

  lemma BalancedHeight(n: Node, h: nat)
    requires Balanced(n, h) && WellFormed(n)
    ensures Height(n) == h
  {
    if n.Branch? {
      BalancedHeight(n.children[0].node, h - 1);
    }
  }

  // ---------------------------------------------------------------------
  // Lengths against meaning

  /** Recorded lengths that match their children's flattened totals add up. */
  lemma {:induction false} SumFlats(cs: seq<Child>)
    requires forall i | 0 <= i < |cs| :: cs[i].length == Total(Flatten(cs[i].node))
    ensures SumLengths(cs) == Total(Concat(Flats(cs)))
  {
    if |cs| > 0 {
      SumFlats(cs[1..]);
      assert Flats(cs) == [Flatten(cs[0].node)] + Flats(cs[1..]);
      assert Concat(Flats(cs)) == Flatten(cs[0].node) + Concat(Flats(cs[1..]));
      TotalAppend(Flatten(cs[0].node), Concat(Flats(cs[1..])));
    }
  }

  /** In a well-formed tree a node's length is the number of characters it describes. */
  lemma {:induction false} NodeLengthTotal(n: Node)
    requires WellFormed(n)
    ensures NodeLength(n) == Total(Flatten(n))
  {
    match n
    case Leaf(es) =>
    case Branch(cs) =>
      forall i | 0 <= i < |cs|
        ensures cs[i].length == Total(Flatten(cs[i].node))
      {
        NodeLengthTotal(cs[i].node);
      }
      SumFlats(cs);
      FlattenBranch(cs);
  }

  /** In a well-formed branch, the children before `k` cover Prefix(cs, k) characters. */
  lemma PrefixTotal(cs: seq<Child>, k: nat)
    requires WellFormed(Branch(cs)) && k <= |cs|
    ensures Prefix(cs, k) == Total(Concat(Flats(cs[..k])))
  {
    forall i | 0 <= i < k
      ensures cs[..k][i].length == Total(Flatten(cs[..k][i].node))
    {
      NodeLengthTotal(cs[i].node);
    }
    SumFlats(cs[..k]);
  }

  // ---------------------------------------------------------------------
  // Leaves in order

  lemma {:induction false} ConcatConcat<T>(xss: seq<seq<seq<T>>>)
    ensures Concat(Concat(xss)) == Concat(seq(|xss|, i requires 0 <= i < |xss| => Concat(xss[i])))
  {
    var m := seq(|xss|, i requires 0 <= i < |xss| => Concat(xss[i]));
    if |xss| > 0 {
      ConcatConcat(xss[1..]);
      ConcatAppend(xss[0], Concat(xss[1..]));
      assert m[1..] == seq(|xss[1..]|, i requires 0 <= i < |xss[1..]| => Concat(xss[1..][i]));
    }
  }

  /** Walking the leaves in order and concatenating their entries gives Flatten. */
  lemma {:induction false} LeavesFlatten(n: Node)
    ensures Concat(Leaves(n)) == Flatten(n)
  {
    match n
    case Leaf(es) =>
      assert Concat([es]) == es + Concat([es][1..]);
    case Branch(cs) =>
      var xss := seq(|cs|, i requires 0 <= i < |cs| => Leaves(cs[i].node));
      forall i | 0 <= i < |cs|
        ensures Concat(xss[i]) == Flatten(cs[i].node)
      {
        LeavesFlatten(cs[i].node);
      }
      ConcatConcat(xss);
      assert seq(|xss|, i requires 0 <= i < |xss| => Concat(xss[i])) == Flats(cs);
      FlattenBranch(cs);
  }

  /** A well-formed tree has at least one leaf. */
  lemma {:induction false} LeavesNonEmpty(n: Node)
    requires WellFormed(n)
    ensures |Leaves(n)| > 0
  {
    match n
    case Leaf(es) =>
    case Branch(cs) =>
      var xss := seq(|cs|, i requires 0 <= i < |cs| => Leaves(cs[i].node));
      LeavesNonEmpty(cs[0].node);
      assert Concat(xss) == xss[0] + Concat(xss[1..]);
  }

  /** The first leaf of a branch is the first leaf of its first child. */
  lemma FirstLeaf(cs: seq<Child>)
    requires WellFormed(Branch(cs))
    ensures |Leaves(cs[0].node)| > 0
    ensures Leaves(Branch(cs))[0] == Leaves(cs[0].node)[0]
  {
    var xss := seq(|cs|, i requires 0 <= i < |cs| => Leaves(cs[i].node));
    LeavesNonEmpty(cs[0].node);
    assert Concat(xss) == xss[0] + Concat(xss[1..]);
  }

  // ---------------------------------------------------------------------
  // Search

  /**
   * The child loop of piece_tree_node_search: the first child whose
   * recorded length is at least the remaining position (so a position on
   * a boundary goes left), with that position relative to it.  Past the
   * last child the search falls back to the last child with every
   * child's length subtracted.
   */
  function Pick(cs: seq<Child>, pos: nat): (r: (nat, nat))
    requires |cs| > 0
    ensures r.0 < |cs|
  {
    if pos <= cs[0].length then (0, pos)
    else if |cs| == 1 then (0, pos - cs[0].length)
    else
      var (j, rel) := Pick(cs[1..], pos - cs[0].length);
      (j + 1, rel)
  }

  /**
   * Pick against an independent description: for a position within the
   * recorded total, it returns the least child whose prefix sum reaches
   * the position, and the position less the children before it.
   */
  lemma {:induction false} PickSpec(cs: seq<Child>, pos: nat)
    requires |cs| > 0 && pos <= SumLengths(cs)
    ensures var (j, rel) := Pick(cs, pos);
      && pos <= Prefix(cs, j + 1)
      && (j == 0 || Prefix(cs, j) < pos)
      && rel == pos - Prefix(cs, j)
      && rel <= cs[j].length
  {
    var (j, rel) := Pick(cs, pos);
    PrefixStep(cs, 0);
    assert cs[..0] == [];
    if pos <= cs[0].length {
    } else if |cs| == 1 {
      assert false;
    } else {
      var tail := cs[1..];
      assert SumLengths(cs) == cs[0].length + SumLengths(tail);
      PickSpec(tail, pos - cs[0].length);
      var (j', rel') := Pick(tail, pos - cs[0].length);
      assert j == j' + 1 && rel == rel';
      PrefixShift(cs, j');
      PrefixShift(cs, j' + 1);
    }
  }

  lemma PrefixShift(cs: seq<Child>, k: nat)
    requires 0 < |cs| && k < |cs|
    ensures Prefix(cs, k + 1) == cs[0].length + Prefix(cs[1..], k)
  {
    assert cs[..k + 1] == [cs[0]] + cs[1..][..k];
    SumLengthsAppend([cs[0]], cs[1..][..k]);
    assert SumLengths([cs[0]]) == cs[0].length + SumLengths([]);
  }

  /** The converse of PickSpec: the least child reaching the position is the one Pick returns. */
  lemma {:induction false} PickChar(cs: seq<Child>, pos: nat, j: nat)
    requires j < |cs|
    requires pos <= Prefix(cs, j + 1)
    requires j == 0 || Prefix(cs, j) < pos
    ensures Pick(cs, pos) == (j, pos - Prefix(cs, j))
  {
    PrefixStep(cs, 0);
    assert cs[..0] == [];
    if j == 0 {
    } else {
      PrefixMonotone(cs, 1, j);
      assert pos > cs[0].length;
      PrefixShift(cs, j - 1);
      PrefixShift(cs, j);
      PickChar(cs[1..], pos - cs[0].length, j - 1);
    }
  }

  /**
   * piece_tree_node_search: descend by Pick to a leaf; the result is the
   * leaf's entries and the position relative to that leaf.
   */
  function Search(n: Node, pos: nat): (r: (seq<Piece>, nat))
    requires WellFormed(n)
  {
    match n
    case Leaf(es) => (es, pos)
    case Branch(cs) =>
      var (j, rel) := Pick(cs, pos);
      Search(cs[j].node, rel)
  }

  /** The entries before and after the leaf Search reaches. */
  function Context(n: Node, pos: nat): (r: (seq<Piece>, seq<Piece>))
    requires WellFormed(n)
  {
    match n
    case Leaf(es) => ([], [])
    case Branch(cs) =>
      var (j, rel) := Pick(cs, pos);
      var (pre, post) := Context(cs[j].node, rel);
      (Concat(Flats(cs[..j])) + pre, post + Concat(Flats(cs[j + 1..])))
  }

  /**
   * Search finds the leaf that holds the position: the leaf's entries sit
   * in Flatten between Context's two parts, the entries before cover
   * `pos - rel` characters, and the relative position is within the leaf
   * (the assertion after the search in piece_table_insert_full).
   */
  lemma {:induction false} SearchSpec(n: Node, pos: nat)
    requires WellFormed(n) && pos <= NodeLength(n)
    ensures Flatten(n) == Context(n, pos).0 + Search(n, pos).0 + Context(n, pos).1
    ensures Total(Context(n, pos).0) + Search(n, pos).1 == pos
    ensures Search(n, pos).1 <= Total(Search(n, pos).0)
  {
    match n
    case Leaf(es) =>
    case Branch(cs) =>
      PickSpec(cs, pos);
      var (j, rel) := Pick(cs, pos);
      PrefixStep(cs, j);
      SearchSpec(cs[j].node, rel);
      SearchStep(cs, pos);
  }

  /** One level of SearchSpec: the branch's answer from its child's. */
  lemma SearchStep(cs: seq<Child>, pos: nat)
    requires WellFormed(Branch(cs)) && pos <= SumLengths(cs)
    requires var (j, rel) := Pick(cs, pos);
      && rel == pos - Prefix(cs, j)
      && Flatten(cs[j].node) == Context(cs[j].node, rel).0 + Search(cs[j].node, rel).0 + Context(cs[j].node, rel).1
      && Total(Context(cs[j].node, rel).0) + Search(cs[j].node, rel).1 == rel
    ensures Flatten(Branch(cs)) == Context(Branch(cs), pos).0 + Search(Branch(cs), pos).0 + Context(Branch(cs), pos).1
    ensures Total(Context(Branch(cs), pos).0) + Search(Branch(cs), pos).1 == pos
  {
    var (j, rel) := Pick(cs, pos);
    var c := cs[j].node;
    var left := Concat(Flats(cs[..j]));
    var right := Concat(Flats(cs[j + 1..]));
    assert Context(Branch(cs), pos) == (left + Context(c, rel).0, Context(c, rel).1 + right);
    assert Search(Branch(cs), pos) == Search(c, rel);
    FlattenAround(cs, j);
    Regroup(left, Context(c, rel).0, Search(c, rel).0, Context(c, rel).1, right);
    PrefixTotal(cs, j);
    TotalAppend(left, Context(c, rel).0);
  }

  lemma Regroup<T>(a: seq<T>, b: seq<T>, c: seq<T>, d: seq<T>, e: seq<T>)
    ensures a + (b + c + d) + e == (a + b) + c + (d + e)
  {
  }

  /** The leaf Search reaches is one of Leaves(n). */
  lemma {:induction false} SearchLeaf(n: Node, pos: nat)
    requires WellFormed(n)
    ensures Search(n, pos).0 in Leaves(n)
  {
    match n
    case Leaf(es) =>
    case Branch(cs) =>
      var (j, rel) := Pick(cs, pos);
      SearchLeaf(cs[j].node, rel);
      var xss := seq(|cs|, i requires 0 <= i < |cs| => Leaves(cs[i].node));
      ConcatAt(xss, j);
  }

  // ---------------------------------------------------------------------
  // Replacing one child

  lemma Replace1Sum(cs: seq<Child>, j: nat, c: Child)
    requires j < |cs|
    ensures SumLengths(cs[j := c]) + cs[j].length == SumLengths(cs) + c.length
  {
    var ds := cs[j := c];
    PrefixStep(cs, j);
    PrefixStep(ds, j);
    assert ds[..j] == cs[..j];
    PrefixDropAll(cs, j + 1);
    PrefixDropAll(ds, j + 1);
    assert ds[j + 1..] == cs[j + 1..];
  }

  lemma PrefixDropAll(cs: seq<Child>, k: nat)
    requires k <= |cs|
    ensures SumLengths(cs) == Prefix(cs, k) + SumLengths(cs[k..])
  {
    assert cs == cs[..k] + cs[k..];
    SumLengthsAppend(cs[..k], cs[k..]);
  }

  lemma Replace1Flatten(cs: seq<Child>, j: nat, c: Child)
    requires j < |cs|
    ensures Flatten(Branch(cs[j := c])) == Concat(Flats(cs[..j])) + Flatten(c.node) + Concat(Flats(cs[j + 1..]))
  {
    var ds := cs[j := c];
    FlattenAround(ds, j);
    assert ds[..j] == cs[..j];
    assert ds[j + 1..] == cs[j + 1..];
  }

  /** Pick looks only at recorded lengths. */
  lemma {:induction false} PickSameLengths(cs: seq<Child>, ds: seq<Child>, pos: nat)
    requires |cs| == |ds| > 0
    requires forall i | 0 <= i < |cs| :: cs[i].length == ds[i].length
    ensures Pick(cs, pos) == Pick(ds, pos)
  {
    if pos > cs[0].length && |cs| > 1 {
      PickSameLengths(cs[1..], ds[1..], pos - cs[0].length);
    }
  }
}

=== FILE: pieces.dfy ===
/*
 * Pieces: the entries a piece-table leaf holds (piece-table.h), the
 * head/tail chaining rules, and the step that puts one new piece into a
 * leaf's entry list (the entry loop of piece_table_insert_full).
 *
 * A piece names a run of characters in one of two buffers.  Its meaning
 * is its expansion: one reference (buffer, offset) per character.
 */
module Pieces {

  /** PieceKind: the original buffer or the change buffer. */
  datatype PieceKind = Initial | Change

  /** PieceTableEntry stores its offset in a 63-bit field. */
  const OffsetLimit: nat := 0x8000_0000_0000_0000

  type Offset = x: int | 0 <= x < OffsetLimit

  /** PieceTableEntry: kind, 63-bit offset into that buffer, 64-bit run length. */
  datatype Piece = Piece(kind: PieceKind, offset: Offset, length: nat)

  /** Storing a value into the 63-bit offset field keeps its low 63 bits. */
  function Store63(x: nat): (r: Offset)
    ensures x < OffsetLimit ==> r == x
  {
    x % OffsetLimit
  }

  /** The number of characters the pieces cover. */
  function Total(ps: seq<Piece>): nat
  {
    if |ps| == 0 then 0 else ps[0].length + Total(ps[1..])
  }

  lemma {:induction false} TotalAppend(a: seq<Piece>, b: seq<Piece>)
    ensures Total(a + b) == Total(a) + Total(b)
  {
    if |a| > 0 {
      TotalAppend(a[1..], b);
      assert (a + b)[1..] == a[1..] + b;
    } else {
      assert a + b == b;
    }
  }

  // ---------------------------------------------------------------------
  // Meaning: the per-character expansion

  /** One character of the virtual buffer: which buffer, and where in it. */
  datatype Ref = Ref(kind: PieceKind, at: nat)

  /** The characters of a single piece. */
  function Run(p: Piece): (r: seq<Ref>)
    ensures |r| == p.length
  {
    seq(p.length, i requires 0 <= i < p.length => Ref(p.kind, p.offset + i))
  }

  /** The characters the pieces describe, in order. */
  function Expand(ps: seq<Piece>): seq<Ref>
  {
    if |ps| == 0 then [] else Run(ps[0]) + Expand(ps[1..])
  }

  lemma {:induction false} ExpandLength(ps: seq<Piece>)
    ensures |Expand(ps)| == Total(ps)
  {
    if |ps| > 0 {
      ExpandLength(ps[1..]);
    }
  }

  lemma {:induction false} ExpandAppend(a: seq<Piece>, b: seq<Piece>)
    ensures Expand(a + b) == Expand(a) + Expand(b)
  {
    if |a| > 0 {
      ExpandAppend(a[1..], b);
      assert (a + b)[1..] == a[1..] + b;
    } else {
      assert a + b == b;
    }
  }

  /** `ins` spliced into `s` before index `p`. */
  function Splice<T>(s: seq<T>, p: nat, ins: seq<T>): (r: seq<T>)
    requires p <= |s|
    ensures |r| == |s| + |ins|
  {
    s[..p] + ins + s[p..]
  }

  /** A piece stays inside the offsets the 63-bit field can address. */
  predicate InRange(p: Piece)
  {
    p.offset + p.length <= OffsetLimit
  }

  predicate AllInRange(ps: seq<Piece>)
  {
    forall i | 0 <= i < |ps| :: InRange(ps[i])
  }

  /** Every entry covers at least one character (piece_tree_node_validate, leaf case). */
  predicate AllPositive(ps: seq<Piece>)
  {
    forall i | 0 <= i < |ps| :: ps[i].length > 0
  }

  // ---------------------------------------------------------------------
  // Chaining

  /** piece_table_entry_chain_head's test: `x` ends exactly where `e` starts, in the same buffer. */
  predicate CanChainHead(e: Piece, x: Piece)
  {
    e.kind == x.kind && x.offset + x.length == e.offset
  }

  /** piece_table_entry_chain_head: `e` grows backwards over `x`. */
  function ChainHead(e: Piece, x: Piece): (r: Piece)
    requires CanChainHead(e, x)
    ensures Run(r) == Run(x) + Run(e)
    ensures r.length == x.length + e.length
  {
    Piece(e.kind, x.offset, e.length + x.length)
  }

  /** piece_table_entry_chain_tail's test: `e` ends exactly where `x` starts, in the same buffer. */
  predicate CanChainTail(e: Piece, x: Piece)
  {
    e.kind == x.kind && e.offset + e.length == x.offset
  }

  /** piece_table_entry_chain_tail: `e` grows forwards over `x`. */
  function ChainTail(e: Piece, x: Piece): (r: Piece)
    requires CanChainTail(e, x)
    ensures Run(r) == Run(e) + Run(x)
    ensures r.length == e.length + x.length
  {
    e.(length := e.length + x.length)
  }

  /** guint64 arithmetic wraps modulo 2^64. */
  const Word: nat := 0x1_0000_0000_0000_0000

  /**
   * The chaining tests as piece_table_entry_chain_head and _tail evaluate
   * them: on the request's full 64-bit offset `raw`, before it is stored
   * into an entry's 63-bit field, with the request's end wrapping.
   */
  predicate WideChainHead(e: Piece, kind: PieceKind, raw: nat, length: nat)
  {
    e.kind == kind && (raw + length) % Word == e.offset
  }

  predicate WideChainTail(e: Piece, kind: PieceKind, raw: nat, length: nat)
  {
    e.kind == kind && (e.offset + e.length) % Word == raw
  }

  /**
   * For a request offset below 2^63 the stored offset is the offset
   * itself, and the model's chaining tests decide exactly as the source's.
   */
  lemma ChainTestsAgree(e: Piece, kind: PieceKind, raw: nat, length: nat)
    requires raw < OffsetLimit && length < OffsetLimit && InRange(e)
    ensures CanChainHead(e, Piece(kind, Store63(raw), length)) <==> WideChainHead(e, kind, raw, length)
    ensures CanChainTail(e, Piece(kind, Store63(raw), length)) <==> WideChainTail(e, kind, raw, length)
  {
  }

  /**
   * From 2^63 on they part: a request at 2^63 + 5 tail-chains onto an
   * entry ending at 5 only in the model, and a request at 2^64 - 1 of
   * length 1 head-chains onto an entry starting at 0 only in the source.
   */
  lemma ChainTestsDiverge()
    ensures CanChainTail(Piece(Change, 0, 5), Piece(Change, Store63(OffsetLimit + 5), 1))
    ensures !WideChainTail(Piece(Change, 0, 5), Change, OffsetLimit + 5, 1)
    ensures !CanChainHead(Piece(Change, 0, 5), Piece(Change, Store63(Word - 1), 1))
    ensures WideChainHead(Piece(Change, 0, 5), Change, Word - 1, 1)
  {
  }

  // ---------------------------------------------------------------------
  // Inserting into a leaf

  /**
   * The entry loop of piece_table_insert_full on a non-empty leaf, at
   * relative position `p`.  Entries are tried in order:
   *   - at p == 0, head-chain into the entry, or insert before it;
   *   - at p == the entry's length, tail-chain into it, else head-chain
   *     into the following entry of this leaf, else insert after it;
   *   - strictly inside, cut the entry in two around the new piece;
   *   - otherwise move on with p less the entry's length.
   * The source stops with g_assert_not_reached past the last entry, so
   * `p` may not exceed the leaf's total.
   */
  function Scan(es: seq<Piece>, p: nat, x: Piece): (r: seq<Piece>)
    requires |es| > 0 && p <= Total(es)
    ensures |es| <= |r| <= |es| + 2
    decreases |es|
  {
    var e := es[0];
    if p == 0 then
      if CanChainHead(e, x) then [ChainHead(e, x)] + es[1..] else [x] + es
    else if p == e.length then
      if CanChainTail(e, x) then [ChainTail(e, x)] + es[1..]
      else if |es| > 1 && CanChainHead(es[1], x) then [e, ChainHead(es[1], x)] + es[2..]
      else [e, x] + es[1..]
    else if p < e.length then
      [Piece(e.kind, e.offset, p), x, Piece(e.kind, Store63(e.offset + p), e.length - p)] + es[1..]
    else
      [e] + Scan(es[1..], p - e.length, x)
  }

  /** Scan passes over every whole entry before the one the position falls in. */
  lemma {:induction false} ScanAfter(pre: seq<Piece>, es: seq<Piece>, p: nat, x: Piece)
    requires |es| > 0 && 0 < p <= Total(es)
    ensures Total(pre + es) == Total(pre) + Total(es)
    ensures Scan(pre + es, Total(pre) + p, x) == pre + Scan(es, p, x)
    decreases |pre|
  {
    TotalAppend(pre, es);
    if |pre| > 0 {
      var e := pre[0];
      assert (pre + es)[0] == e && (pre + es)[1..] == pre[1..] + es;
      ScanAfter(pre[1..], es, p, x);
      assert pre == [e] + pre[1..];
    } else {
      assert pre + es == es;
    }
  }

  /**
   * A position strictly inside an entry cuts it: the entry keeps its
   * first `p` characters, the new piece follows, then the rest of the
   * entry from offset `offset + p`; all other entries stay as they were.
   */
  lemma ScanCuts(pre: seq<Piece>, e: Piece, post: seq<Piece>, p: nat, x: Piece)
    requires 0 < p < e.length && InRange(e)
    ensures Total(pre) + p <= Total(pre + [e] + post)
    ensures Scan(pre + [e] + post, Total(pre) + p, x)
         == pre + [Piece(e.kind, e.offset, p), x, Piece(e.kind, e.offset + p, e.length - p)] + post
  {
    var es := [e] + post;
    assert pre + [e] + post == pre + es;
    TotalAppend([e], post);
    assert Total([e]) == e.length + Total([]);
    ScanAfter(pre, es, p, x);
    assert es[0] == e && es[1..] == post;
  }

  /**
   * A position at the end of a non-empty entry first tries to extend that
   * entry, then to extend the entry after it in the same leaf backwards,
   * and only then adds the piece as an entry of its own after it.
   */
  lemma {:induction false} ScanAtEnd(pre: seq<Piece>, e: Piece, post: seq<Piece>, x: Piece)
    requires e.length > 0
    ensures Total(pre) + e.length <= Total(pre + [e] + post)
    ensures Scan(pre + [e] + post, Total(pre) + e.length, x)
         == pre + (if CanChainTail(e, x) then [ChainTail(e, x)] + post
                   else if |post| > 0 && CanChainHead(post[0], x) then [e, ChainHead(post[0], x)] + post[1..]
                   else [e, x] + post)
  {
    var es := [e] + post;
    assert pre + [e] + post == pre + es;
    TotalAppend([e], post);
    assert Total([e]) == e.length + Total([]);
    ScanAfter(pre, es, e.length, x);
    assert es[0] == e && es[1..] == post;
    if |post| > 0 {
      assert es[1] == post[0] && es[2..] == post[1..];
    }
  }

  /**
   * The leaf step of piece_table_insert_full: an empty leaf (only the
   * first leaf of a new table) receives the piece by PUSH_HEAD, which the
   * source guards with `position == 0`; otherwise the entry loop runs.
   */
  function LeafStep(es: seq<Piece>, p: nat, x: Piece): (r: seq<Piece>)
    requires p <= Total(es)
    ensures |r| <= |es| + 2
    ensures es == [] ==> r == [x]
  {
    if |es| == 0 then [x] else Scan(es, p, x)
  }

  /** The leaf covers exactly `x.length` more characters afterwards. */
  lemma {:induction false} ScanTotal(es: seq<Piece>, p: nat, x: Piece)
    requires |es| > 0 && p <= Total(es)
    ensures Total(Scan(es, p, x)) == Total(es) + x.length
    decreases |es|
  {
    var e := es[0];
    var r := Scan(es, p, x);
    if p == 0 {
      if CanChainHead(e, x) {
        assert r[1..] == es[1..];
      } else {
        assert r[1..] == es;
      }
    } else if p == e.length {
      if CanChainTail(e, x) {
        assert r[1..] == es[1..];
      } else if |es| > 1 && CanChainHead(es[1], x) {
        assert r[1..][1..] == es[2..];
        assert es[1..][1..] == es[2..];
      } else {
        assert r[1..][1..] == es[1..];
      }
    } else if p < e.length {
      var a := Piece(e.kind, e.offset, p);
      var b := Piece(e.kind, Store63(e.offset + p), e.length - p);
      assert r == [a, x, b] + es[1..];
      TotalAppend([a, x, b], es[1..]);
      assert Total([a, x, b]) == a.length + Total([x, b]) by { assert [a, x, b][1..] == [x, b]; }
      assert Total([x, b]) == x.length + Total([b]) by { assert [x, b][1..] == [b]; }
      assert Total([b]) == b.length + Total([]) by { assert [b][1..] == []; }
    } else {
      ScanTotal(es[1..], p - e.length, x);
      assert r[1..] == Scan(es[1..], p - e.length, x);
    }
  }

  lemma LeafStepTotal(es: seq<Piece>, p: nat, x: Piece)
    requires p <= Total(es)
    ensures Total(LeafStep(es, p, x)) == Total(es) + x.length
  {
    if |es| > 0 {
      ScanTotal(es, p, x);
    } else {
      assert Total([x]) == x.length + Total([]);
    }
  }

  lemma PositiveAppend(a: seq<Piece>, b: seq<Piece>)
    requires AllPositive(a) && AllPositive(b)
    ensures AllPositive(a + b)
  {
    forall i | 0 <= i < |a + b|
      ensures (a + b)[i].length > 0
    {
      if i >= |a| {
        assert (a + b)[i] == b[i - |a|];
      }
    }
  }

  /** Every entry stays non-empty when the new piece is non-empty. */
  lemma {:induction false} ScanPositive(es: seq<Piece>, p: nat, x: Piece)
    requires |es| > 0 && p <= Total(es)
    requires AllPositive(es) && x.length > 0
    ensures AllPositive(Scan(es, p, x))
    decreases |es|
  {
    var e := es[0];
    var rest := es[1..];
    assert AllPositive(rest);
    if p == 0 {
      if CanChainHead(e, x) {
        PositiveAppend([ChainHead(e, x)], rest);
      } else {
        PositiveAppend([x], es);
      }
    } else if p == e.length {
      if CanChainTail(e, x) {
        PositiveAppend([ChainTail(e, x)], rest);
      } else if |es| > 1 && CanChainHead(es[1], x) {
        assert AllPositive(es[2..]);
        PositiveAppend([e, ChainHead(es[1], x)], es[2..]);
      } else {
        PositiveAppend([e, x], rest);
      }
    } else if p < e.length {
      PositiveAppend([Piece(e.kind, e.offset, p), x, Piece(e.kind, Store63(e.offset + p), e.length - p)], rest);
    } else {
      ScanPositive(rest, p - e.length, x);
      PositiveAppend([e], Scan(rest, p - e.length, x));
    }
  }

  lemma LeafStepPositive(es: seq<Piece>, p: nat, x: Piece)
    requires p <= Total(es)
    requires AllPositive(es) && x.length > 0
    ensures AllPositive(LeafStep(es, p, x))
  {
    if |es| > 0 {
      ScanPositive(es, p, x);
    }
  }

  /** Pieces that fit in 63-bit offsets keep fitting. */
  lemma {:induction false} ScanInRange(es: seq<Piece>, p: nat, x: Piece)
    requires |es| > 0 && p <= Total(es)
    requires AllInRange(es) && InRange(x)
    ensures AllInRange(Scan(es, p, x))
    decreases |es|
  {
    var e := es[0];
    assert InRange(e);
    if p == 0 {
    } else if p == e.length {
      if !CanChainTail(e, x) && |es| > 1 && CanChainHead(es[1], x) {
        assert InRange(es[1]);
      }
    } else if p < e.length {
    } else {
      ScanInRange(es[1..], p - e.length, x);
    }
  }

  lemma LeafStepInRange(es: seq<Piece>, p: nat, x: Piece)
    requires p <= Total(es)
    requires AllInRange(es) && InRange(x)
    ensures AllInRange(LeafStep(es, p, x))
  {
    if |es| > 0 {
      ScanInRange(es, p, x);
    }
  }

  /** Cutting a piece that fits in 63-bit offsets at `p` splits its characters at `p`. */
  lemma CutRun(e: Piece, p: nat)
    requires 0 < p < e.length && InRange(e)
    ensures Run(Piece(e.kind, e.offset, p)) + Run(Piece(e.kind, Store63(e.offset + p), e.length - p)) == Run(e)
  {
    var a := Run(Piece(e.kind, e.offset, p));
    var b := Run(Piece(e.kind, Store63(e.offset + p), e.length - p));
    assert |a + b| == |Run(e)|;
    forall i | 0 <= i < e.length
      ensures (a + b)[i] == Run(e)[i]
    {
      if i >= p {
        assert (a + b)[i] == b[i - p];
      }
    }
  }

  lemma ExpandCons(e: Piece, rest: seq<Piece>)
    ensures Expand([e] + rest) == Run(e) + Expand(rest)
  {
    assert ([e] + rest)[0] == e;
    assert ([e] + rest)[1..] == rest;
  }

  /** Scan at p == 0: the new characters come first. */
  lemma ScanAtStart(es: seq<Piece>, x: Piece)
    requires |es| > 0
    ensures Expand(Scan(es, 0, x)) == Run(x) + Expand(es)
  {
    var e := es[0];
    assert es == [e] + es[1..];
    ExpandCons(e, es[1..]);
    if CanChainHead(e, x) {
      ExpandCons(ChainHead(e, x), es[1..]);
    } else {
      ExpandCons(x, es);
    }
  }

  /** Scan at the end of the first entry: the new characters follow it. */
  lemma ScanAtBoundary(es: seq<Piece>, x: Piece)
    requires |es| > 0 && 0 < es[0].length <= Total(es)
    ensures Expand(Scan(es, es[0].length, x)) == Run(es[0]) + Run(x) + Expand(es[1..])
  {
    if CanChainTail(es[0], x) {
      BoundaryTail(es, x);
    } else if |es| > 1 && CanChainHead(es[1], x) {
      assert Scan(es, es[0].length, x) == [es[0], ChainHead(es[1], x)] + es[2..];
      BoundaryChainNext(es, x);
    } else {
      BoundaryApart(es, x);
    }
  }

  /** The boundary case where the new piece extends the entry before it. */
  lemma BoundaryTail(es: seq<Piece>, x: Piece)
    requires |es| > 0 && 0 < es[0].length <= Total(es) && CanChainTail(es[0], x)
    ensures Expand(Scan(es, es[0].length, x)) == Run(es[0]) + Run(x) + Expand(es[1..])
  {
    var c := ChainTail(es[0], x);
    assert Scan(es, es[0].length, x) == [c] + es[1..];
    ExpandCons(c, es[1..]);
  }

  /** The boundary case where the new piece becomes an entry of its own. */
  lemma BoundaryApart(es: seq<Piece>, x: Piece)
    requires |es| > 0 && 0 < es[0].length <= Total(es) && !CanChainTail(es[0], x)
    requires !(|es| > 1 && CanChainHead(es[1], x))
    ensures Expand(Scan(es, es[0].length, x)) == Run(es[0]) + Run(x) + Expand(es[1..])
  {
    var e := es[0];
    var rest := es[1..];
    assert Scan(es, e.length, x) == [e] + ([x] + rest);
    ExpandCons(x, rest);
    ExpandCons(e, [x] + rest);
  }

  lemma BoundaryChainNext(es: seq<Piece>, x: Piece)
    requires |es| > 1 && CanChainHead(es[1], x)
    ensures Expand([es[0], ChainHead(es[1], x)] + es[2..]) == Run(es[0]) + Run(x) + Expand(es[1..])
  {
    var e := es[0];
    var rest := es[1..];
    assert rest == [es[1]] + es[2..];
    ExpandCons(es[1], es[2..]);
    ExpandCons(ChainHead(es[1], x), es[2..]);
    assert [e, ChainHead(es[1], x)] + es[2..] == [e] + ([ChainHead(es[1], x)] + es[2..]);
    ExpandCons(e, [ChainHead(es[1], x)] + es[2..]);
  }

  /** Scan strictly inside the first entry: it is cut around the new characters. */
  lemma ScanInside(es: seq<Piece>, p: nat, x: Piece)
    requires |es| > 0 && 0 < p < es[0].length && InRange(es[0])
    ensures Expand(Scan(es, p, x)) == Run(es[0])[..p] + Run(x) + Run(es[0])[p..] + Expand(es[1..])
  {
    var e := es[0];
    var a := Piece(e.kind, e.offset, p);
    var b := Piece(e.kind, Store63(e.offset + p), e.length - p);
    assert Scan(es, p, x) == [a, x, b] + es[1..];
    CutRun(e, p);
    assert Run(e)[..p] == Run(a) && Run(e)[p..] == Run(b);
    ExpandThreeCons(a, x, b, es[1..]);
  }

  lemma ExpandThreeCons(a: Piece, x: Piece, b: Piece, rest: seq<Piece>)
    ensures Expand([a, x, b] + rest) == Run(a) + Run(x) + Run(b) + Expand(rest)
  {
    assert [a, x, b] + rest == [a] + ([x] + ([b] + rest));
    ExpandCons(b, rest);
    ExpandCons(x, [b] + rest);
    ExpandCons(a, [x] + ([b] + rest));
  }

  /** Splicing just after a prefix `a` of `a + b` splices into `b`. */
  lemma SpliceAfter<T>(a: seq<T>, b: seq<T>, p: nat, ins: seq<T>)
    requires |a| <= p <= |a| + |b|
    ensures Splice(a + b, p, ins) == a + Splice(b, p - |a|, ins)
  {
    assert (a + b)[..p] == a + b[..p - |a|];
    assert (a + b)[p..] == b[p - |a|..];
  }

  /** Splicing inside a prefix `a` of `a + b`. */
  lemma SpliceBefore<T>(a: seq<T>, b: seq<T>, p: nat, ins: seq<T>)
    requires p <= |a|
    ensures Splice(a + b, p, ins) == a[..p] + ins + a[p..] + b
  {
    assert (a + b)[..p] == a[..p];
    assert (a + b)[p..] == a[p..] + b;
  }

  /**
   * The content law of one insert into a leaf: the characters described
   * afterwards are the old ones with the new piece's characters spliced
   * in at `p`.
   */
  lemma {:induction false} ScanExpand(es: seq<Piece>, p: nat, x: Piece)
    requires |es| > 0 && p <= Total(es)
    requires AllInRange(es)
    ensures p <= |Expand(es)|
    ensures Expand(Scan(es, p, x)) == Splice(Expand(es), p, Run(x))
    decreases |es|
  {
    ExpandLength(es);
    var e := es[0];
    if p == 0 {
      StartCase(es, x);
    } else if p == e.length {
      BoundaryCase(es, x);
    } else if p < e.length {
      InsideCase(es, p, x);
    } else {
      assert AllInRange(es[1..]);
      ScanExpand(es[1..], p - e.length, x);
      LaterCase(es, p, x);
    }
  }

  lemma {:induction false} StartCase(es: seq<Piece>, x: Piece)
    requires |es| > 0
    ensures Expand(Scan(es, 0, x)) == Splice(Expand(es), 0, Run(x))
  {
    ScanAtStart(es, x);
    var t := Expand(es);
    assert t[..0] == [] && t[0..] == t;
    assert Splice(t, 0, Run(x)) == [] + Run(x) + t;
  }

  lemma {:induction false} BoundaryCase(es: seq<Piece>, x: Piece)
    requires |es| > 0 && 0 < es[0].length <= Total(es)
    ensures Expand(Scan(es, es[0].length, x)) == Splice(Expand(es), es[0].length, Run(x))
  {
    var e := es[0];
    var rest := es[1..];
    assert es == [e] + rest;
    ExpandCons(e, rest);
    var t := Expand(rest);
    ScanAtBoundary(es, x);
    SpliceAfter(Run(e), t, e.length, Run(x));
    SpliceAtStart(t, Run(x));
    AppendAssoc(Run(e), Run(x), t);
  }

  lemma SpliceAtStart<T>(s: seq<T>, ins: seq<T>)
    ensures Splice(s, 0, ins) == ins + s
  {
    assert s[..0] == [] && s[0..] == s;
  }

  lemma AppendAssoc<T>(a: seq<T>, b: seq<T>, c: seq<T>)
    ensures a + (b + c) == a + b + c
  {
  }

  lemma InsideCase(es: seq<Piece>, p: nat, x: Piece)
    requires |es| > 0 && 0 < p < es[0].length && AllInRange(es)
    ensures Expand(Scan(es, p, x)) == Splice(Expand(es), p, Run(x))
  {
    var e := es[0];
    var rest := es[1..];
    assert es == [e] + rest;
    ExpandCons(e, rest);
    assert InRange(e);
    ScanInside(es, p, x);
    SpliceBefore(Run(e), Expand(rest), p, Run(x));
  }

  lemma LaterCase(es: seq<Piece>, p: nat, x: Piece)
    requires |es| > 0 && es[0].length < p <= Total(es)
    requires p - es[0].length <= |Expand(es[1..])|
    requires Expand(Scan(es[1..], p - es[0].length, x)) == Splice(Expand(es[1..]), p - es[0].length, Run(x))
    ensures Expand(Scan(es, p, x)) == Splice(Expand(es), p, Run(x))
  {
    var e := es[0];
    var rest := es[1..];
    assert es == [e] + rest;
    ExpandCons(e, rest);
    var s := Scan(rest, p - e.length, x);
    assert Scan(es, p, x) == [e] + s;
    ExpandCons(e, s);
    SpliceAfter(Run(e), Expand(rest), p, Run(x));
  }

  lemma LeafStepExpand(es: seq<Piece>, p: nat, x: Piece)
    requires p <= Total(es)
    requires AllInRange(es)
    ensures p <= |Expand(es)|
    ensures Expand(LeafStep(es, p, x)) == Splice(Expand(es), p, Run(x))
  {
    ExpandLength(es);
    if |es| > 0 {
      ScanExpand(es, p, x);
    } else {
      assert Expand([x]) == Run(x) + Expand([]);
    }
  }
}

=== FILE: scenarios.dfy ===
/*
 * The scenarios of test-piece-table.c, stated about the model: the
 * table's pieces after each insert of test_basic, the single chained
 * piece that 10000 inserts at the head or at the tail leave behind, and
 * a table that passes validation after 10000 inserts that force splits.
 */
module Scenarios {
  import opened Pieces
  import opened PieceTree
  import opened TreeInsert
  import opened PieceTable

  /** What the entries of a table's only leaf satisfy. */
  predicate LeafTable(es: seq<Piece>)
  {
    |es| <= LeafFanout - 1 && AllPositive(es) && AllInRange(es) && Total(es) <= MaxLength
  }

  /**
   * A table whose root holds a single leaf: what piece_table_new builds,
   * and what stays while the leaf has room.
   */
  function OneLeaf(es: seq<Piece>): (t: Table)
    requires LeafTable(es)
    ensures Inv(t) && Shaped(t) && Flatten(t.root) == es && t.length == Total(es)
    ensures Leaves(t.root) == [es]
  {
    var cs := [Child(Leaf(es), Total(es))];
    FlattenBranch(cs);
    assert Flats(cs) == [es];
    assert Concat(Flats(cs)) == es + Concat([]);
    var ls := seq(|cs|, i requires 0 <= i < |cs| => Leaves(cs[i].node));
    assert ls == [[es]];
    assert Concat(ls) == [es] + Concat([]);
    assert SumLengths(cs) == Total(es) + SumLengths([]);
    assert Height(Branch(cs)) == 1;
    assert Balanced(Branch(cs), 1);
    assert Fits(Branch(cs));
    assert WellFormed(Branch(cs));
    Table(Branch(cs), Total(es))
  }

  lemma OneLeafValidates(es: seq<Piece>)
    requires LeafTable(es)
    ensures Validate(OneLeaf(es))
  {
    InvValidates(OneLeaf(es));
  }

  lemma NewIsOneLeaf()
    ensures New() == OneLeaf([])
  {
  }

  /**
   * A position past the end passes the source's check after its search:
   * the search falls through to the last child having subtracted every
   * child's length, so in a one-leaf table of 100 characters position 150
   * reaches the leaf at 50, no split is needed, and the entry loop cuts
   * the entry there, in the middle of the buffer.
   */
  lemma PastEndLandsInside()
    ensures var es := [Piece(Initial, 0, 100)];
      && LeafTable(es)
      && Search(OneLeaf(es).root, 150) == (es, 50) && 50 <= Total(es)
      && !NeedsSplit(Leaf(es))
      && LeafStep(es, 50, Piece(Change, 0, 1))
         == [Piece(Initial, 0, 50), Piece(Change, 0, 1), Piece(Initial, 50, 50)]
  {
    var es := [Piece(Initial, 0, 100)];
    assert Total(es) == 100 + Total([]);
    var cs := OneLeaf(es).root.children;
    assert Pick(cs, 150) == (0, 50);
  }

  /**
   * While its only leaf has fewer than 24 entries, no split happens: an
   * accepted insert into a one-leaf table runs the entry loop on that
   * leaf and nothing else.
   */
  lemma InsertOneLeaf(t: Table, pos: nat, kind: PieceKind, offset: nat, length: nat)
    requires Inv(t) && |t.root.children| == 1 && t.root.children[0].node.Leaf?
    requires |t.root.children[0].node.entries| < LeafFanout - 2
    requires pos <= t.length && 0 < length <= MaxLength - t.length
    ensures t.length == Total(t.root.children[0].node.entries)
    ensures Insert(t, pos, kind, offset, length).Ok?
    ensures Insert(t, pos, kind, offset, length).value.root
         == Branch([Child(Leaf(LeafStep(t.root.children[0].node.entries, pos, Piece(kind, Store63(offset), length))),
                          t.length + length)])
  {
    var cs := t.root.children;
    assert SumLengths(cs) == cs[0].length + SumLengths([]);
    OneLeafInsertFull(cs, pos, Piece(kind, Store63(offset), length));
  }

  /** The tree-level step of that insert: the single leaf takes the entry loop's result. */
  lemma OneLeafInsertFull(cs: seq<Child>, pos: nat, x: Piece)
    requires WellFormed(Branch(cs)) && |cs| == 1 && cs[0].node.Leaf?
    requires |cs[0].node.entries| < LeafFanout - 2 && pos <= cs[0].length
    ensures InsertFull(Branch(cs), pos, x)
         == Branch([Child(Leaf(LeafStep(cs[0].node.entries, pos, x)), cs[0].length + x.length)])
  {
    assert SumLengths(cs) == cs[0].length + SumLengths([]);
    assert Pick(cs, pos) == (0, pos);
    assert Search(Branch(cs), pos) == (cs[0].node.entries, pos);
    assert InsertFull(Branch(cs), pos, x) == InsertInto(Branch(cs), pos, x);
    assert InsertInto(cs[0].node, pos, x) == Leaf(LeafStep(cs[0].node.entries, pos, x));
  }

  // ---------------------------------------------------------------------
  // test_basic

  const P1: seq<Piece> :=
    [Piece(Initial, 0, 1024)]
  const P2: seq<Piece> :=
    [Piece(Initial, 0, 512), Piece(Change, 0, 1024), Piece(Initial, 512, 512)]
  const P3: seq<Piece> :=
    [Piece(Change, 91, 100), Piece(Initial, 0, 512), Piece(Change, 0, 1024),
     Piece(Initial, 512, 512)]
  const P4: seq<Piece> :=
    [Piece(Change, 90, 101), Piece(Initial, 0, 512), Piece(Change, 0, 1024),
     Piece(Initial, 512, 512)]
  const P5: seq<Piece> :=
    [Piece(Change, 90, 101), Piece(Initial, 0, 512), Piece(Change, 0, 1024),
     Piece(Initial, 512, 612)]
  const P6: seq<Piece> :=
    [Piece(Change, 90, 101), Piece(Initial, 0, 512), Piece(Change, 0, 1024),
     Piece(Initial, 512, 612), Piece(Change, 0, 100)]
  const P7: seq<Piece> :=
    [Piece(Change, 90, 101), Piece(Initial, 0, 512), Piece(Change, 0, 1024),
     Piece(Initial, 512, 612), Piece(Change, 0, 100), Piece(Change, 10, 15)]
  const P8: seq<Piece> :=
    [Piece(Change, 90, 101), Piece(Initial, 0, 512), Piece(Change, 0, 1024),
     Piece(Initial, 512, 612), Piece(Change, 0, 100), Piece(Change, 10, 15),
     Piece(Change, 10, 15)]
  const P9: seq<Piece> :=
    [Piece(Change, 90, 101), Piece(Initial, 0, 155), Piece(Change, 9000, 1),
     Piece(Initial, 155, 357), Piece(Change, 0, 1024), Piece(Initial, 512, 612),
     Piece(Change, 0, 100), Piece(Change, 10, 15), Piece(Change, 10, 15)]
  const P10: seq<Piece> :=
    [Piece(Change, 90, 101), Piece(Initial, 0, 155), Piece(Change, 9000, 1),
     Piece(Initial, 155, 357), Piece(Change, 0, 1024), Piece(Initial, 512, 612),
     Piece(Change, 0, 100), Piece(Change, 10, 15), Piece(Change, 5, 20)]

  /**
   * test_basic, insert by insert: an empty insert changes nothing; a
   * piece inside an entry cuts it; a piece that continues an entry's
   * buffer range chains onto it, at its head or its tail; otherwise the
   * piece becomes an entry of its own.  After each insert the table
   * holds the listed pieces and reports the listed length.
   */
  method Basic() returns (t: Table)
    ensures Inv(t) && Flatten(t.root) == P10 && GetLength(t) == 2385
  {
    t := New();
    var r := Insert(t, 0, Change, 0, 0);
    assert r == Ok(t);
    Basic1();
    r := Insert(t, 0, Initial, 0, 1024);
    t := r.value;
    assert Flatten(t.root) == P1 && GetLength(t) == 1024;
    Basic2();
    r := Insert(t, 512, Change, 0, 1024);
    t := r.value;
    assert Flatten(t.root) == P2 && GetLength(t) == 2048;
    Basic3();
    r := Insert(t, 0, Change, 91, 100);
    t := r.value;
    assert Flatten(t.root) == P3 && GetLength(t) == 2148;
    Basic4();
    r := Insert(t, 0, Change, 90, 1);
    t := r.value;
    assert Flatten(t.root) == P4 && GetLength(t) == 2149;
    Basic5();
    r := Insert(t, 2149, Initial, 1024, 100);
    t := r.value;
    assert Flatten(t.root) == P5 && GetLength(t) == 2249;
    Basic6();
    r := Insert(t, 2249, Change, 0, 100);
    t := r.value;
    assert Flatten(t.root) == P6 && GetLength(t) == 2349;
    Basic7();
    r := Insert(t, 2349, Change, 10, 15);
    t := r.value;
    assert Flatten(t.root) == P7 && GetLength(t) == 2364;
    Basic8();
    r := Insert(t, 2349, Change, 10, 15);
    t := r.value;
    assert Flatten(t.root) == P8 && GetLength(t) == 2379;
    Basic9();
    r := Insert(t, 256, Change, 9000, 1);
    t := r.value;
    assert Flatten(t.root) == P9 && GetLength(t) == 2380;
    Basic10();
    r := Insert(t, 2380 - 15, Change, 5, 5);
    t := r.value;
    assert Flatten(t.root) == P10 && GetLength(t) == 2385;
  }

  lemma Basic1()
    ensures LeafTable(P1) && Total(P1) == 1024
    ensures Insert(New(), 0, Initial, 0, 1024) == Ok(OneLeaf(P1))
  {
    NewIsOneLeaf();
    Leaf1();
    Step1();
    InsertOneLeaf(New(), 0, Initial, 0, 1024);
  }

  lemma Step1()
    ensures LeafStep([], 0, Piece(Initial, 0, 1024)) == P1
  {
  }

  lemma Leaf1()
    ensures LeafTable(P1) && |P1| < LeafFanout - 2 && Total(P1) == 1024
  {
  }

  lemma Basic2()
    ensures LeafTable(P1) && Total(P1) == 1024
    ensures LeafTable(P2) && Total(P2) == 2048
    ensures Insert(OneLeaf(P1), 512, Change, 0, 1024) == Ok(OneLeaf(P2))
  {
    Leaf1();
    Leaf2();
    Step2();
    InsertOneLeaf(OneLeaf(P1), 512, Change, 0, 1024);
  }

  lemma Step2()
    ensures LeafStep(P1, 512, Piece(Change, 0, 1024)) == P2
  {
  }

  lemma Leaf2()
    ensures LeafTable(P2) && |P2| < LeafFanout - 2 && Total(P2) == 2048
  {
  }

  lemma Basic3()
    ensures LeafTable(P2) && Total(P2) == 2048
    ensures LeafTable(P3) && Total(P3) == 2148
    ensures Insert(OneLeaf(P2), 0, Change, 91, 100) == Ok(OneLeaf(P3))
  {
    Leaf2();
    Leaf3();
    Step3();
    InsertOneLeaf(OneLeaf(P2), 0, Change, 91, 100);
  }

  lemma Step3()
    ensures LeafStep(P2, 0, Piece(Change, 91, 100)) == P3
  {
  }

  lemma Leaf3()
    ensures LeafTable(P3) && |P3| < LeafFanout - 2 && Total(P3) == 2148
  {
  }

  lemma Basic4()
    ensures LeafTable(P3) && Total(P3) == 2148
    ensures LeafTable(P4) && Total(P4) == 2149
    ensures Insert(OneLeaf(P3), 0, Change, 90, 1) == Ok(OneLeaf(P4))
  {
    Leaf3();
    Leaf4();
    Step4();
    InsertOneLeaf(OneLeaf(P3), 0, Change, 90, 1);
  }

  lemma Step4()
    ensures LeafStep(P3, 0, Piece(Change, 90, 1)) == P4
  {
  }

  lemma Leaf4()
    ensures LeafTable(P4) && |P4| < LeafFanout - 2 && Total(P4) == 2149
  {
  }

  lemma Basic5()
    ensures LeafTable(P4) && Total(P4) == 2149
    ensures LeafTable(P5) && Total(P5) == 2249
    ensures Insert(OneLeaf(P4), 2149, Initial, 1024, 100) == Ok(OneLeaf(P5))
  {
    Leaf4();
    Leaf5();
    Step5();
    InsertOneLeaf(OneLeaf(P4), 2149, Initial, 1024, 100);
  }

  lemma Step5()
    ensures LeafStep(P4, 2149, Piece(Initial, 1024, 100)) == P5
  {
  }

  lemma Leaf5()
    ensures LeafTable(P5) && |P5| < LeafFanout - 2 && Total(P5) == 2249
  {
  }

  lemma Basic6()
    ensures LeafTable(P5) && Total(P5) == 2249
    ensures LeafTable(P6) && Total(P6) == 2349
    ensures Insert(OneLeaf(P5), 2249, Change, 0, 100) == Ok(OneLeaf(P6))
  {
    Leaf5();
    Leaf6();
    Step6();
    InsertOneLeaf(OneLeaf(P5), 2249, Change, 0, 100);
  }

  lemma Step6()
    ensures LeafStep(P5, 2249, Piece(Change, 0, 100)) == P6
  {
  }

  lemma Leaf6()
    ensures LeafTable(P6) && |P6| < LeafFanout - 2 && Total(P6) == 2349
  {
  }

  lemma Basic7()
    ensures LeafTable(P6) && Total(P6) == 2349
    ensures LeafTable(P7) && Total(P7) == 2364
    ensures Insert(OneLeaf(P6), 2349, Change, 10, 15) == Ok(OneLeaf(P7))
  {
    Leaf6();
    Leaf7();
    Step7();
    InsertOneLeaf(OneLeaf(P6), 2349, Change, 10, 15);
  }

  lemma Step7()
    ensures LeafStep(P6, 2349, Piece(Change, 10, 15)) == P7
  {
  }

  lemma Leaf7()
    ensures LeafTable(P7) && |P7| < LeafFanout - 2 && Total(P7) == 2364
  {
  }

  lemma Basic8()
    ensures LeafTable(P7) && Total(P7) == 2364
    ensures LeafTable(P8) && Total(P8) == 2379
    ensures Insert(OneLeaf(P7), 2349, Change, 10, 15) == Ok(OneLeaf(P8))
  {
    Leaf7();
    Leaf8();
    Step8();
    InsertOneLeaf(OneLeaf(P7), 2349, Change, 10, 15);
  }

  lemma Step8()
    ensures LeafStep(P7, 2349, Piece(Change, 10, 15)) == P8
  {
  }

  lemma Leaf8()
    ensures LeafTable(P8) && |P8| < LeafFanout - 2 && Total(P8) == 2379
  {
  }

  lemma Basic9()
    ensures LeafTable(P8) && Total(P8) == 2379
    ensures LeafTable(P9) && Total(P9) == 2380
    ensures Insert(OneLeaf(P8), 256, Change, 9000, 1) == Ok(OneLeaf(P9))
  {
    Leaf8();
    Leaf9();
    Step9();
    InsertOneLeaf(OneLeaf(P8), 256, Change, 9000, 1);
  }

  lemma Step9()
    ensures LeafStep(P8, 256, Piece(Change, 9000, 1)) == P9
  {
  }

  lemma Leaf9()
    ensures LeafTable(P9) && |P9| < LeafFanout - 2 && Total(P9) == 2380
  {
  }

  lemma Basic10()
    ensures LeafTable(P9) && Total(P9) == 2380
    ensures LeafTable(P10) && Total(P10) == 2385
    ensures Insert(OneLeaf(P9), 2380 - 15, Change, 5, 5) == Ok(OneLeaf(P10))
  {
    Leaf9();
    Leaf10();
    Step10();
    InsertOneLeaf(OneLeaf(P9), 2380 - 15, Change, 5, 5);
  }

  lemma Step10()
    ensures LeafStep(P9, 2380 - 15, Piece(Change, 5, 5)) == P10
  {
    var pre := [Piece(Change, 90, 101), Piece(Initial, 0, 155), Piece(Change, 9000, 1),
                Piece(Initial, 155, 357), Piece(Change, 0, 1024), Piece(Initial, 512, 612),
                Piece(Change, 0, 100)];
    var last := [Piece(Change, 10, 15), Piece(Change, 10, 15)];
    assert P9 == pre + last;
    assert Total(pre) == 2350;
    ScanAfter(pre, last, 15, Piece(Change, 5, 5));
    assert Scan(last, 15, Piece(Change, 5, 5)) == [Piece(Change, 10, 15), Piece(Change, 5, 20)];
  }

  lemma Leaf10()
    ensures LeafTable(P10) && |P10| < LeafFanout - 2 && Total(P10) == 2385
  {
  }

  // ---------------------------------------------------------------------
  // test_inserts_at_head and test_inserts_at_tail

  /** The table after inserting offsets 10000 down to i + 1 at position 0: one chained piece. */
  function HeadRun(i: nat): (es: seq<Piece>)
    requires i <= 10000
    ensures LeafTable(es) && |es| <= 1 && Total(es) == 10000 - i
  {
    if i == 10000 then [] else [Piece(Change, i + 1, 10000 - i)]
  }

  /** Each new piece ends where the one piece starts, so it chains onto its head. */
  lemma HeadStep(i: nat)
    requires 0 < i <= 10000
    ensures Insert(OneLeaf(HeadRun(i)), 0, Change, i, 1) == Ok(OneLeaf(HeadRun(i - 1)))
  {
    var t := OneLeaf(HeadRun(i));
    var x := Piece(Change, i, 1);
    InsertOneLeaf(t, 0, Change, i, 1);
    assert LeafStep(HeadRun(i), 0, x) == HeadRun(i - 1);
  }

  /**
   * test_inserts_at_head: inserting offsets 10000, 9999, ..., 1 one
   * character at a time at position 0 leaves the single piece
   * (Change, 1, 10000), and the table validates.
   */
  method InsertsAtHead() returns (t: Table)
    ensures Inv(t) && Flatten(t.root) == [Piece(Change, 1, 10000)] && Validate(t)
  {
    t := New();
    NewIsOneLeaf();
    var k: nat := 0;
    while k < 10000
      invariant k <= 10000 && t == OneLeaf(HeadRun(10000 - k))
    {
      HeadStep(10000 - k);
      var r := Insert(t, 0, Change, 10000 - k, 1);
      t := r.value;
      k := k + 1;
    }
    HeadDone();
  }

  lemma HeadDone()
    ensures var t := OneLeaf(HeadRun(0));
      Inv(t) && Flatten(t.root) == [Piece(Change, 1, 10000)] && Validate(t)
  {
    OneLeafValidates(HeadRun(0));
  }

  /** The table after inserting offsets 0 to i - 1 at their own positions: one chained piece. */
  function TailRun(i: nat): (es: seq<Piece>)
    requires i <= 10000
    ensures LeafTable(es) && |es| <= 1 && Total(es) == i
  {
    if i == 0 then [] else [Piece(Change, 0, i)]
  }

  /** Each new piece starts where the one piece ends, so it chains onto its tail. */
  lemma TailStep(i: nat)
    requires i < 10000
    ensures Insert(OneLeaf(TailRun(i)), i, Change, i, 1) == Ok(OneLeaf(TailRun(i + 1)))
  {
    var t := OneLeaf(TailRun(i));
    var x := Piece(Change, i, 1);
    InsertOneLeaf(t, i, Change, i, 1);
    assert LeafStep(TailRun(i), i, x) == TailRun(i + 1);
  }

  /**
   * test_inserts_at_tail: inserting offset i at position i for i = 0 to
   * 9999 leaves the single piece (Change, 0, 10000), and the table
   * validates.
   */
  method InsertsAtTail() returns (t: Table)
    ensures Inv(t) && Flatten(t.root) == [Piece(Change, 0, 10000)] && Validate(t)
  {
    t := New();
    NewIsOneLeaf();
    var i: nat := 0;
    while i < 10000
      invariant i <= 10000 && t == OneLeaf(TailRun(i))
    {
      TailStep(i);
      var r := Insert(t, i, Change, i, 1);
      t := r.value;
      i := i + 1;
    }
    TailDone();
  }

  lemma TailDone()
    ensures var t := OneLeaf(TailRun(10000));
      Inv(t) && Flatten(t.root) == [Piece(Change, 0, 10000)] && Validate(t)
  {
    OneLeafValidates(TailRun(10000));
  }

  // ---------------------------------------------------------------------
  // test_root_split

  /** The characters after inserting offsets 0 to i - 1 at position 0: newest first. */
  function Descending(i: nat): (s: seq<Ref>)
    ensures |s| == i
  {
    seq(i, k requires 0 <= k < i => Ref(Change, i - 1 - k))
  }

  lemma DescendingStep(i: nat)
    ensures Descending(i + 1) == [Ref(Change, i)] + Descending(i)
  {
  }

  /**
   * test_root_split: 10000 inserts at position 0, none of which can
   * chain, so leaves fill and split and the root splits too.  Every step
   * keeps the table invariant, the table then describes the characters
   * newest first, and it validates.
   */
  method RootSplit() returns (t: Table)
    ensures Inv(t) && Validate(t) && GetLength(t) == 10000
    ensures Expand(Flatten(t.root)) == Descending(10000)
  {
    t := New();
    var i := 0;
    while i < 10000
      invariant 0 <= i <= 10000
      invariant Inv(t) && t.length == i
      invariant Expand(Flatten(t.root)) == Descending(i)
    {
      InsertKeepsInv(t, 0, Change, i, 1);
      InsertContent(t, 0, Change, i, 1);
      DescendingStep(i);
      var r := Insert(t, 0, Change, i, 1);
      assert Run(Piece(Change, i, 1)) == [Ref(Change, i)];
      t := r.value;
      i := i + 1;
    }
    InvValidates(t);
  }
}

=== FILE: tree_insert.dfy ===
/*
 * piece_table_insert_full in piece-table.c: search for the target leaf,
 * split it (and whatever above it must go too) when it is nearly full,
 * search again, run the entry loop on the leaf, then walk back up adding
 * the inserted length to each recorded length on the path.
 */
module TreeInsert {
  import opened Pieces
  import opened PieceTree
  import opened TreeSplit

  /**
   * The descent and the walk back up: the leaf the search reaches takes
   * the piece (LeafStep), and every child entry on the path records
   * `x.length` more.
   */
  function InsertInto(n: Node, pos: nat, x: Piece): (r: Node)
    requires WellFormed(n) && pos <= NodeLength(n)
  {
    match n
    case Leaf(es) => Leaf(LeafStep(es, pos, x))
    case Branch(cs) =>
      PickSpec(cs, pos);
      var j := Pick(cs, pos).0;
      Branch(cs[j := Child(InsertInto(cs[j].node, Pick(cs, pos).1, x), cs[j].length + x.length)])
  }

  /**
   * Off the path nothing changes: a branch keeps every child but the one
   * the search takes, and that one's recorded length grows by exactly the
   * piece's length.
   */
  lemma InsertIntoOthers(cs: seq<Child>, pos: nat, x: Piece)
    requires WellFormed(Branch(cs)) && pos <= SumLengths(cs)
    ensures var r := InsertInto(Branch(cs), pos, x);
      var j := Pick(cs, pos).0;
      && r.Branch? && |r.children| == |cs|
      && r.children[j].length == cs[j].length + x.length
      && (forall i | 0 <= i < |cs| && i != j :: r.children[i] == cs[i])
  {
  }

  /**
   * One insert into a well-formed tree keeps it well-formed, adds the
   * piece's length to the tree's, and changes its meaning only inside the
   * target leaf: the entries before and after it are untouched.
   */
  lemma {:induction false} InsertIntoSpec(n: Node, pos: nat, x: Piece)
    requires WellFormed(n) && pos <= NodeLength(n) && x.length > 0
    ensures Search(n, pos).1 <= Total(Search(n, pos).0)
    ensures WellFormed(InsertInto(n, pos, x))
    ensures NodeLength(InsertInto(n, pos, x)) == NodeLength(n) + x.length
    ensures Flatten(InsertInto(n, pos, x)) ==
      Context(n, pos).0 + LeafStep(Search(n, pos).0, Search(n, pos).1, x) + Context(n, pos).1
  {
    SearchSpec(n, pos);
    match n
    case Leaf(es) =>
      LeafStepTotal(es, pos, x);
      LeafStepPositive(es, pos, x);
    case Branch(cs) =>
      PickSpec(cs, pos);
      var (j, rel) := Pick(cs, pos);
      InsertIntoSpec(cs[j].node, rel, x);
      InsertStep(cs, pos, x, j, rel);
  }

  /** One level of InsertIntoSpec: the branch's facts from its child's. */
  lemma {:induction false} InsertStep(cs: seq<Child>, pos: nat, x: Piece, j: nat, rel: nat)
    requires WellFormed(Branch(cs)) && pos <= SumLengths(cs)
    requires (j, rel) == Pick(cs, pos) && rel <= cs[j].length
    requires Search(cs[j].node, rel).1 <= Total(Search(cs[j].node, rel).0)
    requires WellFormed(InsertInto(cs[j].node, rel, x))
    requires NodeLength(InsertInto(cs[j].node, rel, x)) == NodeLength(cs[j].node) + x.length
    requires Flatten(InsertInto(cs[j].node, rel, x)) ==
      Context(cs[j].node, rel).0 + LeafStep(Search(cs[j].node, rel).0, Search(cs[j].node, rel).1, x) + Context(cs[j].node, rel).1
    ensures Search(Branch(cs), pos).1 <= Total(Search(Branch(cs), pos).0)
    ensures WellFormed(InsertInto(Branch(cs), pos, x))
    ensures NodeLength(InsertInto(Branch(cs), pos, x)) == SumLengths(cs) + x.length
    ensures Flatten(InsertInto(Branch(cs), pos, x)) ==
      Context(Branch(cs), pos).0 + LeafStep(Search(Branch(cs), pos).0, Search(Branch(cs), pos).1, x) + Context(Branch(cs), pos).1
  {
    var child := cs[j].node;
    var c := Child(InsertInto(child, rel, x), cs[j].length + x.length);
    InsertIntoBranch(cs, pos, x, j, rel);
    assert Search(Branch(cs), pos) == Search(child, rel);
    Replace1WellFormed(cs, j, c);
    Replace1Sum(cs, j, c);
    InsertStepFlatten(cs, j, rel, c, pos, Search(child, rel).0, LeafStep(Search(child, rel).0, Search(child, rel).1, x));
  }

  lemma InsertIntoBranch(cs: seq<Child>, pos: nat, x: Piece, j: nat, rel: nat)
    requires WellFormed(Branch(cs)) && pos <= SumLengths(cs)
    requires (j, rel) == Pick(cs, pos) && rel <= cs[j].length
    ensures InsertInto(Branch(cs), pos, x) == Branch(cs[j := Child(InsertInto(cs[j].node, rel, x), cs[j].length + x.length)])
  {
  }

  lemma InsertStepFlatten(cs: seq<Child>, j: nat, rel: nat, c: Child, pos: nat, es: seq<Piece>, es': seq<Piece>)
    requires WellFormed(Branch(cs)) && (j, rel) == Pick(cs, pos)
    requires Flatten(c.node) == Context(cs[j].node, rel).0 + es' + Context(cs[j].node, rel).1
    ensures Flatten(Branch(cs[j := c])) == Context(Branch(cs), pos).0 + es' + Context(Branch(cs), pos).1
  {
    var child := cs[j].node;
    Replace1Flatten(cs, j, c);
    var left := Concat(Flats(cs[..j]));
    var right := Concat(Flats(cs[j + 1..]));
    assert Context(Branch(cs), pos) == (left + Context(child, rel).0, Context(child, rel).1 + right);
    Regroup(left, Context(child, rel).0, es', Context(child, rel).1, right);
  }

  // ---------------------------------------------------------------------
  // Offsets in range

  lemma InRangeSplit3(a: seq<Piece>, b: seq<Piece>, c: seq<Piece>)
    requires AllInRange(a + b + c)
    ensures AllInRange(a) && AllInRange(b) && AllInRange(c)
  {
    assert forall i | 0 <= i < |a| :: (a + b + c)[i] == a[i];
    assert forall i | 0 <= i < |b| :: (a + b + c)[|a| + i] == b[i];
    assert forall i | 0 <= i < |c| :: (a + b + c)[|a| + |b| + i] == c[i];
  }

  lemma InRangeJoin3(a: seq<Piece>, b: seq<Piece>, c: seq<Piece>)
    requires AllInRange(a) && AllInRange(b) && AllInRange(c)
    ensures AllInRange(a + b + c)
  {
  }

  /** No insert of an in-range piece produces a piece beyond the 63-bit offset space. */
  lemma InsertIntoInRange(n: Node, pos: nat, x: Piece)
    requires WellFormed(n) && pos <= NodeLength(n) && x.length > 0
    requires AllInRange(Flatten(n)) && InRange(x)
    ensures AllInRange(Flatten(InsertInto(n, pos, x)))
  {
    InsertIntoSpec(n, pos, x);
    SearchSpec(n, pos);
    var (es, rel) := Search(n, pos);
    var (pre, post) := Context(n, pos);
    InRangeSplit3(pre, es, post);
    LeafStepInRange(es, rel, x);
    InRangeJoin3(pre, LeafStep(es, rel, x), post);
  }

  // ---------------------------------------------------------------------
  // Content

  /**
   * The content law of InsertInto: the characters the tree describes
   * afterwards are the old ones with the piece's characters spliced in at
   * `pos`.
   */
  lemma InsertIntoContent(n: Node, pos: nat, x: Piece)
    requires WellFormed(n) && pos <= NodeLength(n) && x.length > 0
    requires AllInRange(Flatten(n))
    ensures pos <= |Expand(Flatten(n))|
    ensures Expand(Flatten(InsertInto(n, pos, x))) == Splice(Expand(Flatten(n)), pos, Run(x))
  {
    InsertIntoSpec(n, pos, x);
    SearchSpec(n, pos);
    var (es, rel) := Search(n, pos);
    var (pre, post) := Context(n, pos);
    InRangeSplit3(pre, es, post);
    ExpandLength(Flatten(n));
    NodeLengthTotal(n);
    ContentOfParts(pre, es, post, rel, x);
  }

  /** The content law at the target leaf, lifted to the whole sequence of entries. */
  lemma ContentOfParts(pre: seq<Piece>, es: seq<Piece>, post: seq<Piece>, rel: nat, x: Piece)
    requires rel <= Total(es) && AllInRange(es)
    ensures Total(pre) + rel <= |Expand(pre + es + post)|
    ensures Expand(pre + LeafStep(es, rel, x) + post) == Splice(Expand(pre + es + post), Total(pre) + rel, Run(x))
  {
    LeafStepExpand(es, rel, x);
    ExpandLength(pre);
    ExpandLength(es);
    ExpandThree(pre, es, post);
    ExpandThree(pre, LeafStep(es, rel, x), post);
    SpliceMiddle(Expand(pre), Expand(es), Expand(post), rel, Run(x));
  }

  lemma ExpandThree(a: seq<Piece>, b: seq<Piece>, c: seq<Piece>)
    ensures Expand(a + b + c) == Expand(a) + Expand(b) + Expand(c)
  {
    ExpandAppend(a + b, c);
    ExpandAppend(a, b);
  }

  /** Splicing inside the middle part of a three-part sequence. */
  lemma SpliceMiddle<T>(a: seq<T>, b: seq<T>, c: seq<T>, p: nat, ins: seq<T>)
    requires p <= |b|
    ensures Splice(a + b + c, |a| + p, ins) == a + Splice(b, p, ins) + c
  {
    assert a + b + c == a + (b + c);
    SpliceAfter(a, b + c, |a| + p, ins);
    SpliceBefore(b, c, p, ins);
  }

  // ---------------------------------------------------------------------
  // Capacity and height

  /** With room for two more entries in the target leaf, the insert keeps every node within capacity. */
  lemma {:induction false} InsertIntoFits(n: Node, pos: nat, x: Piece)
    requires WellFormed(n) && Fits(n) && pos <= NodeLength(n)
    requires |Search(n, pos).0| + 2 <= LeafFanout - 1
    ensures Fits(InsertInto(n, pos, x))
  {
    match n
    case Leaf(es) =>
    case Branch(cs) =>
      PickSpec(cs, pos);
      var (j, rel) := Pick(cs, pos);
      InsertIntoFits(cs[j].node, rel, x);
      var c := Child(InsertInto(cs[j].node, rel, x), cs[j].length + x.length);
      Replace1Fits(cs, j, c);
      assert InsertInto(n, pos, x) == Branch(cs[j := c]);
  }

  /** Inserting into a leaf never changes the tree's shape above it. */
  lemma {:induction false} InsertIntoBalanced(n: Node, pos: nat, x: Piece, h: nat)
    requires WellFormed(n) && Balanced(n, h) && pos <= NodeLength(n)
    ensures Balanced(InsertInto(n, pos, x), h)
  {
    match n
    case Leaf(es) =>
    case Branch(cs) =>
      PickSpec(cs, pos);
      var (j, rel) := Pick(cs, pos);
      InsertIntoBalanced(cs[j].node, rel, x, h - 1);
      var c := Child(InsertInto(cs[j].node, rel, x), cs[j].length + x.length);
      Replace1Balanced(cs, j, c, h);
      assert InsertInto(n, pos, x) == Branch(cs[j := c]);
  }

  // ---------------------------------------------------------------------
  // The whole insert

  /**
   * piece_table_insert_full on the tree: an empty target leaf (only in a
   * new table) takes the piece at once; a target leaf that needs a split
   * is split, with the cascade above it, and the search is repeated from
   * the root; then the piece goes in.
   */
  function InsertFull(root: Node, pos: nat, x: Piece): (r: Node)
    requires WellFormed(root) && root.Branch? && pos <= NodeLength(root)
  {
    var target := Search(root, pos).0;
    if |target| == 0 then InsertInto(root, pos, x)
    else if NeedsSplit(Leaf(target)) then
      SplitForSpec(root, pos);
      InsertInto(SplitFor(root, pos), pos, x)
    else InsertInto(root, pos, x)
  }

  /** The tree in which InsertFull runs the entry loop: split first when the target leaf needs it. */
  function Prepared(root: Node, pos: nat): (r: Node)
    requires WellFormed(root) && root.Branch?
  {
    var target := Search(root, pos).0;
    if |target| != 0 && NeedsSplit(Leaf(target)) then SplitFor(root, pos) else root
  }

  lemma PreparedSpec(root: Node, pos: nat, x: Piece)
    requires WellFormed(root) && root.Branch? && pos <= NodeLength(root)
    ensures WellFormed(Prepared(root, pos)) && Prepared(root, pos).Branch?
    ensures NodeLength(Prepared(root, pos)) == NodeLength(root)
    ensures Flatten(Prepared(root, pos)) == Flatten(root)
    ensures InsertFull(root, pos, x) == InsertInto(Prepared(root, pos), pos, x)
  {
    SplitForSpec(root, pos);
  }

  /**
   * The tree invariants one InsertFull keeps: well-formed, every node
   * within capacity, all leaves at one depth.  The depth grows by one
   * exactly when the split cascade reaches the root.
   */
  lemma InsertFullShape(root: Node, pos: nat, x: Piece, h: nat)
    requires WellFormed(root) && root.Branch? && Fits(root) && Balanced(root, h)
    requires pos <= NodeLength(root) && x.length > 0
    ensures WellFormed(InsertFull(root, pos, x)) && InsertFull(root, pos, x).Branch?
    ensures Fits(InsertFull(root, pos, x))
    ensures NodeLength(InsertFull(root, pos, x)) == NodeLength(root) + x.length
    ensures Balanced(InsertFull(root, pos, x), if RootSplits(root, pos) then h + 1 else h)
  {
    var p := Prepared(root, pos);
    PreparedSpec(root, pos, x);
    var target := Search(root, pos).0;
    if |target| != 0 && NeedsSplit(Leaf(target)) {
      SplitForSearch(root, pos);
      SplitForFits(root, pos);
      SplitForBalanced(root, pos, h);
    }
    InsertIntoSpec(p, pos, x);
    InsertIntoFits(p, pos, x);
    InsertIntoBalanced(p, pos, x, if RootSplits(root, pos) then h + 1 else h);
  }

  /** The insert at `pos` splits the root: the target leaf needs a split and so does every node above it. */
  predicate RootSplits(root: Node, pos: nat)
    requires WellFormed(root)
  {
    |Search(root, pos).0| != 0 && NeedsSplit(Leaf(Search(root, pos).0)) && Cascade(root, pos)
  }

  /** InsertFull splices the piece's characters in at `pos` and keeps every offset in range. */
  lemma InsertFullContent(root: Node, pos: nat, x: Piece)
    requires WellFormed(root) && root.Branch? && pos <= NodeLength(root) && x.length > 0
    requires AllInRange(Flatten(root)) && InRange(x)
    ensures pos <= |Expand(Flatten(root))|
    ensures Expand(Flatten(InsertFull(root, pos, x))) == Splice(Expand(Flatten(root)), pos, Run(x))
    ensures AllInRange(Flatten(InsertFull(root, pos, x)))
  {
    var p := Prepared(root, pos);
    PreparedSpec(root, pos, x);
    InsertIntoContent(p, pos, x);
    InsertIntoInRange(p, pos, x);
  }
}

=== FILE: tree_split.dfy ===
/*
 * Node splitting in piece-table.c: piece_tree_node_split and its three
 * cases (root, internal branch, leaf).
 *
 * piece_tree_node_split(target) first climbs: while a node's parent needs
 * a split, the parent is split before the node.  The nodes split are
 * therefore the bottom run of the search path in which every node needs a
 * split (Cascade), and they are split top-down.  Each split halves the
 * node's cells by count, as LINKED_ARRAY_SPLIT and SPLIT2 do, and then
 * the path child, now in one of the two halves, is split in turn.
 */
module TreeSplit {
  import opened Pieces
  import opened PieceTree
  import LinkedArray

  // ---------------------------------------------------------------------
  // Editing a branch's children

  /** The children of a branch after child `j` is replaced by `h1` and `h2`. */
  function Replace2(cs: seq<Child>, j: nat, h1: Child, h2: Child): (r: seq<Child>)
    requires j < |cs|
    ensures |r| == |cs| + 1
  {
    cs[..j] + [h1, h2] + cs[j + 1..]
  }

  lemma Replace2At(cs: seq<Child>, j: nat, h1: Child, h2: Child, i: nat)
    requires j < |cs| && i < |cs| + 1
    ensures Replace2(cs, j, h1, h2)[i] ==
      if i < j then cs[i] else if i == j then h1 else if i == j + 1 then h2 else cs[i - 1]
  {
  }

  lemma Replace2Sum(cs: seq<Child>, j: nat, h1: Child, h2: Child)
    requires j < |cs| && h1.length + h2.length == cs[j].length
    ensures SumLengths(Replace2(cs, j, h1, h2)) == SumLengths(cs)
  {
    var r := Replace2(cs, j, h1, h2);
    assert cs == cs[..j] + [cs[j]] + cs[j + 1..];
    SumLengthsAppend(cs[..j] + [cs[j]], cs[j + 1..]);
    SumLengthsAppend(cs[..j], [cs[j]]);
    SumLengthsAppend(cs[..j] + [h1, h2], cs[j + 1..]);
    SumLengthsAppend(cs[..j], [h1, h2]);
    assert SumLengths([cs[j]]) == cs[j].length + SumLengths([]);
    assert SumLengths([h1, h2]) == h1.length + SumLengths([h2]);
    assert SumLengths([h2]) == h2.length + SumLengths([]);
  }

  lemma Replace2Flatten(cs: seq<Child>, j: nat, h1: Child, h2: Child)
    requires j < |cs| && Flatten(h1.node) + Flatten(h2.node) == Flatten(cs[j].node)
    ensures Flatten(Branch(Replace2(cs, j, h1, h2))) == Flatten(Branch(cs))
  {
    var r := Replace2(cs, j, h1, h2);
    var left := Concat(Flats(cs[..j]));
    var right := Concat(Flats(cs[j + 1..]));
    FlattenAround(cs, j);
    FlattenAround(r, j);
    assert r[..j] == cs[..j];
    assert r[j + 1..] == [h2] + cs[j + 1..];
    FlatsAppend([h2], cs[j + 1..]);
    assert Flats([h2]) == [Flatten(h2.node)];
    ConcatAppend([Flatten(h2.node)], Flats(cs[j + 1..]));
    assert Concat([Flatten(h2.node)]) == Flatten(h2.node) + Concat([Flatten(h2.node)][1..]);
  }

  lemma Replace2WellFormed(cs: seq<Child>, j: nat, h1: Child, h2: Child)
    requires WellFormed(Branch(cs)) && j < |cs|
    requires WellFormed(h1.node) && h1.length == NodeLength(h1.node)
    requires WellFormed(h2.node) && h2.length == NodeLength(h2.node)
    ensures WellFormed(Branch(Replace2(cs, j, h1, h2)))
  {
    var r := Replace2(cs, j, h1, h2);
    forall i | 0 <= i < |r|
      ensures r[i].length == NodeLength(r[i].node) && WellFormed(r[i].node)
    {
      Replace2At(cs, j, h1, h2, i);
    }
  }

  lemma Replace2Fits(cs: seq<Child>, j: nat, h1: Child, h2: Child)
    requires Fits(Branch(cs)) && j < |cs| && |cs| + 1 <= BranchFanout - 2
    requires Fits(h1.node) && Fits(h2.node)
    ensures Fits(Branch(Replace2(cs, j, h1, h2)))
  {
    var r := Replace2(cs, j, h1, h2);
    forall i | 0 <= i < |r|
      ensures Fits(r[i].node)
    {
      Replace2At(cs, j, h1, h2, i);
    }
  }

  lemma Replace2Balanced(cs: seq<Child>, j: nat, h1: Child, h2: Child, h: nat)
    requires Balanced(Branch(cs), h) && j < |cs|
    requires Balanced(h1.node, h - 1) && Balanced(h2.node, h - 1)
    ensures Balanced(Branch(Replace2(cs, j, h1, h2)), h)
  {
    var r := Replace2(cs, j, h1, h2);
    forall i | 0 <= i < |r|
      ensures Balanced(r[i].node, h - 1)
    {
      Replace2At(cs, j, h1, h2, i);
    }
  }

  /**
   * Routing is kept when a child is replaced by two whose lengths add up
   * to its own: the search goes to the left piece when the relative
   * position is within it (ties still go left), else to the right piece.
   */
  lemma Replace2Pick(cs: seq<Child>, j: nat, h1: Child, h2: Child, pos: nat)
    requires j < |cs| && pos <= SumLengths(cs) && Pick(cs, pos).0 == j
    requires h1.length + h2.length == cs[j].length
    ensures var rel := Pick(cs, pos).1;
      Pick(Replace2(cs, j, h1, h2), pos) == if rel <= h1.length then (j, rel) else (j + 1, rel - h1.length)
  {
    var r := Replace2(cs, j, h1, h2);
    PickSpec(cs, pos);
    var rel := Pick(cs, pos).1;
    PrefixStep(cs, j);
    assert r[..j] == cs[..j];
    PrefixStep(r, j);
    PrefixStep(r, j + 1);
    Replace2At(cs, j, h1, h2, j);
    Replace2At(cs, j, h1, h2, j + 1);
    if rel <= h1.length {
      PickChar(r, pos, j);
    } else {
      PickChar(r, pos, j + 1);
    }
  }

  /** The children before `k` of a well-formed branch form a well-formed branch. */
  lemma TakeWellFormed(cs: seq<Child>, k: nat)
    requires WellFormed(Branch(cs)) && 0 < k <= |cs|
    ensures WellFormed(Branch(cs[..k]))
  {
    assert forall i | 0 <= i < k :: cs[..k][i] == cs[i];
  }

  lemma DropWellFormed(cs: seq<Child>, k: nat)
    requires WellFormed(Branch(cs)) && k < |cs|
    ensures WellFormed(Branch(cs[k..]))
  {
    assert forall i | 0 <= i < |cs| - k :: cs[k..][i] == cs[k + i];
  }

  lemma FlattenHalves(cs: seq<Child>, k: nat)
    requires k <= |cs|
    ensures Flatten(Branch(cs[..k])) + Flatten(Branch(cs[k..])) == Flatten(Branch(cs))
  {
    assert cs == cs[..k] + cs[k..];
    FlattenBranch(cs);
    FlattenBranch(cs[..k]);
    FlattenBranch(cs[k..]);
    FlatsAppend(cs[..k], cs[k..]);
    ConcatAppend(Flats(cs[..k]), Flats(cs[k..]));
  }

  /** A position routed to a child before `k` is routed the same way among the first `k` children. */
  lemma PickLeftHalf(cs: seq<Child>, k: nat, pos: nat)
    requires 0 < k <= |cs| && pos <= SumLengths(cs) && Pick(cs, pos).0 < k
    ensures pos <= SumLengths(cs[..k])
    ensures Pick(cs[..k], pos) == Pick(cs, pos)
  {
    PickSpec(cs, pos);
    var j := Pick(cs, pos).0;
    PrefixMonotone(cs, j + 1, k);
    assert cs[..k][..j] == cs[..j];
    assert cs[..k][..j + 1] == cs[..j + 1];
    assert cs[..k][..k] == cs[..k];
    PickChar(cs[..k], pos, j);
  }

  lemma PrefixDrop(cs: seq<Child>, k: nat, i: nat)
    requires k + i <= |cs|
    ensures Prefix(cs, k + i) == Prefix(cs, k) + Prefix(cs[k..], i)
  {
    assert cs[..k + i] == cs[..k] + cs[k..][..i];
    SumLengthsAppend(cs[..k], cs[k..][..i]);
  }

  /** A position routed to a child at or after `k` is routed to the same child among the rest. */
  lemma PickRightHalf(cs: seq<Child>, k: nat, pos: nat)
    requires 0 < k <= |cs| && pos <= SumLengths(cs) && Pick(cs, pos).0 >= k
    ensures Prefix(cs, k) < pos
    ensures pos - Prefix(cs, k) <= SumLengths(cs[k..])
    ensures Pick(cs[k..], pos - Prefix(cs, k)) == (Pick(cs, pos).0 - k, Pick(cs, pos).1)
  {
    PickSpec(cs, pos);
    var j := Pick(cs, pos).0;
    PrefixMonotone(cs, k, j);
    PrefixDrop(cs, k, j - k);
    PrefixDrop(cs, k, j - k + 1);
    PrefixDrop(cs, k, |cs| - k);
    PrefixAll(cs);
    assert cs[k..][..|cs| - k] == cs[k..];
    PickChar(cs[k..], pos - Prefix(cs, k), j - k);
  }

  // ---------------------------------------------------------------------
  // The cascade

  /**
   * The nodes piece_tree_node_split(target) splits, seen from `n` on the
   * search path for `pos`: `n` is split when it needs a split and so does
   * every node below it on the path, down to the target leaf.
   */
  predicate Cascade(n: Node, pos: nat)
    requires WellFormed(n)
  {
    match n
    case Leaf(_) => NeedsSplit(n)
    case Branch(cs) => NeedsSplit(n) && Cascade(cs[Pick(cs, pos).0].node, Pick(cs, pos).1)
  }

  /**
   * Splitting a node of the cascade: its cells are halved by count (the
   * left keeps the first KeepCount), then the path child, now in one of
   * the halves, is replaced there by its own two halves.
   */
  function SplitOff(n: Node, pos: nat): (r: (Node, Node))
    requires WellFormed(n) && Cascade(n, pos)
    decreases n, 0
  {
    match n
    case Leaf(es) =>
      var k := LinkedArray.KeepCount(|es|);
      (Leaf(es[..k]), Leaf(es[k..]))
    case Branch(cs) =>
      var k := LinkedArray.KeepCount(|cs|);
      var (j, rel) := Pick(cs, pos);
      var (h1, h2) := Halves(cs[j], rel);
      if j < k then (Branch(Replace2(cs[..k], j, h1, h2)), Branch(cs[k..]))
      else (Branch(cs[..k]), Branch(Replace2(cs[k..], j - k, h1, h2)))
  }

  /** SplitOff on a branch, with the path child, its position and its halves named. */
  lemma SplitOffBranch(cs: seq<Child>, pos: nat, j: nat, rel: nat, h1: Child, h2: Child)
    requires WellFormed(Branch(cs)) && Cascade(Branch(cs), pos)
    requires Pick(cs, pos) == (j, rel)
    requires Halves(cs[j], rel) == (h1, h2)
    ensures var k := LinkedArray.KeepCount(|cs|);
      SplitOff(Branch(cs), pos) ==
        if j < k then (Branch(Replace2(cs[..k], j, h1, h2)), Branch(cs[k..]))
        else (Branch(cs[..k]), Branch(Replace2(cs[k..], j - k, h1, h2)))
  {
  }

  lemma LeafHalvesTotal(es: seq<Piece>, k: nat)
    requires k <= |es|
    ensures Total(es[..k]) + Total(es[k..]) == Total(es)
  {
    assert es == es[..k] + es[k..];
    TotalAppend(es[..k], es[k..]);
  }

  /**
   * The two entries that take `c`'s place in its parent once its node is
   * split, with the lengths the source writes: for a leaf, the parent's
   * entry loses the right half's length (split_leaf); for a branch, each
   * half is recorded with the sum of its own recorded lengths, taken
   * before anything below is split (split_root, split_internal_node).
   */
  function Halves(c: Child, pos: nat): (r: (Child, Child))
    requires WellFormed(c.node) && Cascade(c.node, pos) && c.length == NodeLength(c.node)
    decreases c.node, 1
  {
    var (a, b) := SplitOff(c.node, pos);
    match c.node
    case Leaf(es) =>
      LeafHalvesTotal(es, LinkedArray.KeepCount(|es|));
      (Child(a, c.length - NodeLength(b)), Child(b, NodeLength(b)))
    case Branch(cs) =>
      var k := LinkedArray.KeepCount(|cs|);
      (Child(a, SumLengths(cs[..k])), Child(b, SumLengths(cs[k..])))
  }

  /**
   * Below the cascade: the search path is followed down to the first
   * node that is split, which is replaced in its parent by its halves.
   */
  function SplitBelow(n: Node, pos: nat): (r: Node)
    requires WellFormed(n)
  {
    match n
    case Leaf(_) => n
    case Branch(cs) =>
      var (j, rel) := Pick(cs, pos);
      if Cascade(cs[j].node, rel) then
        var (h1, h2) := Halves(cs[j], rel);
        Branch(Replace2(cs, j, h1, h2))
      else
        Branch(cs[j := Child(SplitBelow(cs[j].node, rel), cs[j].length)])
  }

  /**
   * piece_tree_node_split applied to the leaf the search for `pos`
   * reaches: when the cascade takes in the root, the root keeps its place
   * and receives its two halves as its only children (split_root), which
   * makes the tree one level taller; otherwise the height is unchanged.
   */
  function SplitFor(root: Node, pos: nat): (r: Node)
    requires WellFormed(root)
  {
    if Cascade(root, pos) then
      var (h1, h2) := Halves(Child(root, NodeLength(root)), pos);
      Branch([h1, h2])
    else
      SplitBelow(root, pos)
  }

  // ---------------------------------------------------------------------
  // What a split keeps

  /** Cutting a leaf's entries anywhere: both parts keep positive entries and together hold the leaf's. */
  lemma {:induction false} LeafCut(es: seq<Piece>, k: nat)
    requires AllPositive(es) && k <= |es|
    ensures AllPositive(es[..k]) && AllPositive(es[k..])
    ensures es[..k] + es[k..] == es
    ensures Total(es[..k]) + Total(es[k..]) == Total(es)
  {
    PositiveTake(es, k);
    PositiveDrop(es, k);
    LeafHalvesTotal(es, k);
  }

  lemma PositiveTake(es: seq<Piece>, k: nat)
    requires AllPositive(es) && k <= |es|
    ensures AllPositive(es[..k])
  {
    forall i | 0 <= i < k
      ensures es[..k][i].length > 0
    {
      assert es[..k][i] == es[i];
    }
  }

  lemma PositiveDrop(es: seq<Piece>, k: nat)
    requires AllPositive(es) && k <= |es|
    ensures AllPositive(es[k..])
  {
    forall i | 0 <= i < |es| - k
      ensures es[k..][i].length > 0
    {
      assert es[k..][i] == es[k + i];
    }
  }

  /** The branch case with the path child in the left half. */
  lemma SplitInLeft(cs: seq<Child>, k: nat, j: nat, h1: Child, h2: Child)
    requires WellFormed(Branch(cs)) && j < k < |cs|
    requires WellFormed(h1.node) && h1.length == NodeLength(h1.node)
    requires WellFormed(h2.node) && h2.length == NodeLength(h2.node)
    requires h1.length + h2.length == cs[j].length
    requires Flatten(h1.node) + Flatten(h2.node) == Flatten(cs[j].node)
    ensures WellFormed(Branch(Replace2(cs[..k], j, h1, h2))) && WellFormed(Branch(cs[k..]))
    ensures SumLengths(Replace2(cs[..k], j, h1, h2)) == SumLengths(cs[..k])
    ensures Flatten(Branch(Replace2(cs[..k], j, h1, h2))) + Flatten(Branch(cs[k..])) == Flatten(Branch(cs))
  {
    TakeWellFormed(cs, k);
    DropWellFormed(cs, k);
    assert cs[..k][j] == cs[j];
    Replace2WellFormed(cs[..k], j, h1, h2);
    Replace2Sum(cs[..k], j, h1, h2);
    Replace2Flatten(cs[..k], j, h1, h2);
    FlattenHalves(cs, k);
  }

  /** The branch case with the path child in the right half. */
  lemma SplitInRight(cs: seq<Child>, k: nat, j: nat, h1: Child, h2: Child)
    requires WellFormed(Branch(cs)) && 0 < k <= j < |cs|
    requires WellFormed(h1.node) && h1.length == NodeLength(h1.node)
    requires WellFormed(h2.node) && h2.length == NodeLength(h2.node)
    requires h1.length + h2.length == cs[j].length
    requires Flatten(h1.node) + Flatten(h2.node) == Flatten(cs[j].node)
    ensures WellFormed(Branch(cs[..k])) && WellFormed(Branch(Replace2(cs[k..], j - k, h1, h2)))
    ensures SumLengths(Replace2(cs[k..], j - k, h1, h2)) == SumLengths(cs[k..])
    ensures Flatten(Branch(cs[..k])) + Flatten(Branch(Replace2(cs[k..], j - k, h1, h2))) == Flatten(Branch(cs))
  {
    TakeWellFormed(cs, k);
    DropWellFormed(cs, k);
    assert cs[k..][j - k] == cs[j];
    Replace2WellFormed(cs[k..], j - k, h1, h2);
    Replace2Sum(cs[k..], j - k, h1, h2);
    Replace2Flatten(cs[k..], j - k, h1, h2);
    FlattenHalves(cs, k);
  }

  /**
   * Splitting a node of the cascade keeps its characters, in order,
   * across the two halves, leaves both well-formed, and leaves each
   * branch half with exactly the length its parent records for it.
   */
  lemma {:induction false} SplitOffSpec(n: Node, pos: nat)
    requires WellFormed(n) && Cascade(n, pos)
    ensures WellFormed(SplitOff(n, pos).0) && WellFormed(SplitOff(n, pos).1)
    ensures Flatten(SplitOff(n, pos).0) + Flatten(SplitOff(n, pos).1) == Flatten(n)
    ensures NodeLength(SplitOff(n, pos).0) + NodeLength(SplitOff(n, pos).1) == NodeLength(n)
    ensures n.Branch? ==>
      && NodeLength(SplitOff(n, pos).0) == SumLengths(n.children[..LinkedArray.KeepCount(|n.children|)])
      && NodeLength(SplitOff(n, pos).1) == SumLengths(n.children[LinkedArray.KeepCount(|n.children|)..])
  {
    match n
    case Leaf(es) =>
      LeafCut(es, LinkedArray.KeepCount(|es|));
    case Branch(cs) =>
      var k := LinkedArray.KeepCount(|cs|);
      var (j, rel) := Pick(cs, pos);
      SplitOffSpec(cs[j].node, rel);
      HalvesFacts(cs[j], rel);
      var (h1, h2) := Halves(cs[j], rel);
      PrefixDropAll(cs, k);
      if j < k {
        SplitInLeft(cs, k, j, h1, h2);
        assert SplitOff(n, pos) == (Branch(Replace2(cs[..k], j, h1, h2)), Branch(cs[k..]));
      } else {
        SplitInRight(cs, k, j, h1, h2);
        assert SplitOff(n, pos) == (Branch(cs[..k]), Branch(Replace2(cs[k..], j - k, h1, h2)));
      }
  }

  /**
   * Once a node is split, its parent records each half with that half's
   * own length: the parent stays well-formed.
   */
  lemma HalvesFacts(c: Child, pos: nat)
    requires WellFormed(c.node) && Cascade(c.node, pos) && c.length == NodeLength(c.node)
    requires WellFormed(SplitOff(c.node, pos).0) && WellFormed(SplitOff(c.node, pos).1)
    requires Flatten(SplitOff(c.node, pos).0) + Flatten(SplitOff(c.node, pos).1) == Flatten(c.node)
    requires NodeLength(SplitOff(c.node, pos).0) + NodeLength(SplitOff(c.node, pos).1) == NodeLength(c.node)
    requires c.node.Branch? ==>
      && NodeLength(SplitOff(c.node, pos).0) == SumLengths(c.node.children[..LinkedArray.KeepCount(|c.node.children|)])
      && NodeLength(SplitOff(c.node, pos).1) == SumLengths(c.node.children[LinkedArray.KeepCount(|c.node.children|)..])
    ensures Halves(c, pos).0 == Child(SplitOff(c.node, pos).0, NodeLength(SplitOff(c.node, pos).0))
    ensures Halves(c, pos).1 == Child(SplitOff(c.node, pos).1, NodeLength(SplitOff(c.node, pos).1))
  {
  }

  /**
   * piece_tree_node_split_leaf, seen from the parent: LINKED_ARRAY_SPLIT
   * leaves the first n - n/2 entries in the leaf and moves the rest to a
   * new right leaf; the parent's entry for the leaf loses the right
   * leaf's length, and the right leaf's entry goes in directly after it.
   */
  lemma SplitLeafSpec(cs: seq<Child>, j: nat, rel: nat)
    requires WellFormed(Branch(cs)) && j < |cs| && cs[j].node.Leaf? && Cascade(cs[j].node, rel)
    ensures var es := cs[j].node.entries;
      var k := LinkedArray.KeepCount(|es|);
      var h := Halves(cs[j], rel);
      var r := Replace2(cs, j, h.0, h.1);
      && h.0.node == Leaf(es[..k]) && h.1.node == Leaf(es[k..])
      && h.1.length == Total(es[k..]) && h.0.length == cs[j].length - h.1.length
      && h.0.length == Total(es[..k])
      && r[..j] == cs[..j] && r[j] == h.0 && r[j + 1] == h.1 && r[j + 2..] == cs[j + 1..]
      && WellFormed(Branch(r)) && SumLengths(r) == SumLengths(cs)
  {
    var es := cs[j].node.entries;
    var k := LinkedArray.KeepCount(|es|);
    var h := Halves(cs[j], rel);
    LeafCut(es, k);
    assert cs[j].node == Leaf(es);
    assert SplitOff(cs[j].node, rel) == (Leaf(es[..k]), Leaf(es[k..]));
    assert h == (Child(Leaf(es[..k]), cs[j].length - Total(es[k..])), Child(Leaf(es[k..]), Total(es[k..])));
    Replace2WellFormed(cs, j, h.0, h.1);
    Replace2Sum(cs, j, h.0, h.1);
    var r := Replace2(cs, j, h.0, h.1);
    assert r[..j] == cs[..j];
    assert r[j + 2..] == cs[j + 1..];
  }

  lemma TakeFits(cs: seq<Child>, k: nat)
    requires Fits(Branch(cs)) && k <= |cs|
    ensures Fits(Branch(cs[..k]))
  {
    assert forall i | 0 <= i < k :: cs[..k][i] == cs[i];
  }

  lemma DropFits(cs: seq<Child>, k: nat)
    requires Fits(Branch(cs)) && k <= |cs|
    ensures Fits(Branch(cs[k..]))
  {
    assert forall i | 0 <= i < |cs| - k :: cs[k..][i] == cs[k + i];
  }

  lemma TakeBalanced(cs: seq<Child>, k: nat, h: nat)
    requires Balanced(Branch(cs), h) && k <= |cs|
    ensures Balanced(Branch(cs[..k]), h)
  {
    assert forall i | 0 <= i < k :: cs[..k][i] == cs[i];
  }

  lemma DropBalanced(cs: seq<Child>, k: nat, h: nat)
    requires Balanced(Branch(cs), h) && k <= |cs|
    ensures Balanced(Branch(cs[k..]), h)
  {
    assert forall i | 0 <= i < |cs| - k :: cs[k..][i] == cs[k + i];
  }

  /**
   * Splitting a full node leaves two halves within capacity, each holding
   * at most half a node's cells.  A node that needs a split holds 24
   * cells when it is a branch (24 or 25 when it is a leaf); after the
   * halving one half also takes the extra child from the split below.
   */
  lemma {:induction false} SplitOffFits(n: Node, pos: nat)
    requires WellFormed(n) && Cascade(n, pos) && Fits(n)
    ensures Fits(SplitOff(n, pos).0) && Fits(SplitOff(n, pos).1)
    ensures Count(SplitOff(n, pos).0) <= Fanout(n) / 2 && Count(SplitOff(n, pos).1) <= Fanout(n) / 2
  {
    match n
    case Leaf(es) =>
    case Branch(cs) =>
      var j := Pick(cs, pos).0;
      var rel := Pick(cs, pos).1;
      SplitOffSpec(cs[j].node, rel);
      SplitOffFits(cs[j].node, rel);
      HalvesFacts(cs[j], rel);
      var h1 := Halves(cs[j], rel).0;
      var h2 := Halves(cs[j], rel).1;
      SplitOffBranch(cs, pos, j, rel, h1, h2);
      RegroupFits(cs, j, h1, h2);
  }

  /** The branch case of SplitOffFits, once the path child's halves fit. */
  lemma RegroupFits(cs: seq<Child>, j: nat, h1: Child, h2: Child)
    requires Fits(Branch(cs)) && NeedsSplit(Branch(cs)) && j < |cs|
    requires Fits(h1.node) && Fits(h2.node)
    ensures var k := LinkedArray.KeepCount(|cs|);
      var r := if j < k then (Branch(Replace2(cs[..k], j, h1, h2)), Branch(cs[k..]))
        else (Branch(cs[..k]), Branch(Replace2(cs[k..], j - k, h1, h2)));
      Fits(r.0) && Fits(r.1) && Count(r.0) <= BranchFanout / 2 && Count(r.1) <= BranchFanout / 2
  {
    var k := LinkedArray.KeepCount(|cs|);
    TakeFits(cs, k);
    DropFits(cs, k);
    if j < k {
      Replace2Fits(cs[..k], j, h1, h2);
    } else {
      Replace2Fits(cs[k..], j - k, h1, h2);
    }
  }

  /** Both halves of a split node sit at the node's own height. */
  lemma {:induction false} SplitOffBalanced(n: Node, pos: nat, h: nat)
    requires WellFormed(n) && Cascade(n, pos) && Balanced(n, h)
    ensures Balanced(SplitOff(n, pos).0, h) && Balanced(SplitOff(n, pos).1, h)
  {
    match n
    case Leaf(es) =>
    case Branch(cs) =>
      var k := LinkedArray.KeepCount(|cs|);
      var (j, rel) := Pick(cs, pos);
      SplitOffSpec(cs[j].node, rel);
      SplitOffBalanced(cs[j].node, rel, h - 1);
      HalvesFacts(cs[j], rel);
      var (h1, h2) := Halves(cs[j], rel);
      TakeBalanced(cs, k, h);
      DropBalanced(cs, k, h);
      if j < k {
        Replace2Balanced(cs[..k], j, h1, h2, h);
        assert SplitOff(n, pos) == (Branch(Replace2(cs[..k], j, h1, h2)), Branch(cs[k..]));
      } else {
        Replace2Balanced(cs[k..], j - k, h1, h2, h);
        assert SplitOff(n, pos) == (Branch(cs[..k]), Branch(Replace2(cs[k..], j - k, h1, h2)));
      }
  }

  // ---------------------------------------------------------------------
  // Where the search lands afterwards

  /** The leaf a search for `pos` reaches holds at most half a leaf's cells. */
  predicate Roomy(n: Node, pos: nat)
    requires WellFormed(n)
  {
    |Search(n, pos).0| <= LeafFanout / 2
  }

  /**
   * The search for `pos` in what replaces `c` after its split: the left
   * half when the position is within it (ties go left), else the right.
   */
  predicate RoomyIn(h1: Child, h2: Child, rel: nat)
    requires WellFormed(h1.node) && WellFormed(h2.node)
  {
    if rel <= h1.length then Roomy(h1.node, rel) else Roomy(h2.node, rel - h1.length)
  }

  /**
   * `h1` and `h2` are well-formed children recorded with their own
   * lengths, which add up to the length recorded for `c`.
   */
  predicate SplitsInto(c: Child, h1: Child, h2: Child)
  {
    && WellFormed(h1.node) && h1.length == NodeLength(h1.node)
    && WellFormed(h2.node) && h2.length == NodeLength(h2.node)
    && h1.length + h2.length == c.length
  }

  /** Routing through a branch whose child `j` was replaced by two. */
  lemma SearchReplaced(cs: seq<Child>, j: nat, rel: nat, h1: Child, h2: Child, pos: nat)
    requires WellFormed(Branch(cs)) && pos <= SumLengths(cs) && Pick(cs, pos) == (j, rel)
    requires SplitsInto(cs[j], h1, h2)
    requires RoomyIn(h1, h2, rel)
    ensures WellFormed(Branch(Replace2(cs, j, h1, h2)))
    ensures Roomy(Branch(Replace2(cs, j, h1, h2)), pos)
  {
    var r := Replace2(cs, j, h1, h2);
    Replace2WellFormed(cs, j, h1, h2);
    Replace2Pick(cs, j, h1, h2, pos);
    Replace2At(cs, j, h1, h2, j);
    Replace2At(cs, j, h1, h2, j + 1);
  }

  lemma SearchInLeft(cs: seq<Child>, k: nat, j: nat, rel: nat, h1: Child, h2: Child, pos: nat)
    requires WellFormed(Branch(cs)) && j < k < |cs|
    requires pos <= SumLengths(cs) && Pick(cs, pos) == (j, rel)
    requires SplitsInto(cs[j], h1, h2)
    requires RoomyIn(h1, h2, rel)
    ensures pos <= SumLengths(cs[..k])
    ensures WellFormed(Branch(Replace2(cs[..k], j, h1, h2)))
    ensures Roomy(Branch(Replace2(cs[..k], j, h1, h2)), pos)
  {
    PickLeftHalf(cs, k, pos);
    TakeWellFormed(cs, k);
    assert cs[..k][j] == cs[j];
    SearchReplaced(cs[..k], j, rel, h1, h2, pos);
  }

  /**
   * After a node of the cascade is split, the search for the same
   * position, arriving at the half that now covers it, ends in a leaf
   * with at most half a leaf's cells: the insert that follows has room.
   */
  lemma {:induction false} SplitOffSearch(n: Node, pos: nat)
    requires WellFormed(n) && Cascade(n, pos) && Fits(n) && pos <= NodeLength(n)
    ensures WellFormed(SplitOff(n, pos).0) && WellFormed(SplitOff(n, pos).1)
    ensures RoomyIn(Child(SplitOff(n, pos).0, NodeLength(SplitOff(n, pos).0)),
                    Child(SplitOff(n, pos).1, NodeLength(SplitOff(n, pos).1)), pos)
  {
    SplitOffSpec(n, pos);
    match n
    case Leaf(es) =>
    case Branch(cs) =>
      PickSpec(cs, pos);
      var j := Pick(cs, pos).0;
      var rel := Pick(cs, pos).1;
      SplitOffSpec(cs[j].node, rel);
      SplitOffSearch(cs[j].node, rel);
      HalvesFacts(cs[j], rel);
      var h1 := Halves(cs[j], rel).0;
      var h2 := Halves(cs[j], rel).1;
      SplitOffBranch(cs, pos, j, rel, h1, h2);
      RegroupSearch(cs, j, rel, h1, h2, pos);
  }

  /** The branch case of SplitOffSearch, once the path child's halves are roomy. */
  lemma RegroupSearch(cs: seq<Child>, j: nat, rel: nat, h1: Child, h2: Child, pos: nat)
    requires WellFormed(Branch(cs)) && NeedsSplit(Branch(cs))
    requires pos <= SumLengths(cs) && Pick(cs, pos) == (j, rel)
    requires SplitsInto(cs[j], h1, h2)
    requires RoomyIn(h1, h2, rel)
    ensures var k := LinkedArray.KeepCount(|cs|);
      var r := if j < k then (Branch(Replace2(cs[..k], j, h1, h2)), Branch(cs[k..]))
        else (Branch(cs[..k]), Branch(Replace2(cs[k..], j - k, h1, h2)));
      && WellFormed(r.0) && WellFormed(r.1)
      && RoomyIn(Child(r.0, NodeLength(r.0)), Child(r.1, NodeLength(r.1)), pos)
  {
    var k := LinkedArray.KeepCount(|cs|);
    if j < k {
      RegroupSearchLeft(cs, k, j, rel, h1, h2, pos);
    } else {
      RegroupSearchRight(cs, k, j, rel, h1, h2, pos);
    }
  }

  lemma RegroupSearchLeft(cs: seq<Child>, k: nat, j: nat, rel: nat, h1: Child, h2: Child, pos: nat)
    requires WellFormed(Branch(cs)) && j < k < |cs|
    requires pos <= SumLengths(cs) && Pick(cs, pos) == (j, rel)
    requires SplitsInto(cs[j], h1, h2)
    requires RoomyIn(h1, h2, rel)
    ensures var a := Branch(Replace2(cs[..k], j, h1, h2)); var b := Branch(cs[k..]);
      && WellFormed(a) && WellFormed(b)
      && RoomyIn(Child(a, NodeLength(a)), Child(b, NodeLength(b)), pos)
  {
    var a := Branch(Replace2(cs[..k], j, h1, h2));
    var b := Branch(cs[k..]);
    SearchInLeft(cs, k, j, rel, h1, h2, pos);
    DropWellFormed(cs, k);
    assert cs[..k][j] == cs[j];
    Replace2Sum(cs[..k], j, h1, h2);
    RoomyInLeft(a, b, pos);
  }

  lemma RegroupSearchRight(cs: seq<Child>, k: nat, j: nat, rel: nat, h1: Child, h2: Child, pos: nat)
    requires WellFormed(Branch(cs)) && 0 < k <= j < |cs|
    requires pos <= SumLengths(cs) && Pick(cs, pos) == (j, rel)
    requires SplitsInto(cs[j], h1, h2)
    requires RoomyIn(h1, h2, rel)
    ensures var a := Branch(cs[..k]); var b := Branch(Replace2(cs[k..], j - k, h1, h2));
      && WellFormed(a) && WellFormed(b)
      && RoomyIn(Child(a, NodeLength(a)), Child(b, NodeLength(b)), pos)
  {
    var a := Branch(cs[..k]);
    var b := Branch(Replace2(cs[k..], j - k, h1, h2));
    SearchInRight(cs, k, j, rel, h1, h2, pos);
    TakeWellFormed(cs, k);
    RoomyInRight(a, b, pos);
  }

  lemma SearchInRight(cs: seq<Child>, k: nat, j: nat, rel: nat, h1: Child, h2: Child, pos: nat)
    requires WellFormed(Branch(cs)) && 0 < k <= j < |cs|
    requires pos <= SumLengths(cs) && Pick(cs, pos) == (j, rel)
    requires SplitsInto(cs[j], h1, h2)
    requires RoomyIn(h1, h2, rel)
    ensures pos > NodeLength(Branch(cs[..k]))
    ensures WellFormed(Branch(Replace2(cs[k..], j - k, h1, h2)))
    ensures Roomy(Branch(Replace2(cs[k..], j - k, h1, h2)), pos - NodeLength(Branch(cs[..k])))
  {
    var rest := cs[k..];
    var off := SumLengths(cs[..k]);
    assert NodeLength(Branch(cs[..k])) == off;
    RightHalf(cs, k, j, rel, pos, rest, off);
    SearchReplaced(rest, j - k, rel, h1, h2, pos - off);
  }

  /** What the children from `k` on look like to a position routed among them. */
  lemma RightHalf(cs: seq<Child>, k: nat, j: nat, rel: nat, pos: nat, rest: seq<Child>, off: nat)
    requires WellFormed(Branch(cs)) && 0 < k <= j < |cs|
    requires pos <= SumLengths(cs) && Pick(cs, pos) == (j, rel)
    requires rest == cs[k..] && off == SumLengths(cs[..k])
    ensures WellFormed(Branch(rest)) && j - k < |rest| && rest[j - k] == cs[j]
    ensures off < pos && pos - off <= SumLengths(rest) && Pick(rest, pos - off) == (j - k, rel)
  {
    PickRightHalf(cs, k, pos);
    DropWellFormed(cs, k);
  }

  lemma RoomyInLeft(a: Node, b: Node, pos: nat)
    requires WellFormed(a) && WellFormed(b)
    requires pos <= NodeLength(a) && Roomy(a, pos)
    ensures RoomyIn(Child(a, NodeLength(a)), Child(b, NodeLength(b)), pos)
  {
  }

  lemma RoomyInRight(a: Node, b: Node, pos: nat)
    requires WellFormed(a) && WellFormed(b)
    requires pos > NodeLength(a) && Roomy(b, pos - NodeLength(a))
    ensures RoomyIn(Child(a, NodeLength(a)), Child(b, NodeLength(b)), pos)
  {
  }

  // ---------------------------------------------------------------------
  // Below the cascade and at the root

  lemma Replace1WellFormed(cs: seq<Child>, j: nat, c: Child)
    requires WellFormed(Branch(cs)) && j < |cs|
    requires WellFormed(c.node) && c.length == NodeLength(c.node)
    ensures WellFormed(Branch(cs[j := c]))
  {
  }

  lemma Replace1Fits(cs: seq<Child>, j: nat, c: Child)
    requires Fits(Branch(cs)) && j < |cs| && Fits(c.node)
    ensures Fits(Branch(cs[j := c]))
  {
  }

  lemma Replace1Balanced(cs: seq<Child>, j: nat, c: Child, h: nat)
    requires Balanced(Branch(cs), h) && j < |cs| && Balanced(c.node, h - 1)
    ensures Balanced(Branch(cs[j := c]), h)
  {
  }

  /** The split below a node keeps its characters, its length and its well-formedness. */
  lemma {:induction false} SplitBelowSpec(n: Node, pos: nat)
    requires WellFormed(n)
    ensures WellFormed(SplitBelow(n, pos))
    ensures NodeLength(SplitBelow(n, pos)) == NodeLength(n)
    ensures Flatten(SplitBelow(n, pos)) == Flatten(n)
  {
    match n
    case Leaf(_) =>
    case Branch(cs) =>
      var (j, rel) := Pick(cs, pos);
      if Cascade(cs[j].node, rel) {
        SplitOffSpec(cs[j].node, rel);
        HalvesFacts(cs[j], rel);
        var (h1, h2) := Halves(cs[j], rel);
        Replace2WellFormed(cs, j, h1, h2);
        Replace2Sum(cs, j, h1, h2);
        Replace2Flatten(cs, j, h1, h2);
        assert SplitBelow(n, pos) == Branch(Replace2(cs, j, h1, h2));
      } else {
        SplitBelowSpec(cs[j].node, rel);
        var c := Child(SplitBelow(cs[j].node, rel), cs[j].length);
        Replace1WellFormed(cs, j, c);
        Replace1Sum(cs, j, c);
        Replace1Flatten(cs, j, c);
        FlattenAround(cs, j);
        assert SplitBelow(n, pos) == Branch(cs[j := c]);
      }
  }

  /**
   * Below the cascade every node has room for one more child: the node
   * above the first split one does not need a split itself.
   */
  lemma {:induction false} SplitBelowFits(n: Node, pos: nat)
    requires WellFormed(n) && Fits(n) && !Cascade(n, pos)
    ensures Fits(SplitBelow(n, pos))
  {
    match n
    case Leaf(_) =>
    case Branch(cs) =>
      var (j, rel) := Pick(cs, pos);
      if Cascade(cs[j].node, rel) {
        SplitOffSpec(cs[j].node, rel);
        SplitOffFits(cs[j].node, rel);
        HalvesFacts(cs[j], rel);
        var (h1, h2) := Halves(cs[j], rel);
        Replace2Fits(cs, j, h1, h2);
        assert SplitBelow(n, pos) == Branch(Replace2(cs, j, h1, h2));
      } else {
        SplitBelowFits(cs[j].node, rel);
        var c := Child(SplitBelow(cs[j].node, rel), cs[j].length);
        Replace1Fits(cs, j, c);
        assert SplitBelow(n, pos) == Branch(cs[j := c]);
      }
  }

  lemma {:induction false} SplitBelowBalanced(n: Node, pos: nat, h: nat)
    requires WellFormed(n) && Balanced(n, h)
    ensures Balanced(SplitBelow(n, pos), h)
  {
    match n
    case Leaf(_) =>
    case Branch(cs) =>
      var (j, rel) := Pick(cs, pos);
      if Cascade(cs[j].node, rel) {
        SplitOffSpec(cs[j].node, rel);
        SplitOffBalanced(cs[j].node, rel, h - 1);
        HalvesFacts(cs[j], rel);
        var (h1, h2) := Halves(cs[j], rel);
        Replace2Balanced(cs, j, h1, h2, h);
        assert SplitBelow(n, pos) == Branch(Replace2(cs, j, h1, h2));
      } else {
        SplitBelowBalanced(cs[j].node, rel, h - 1);
        var c := Child(SplitBelow(cs[j].node, rel), cs[j].length);
        Replace1Balanced(cs, j, c, h);
        assert SplitBelow(n, pos) == Branch(cs[j := c]);
      }
  }

  /** Where the target leaf needs a split, the search below the cascade lands in a roomy leaf. */
  lemma {:induction false} SplitBelowSearch(n: Node, pos: nat)
    requires WellFormed(n) && n.Branch? && Fits(n) && !Cascade(n, pos) && pos <= NodeLength(n)
    requires NeedsSplit(Leaf(Search(n, pos).0))
    ensures WellFormed(SplitBelow(n, pos))
    ensures Roomy(SplitBelow(n, pos), pos)
  {
    SplitBelowSpec(n, pos);
    var cs := n.children;
    PickSpec(cs, pos);
    var (j, rel) := Pick(cs, pos);
    if Cascade(cs[j].node, rel) {
      SplitOffSpec(cs[j].node, rel);
      SplitOffSearch(cs[j].node, rel);
      HalvesFacts(cs[j], rel);
      var (h1, h2) := Halves(cs[j], rel);
      SearchReplaced(cs, j, rel, h1, h2, pos);
      assert SplitBelow(n, pos) == Branch(Replace2(cs, j, h1, h2));
    } else {
      assert Search(n, pos) == Search(cs[j].node, rel);
      if cs[j].node.Leaf? {
        assert false;
      }
      SplitBelowSearch(cs[j].node, rel);
      var c := Child(SplitBelow(cs[j].node, rel), cs[j].length);
      PickSameLengths(cs[j := c], cs, pos);
      assert SplitBelow(n, pos) == Branch(cs[j := c]);
    }
  }

  /** SplitFor keeps the characters, the length, well-formedness and the root's kind. */
  lemma SplitForSpec(root: Node, pos: nat)
    requires WellFormed(root) && root.Branch?
    ensures WellFormed(SplitFor(root, pos)) && SplitFor(root, pos).Branch?
    ensures NodeLength(SplitFor(root, pos)) == NodeLength(root)
    ensures Flatten(SplitFor(root, pos)) == Flatten(root)
  {
    if Cascade(root, pos) {
      SplitOffSpec(root, pos);
      var c := Child(root, NodeLength(root));
      HalvesFacts(c, pos);
      var (h1, h2) := Halves(c, pos);
      RootOfTwo(h1, h2);
      assert SplitFor(root, pos) == Branch([h1, h2]);
    } else {
      SplitBelowSpec(root, pos);
    }
  }

  /**
   * piece_tree_node_split_root: the root keeps its place and ends with
   * exactly two children, its halves, each recorded with its own length.
   */
  lemma RootSplitSpec(root: Node, pos: nat)
    requires WellFormed(root) && root.Branch? && Cascade(root, pos)
    ensures var r := SplitFor(root, pos);
      && r.Branch? && |r.children| == 2
      && r.children[0] == Child(SplitOff(root, pos).0, NodeLength(SplitOff(root, pos).0))
      && r.children[1] == Child(SplitOff(root, pos).1, NodeLength(SplitOff(root, pos).1))
      && Flatten(r.children[0].node) + Flatten(r.children[1].node) == Flatten(root)
  {
    SplitOffSpec(root, pos);
    HalvesFacts(Child(root, NodeLength(root)), pos);
  }

  /** A root whose children are two correctly recorded halves. */
  lemma RootOfTwo(h1: Child, h2: Child)
    requires WellFormed(h1.node) && h1.length == NodeLength(h1.node)
    requires WellFormed(h2.node) && h2.length == NodeLength(h2.node)
    ensures WellFormed(Branch([h1, h2]))
    ensures NodeLength(Branch([h1, h2])) == h1.length + h2.length
    ensures Flatten(Branch([h1, h2])) == Flatten(h1.node) + Flatten(h2.node)
  {
    assert SumLengths([h1, h2]) == h1.length + SumLengths([h2]);
    assert SumLengths([h2]) == h2.length + SumLengths([]);
    FlattenBranch([h1, h2]);
    assert Flats([h1, h2]) == [Flatten(h1.node), Flatten(h2.node)];
    assert Concat([Flatten(h1.node), Flatten(h2.node)]) == Flatten(h1.node) + Concat([Flatten(h2.node)]);
    assert Concat([Flatten(h2.node)]) == Flatten(h2.node) + Concat([]);
  }

  lemma SplitForFits(root: Node, pos: nat)
    requires WellFormed(root) && root.Branch? && Fits(root)
    ensures Fits(SplitFor(root, pos))
  {
    if Cascade(root, pos) {
      SplitOffSpec(root, pos);
      SplitOffFits(root, pos);
      HalvesFacts(Child(root, NodeLength(root)), pos);
    } else {
      SplitBelowFits(root, pos);
    }
  }

  /** Only a split that reaches the root makes the tree taller, by one level. */
  lemma SplitForBalanced(root: Node, pos: nat, h: nat)
    requires WellFormed(root) && root.Branch? && Balanced(root, h)
    ensures Balanced(SplitFor(root, pos), if Cascade(root, pos) then h + 1 else h)
  {
    if Cascade(root, pos) {
      SplitOffSpec(root, pos);
      SplitOffBalanced(root, pos, h);
      HalvesFacts(Child(root, NodeLength(root)), pos);
    } else {
      SplitBelowBalanced(root, pos, h);
    }
  }

  /**
   * When the target leaf needs a split, the search repeated after
   * SplitFor lands in a leaf with at most half a leaf's cells, so the
   * up to two entries the insert adds fit.
   */
  lemma SplitForSearch(root: Node, pos: nat)
    requires WellFormed(root) && root.Branch? && Fits(root) && pos <= NodeLength(root)
    requires NeedsSplit(Leaf(Search(root, pos).0))
    ensures WellFormed(SplitFor(root, pos))
    ensures Roomy(SplitFor(root, pos), pos)
  {
    SplitForSpec(root, pos);
    if Cascade(root, pos) {
      RootSplitSearch(root, pos);
    } else {
      SplitBelowSearch(root, pos);
    }
  }

  lemma RootSplitSearch(root: Node, pos: nat)
    requires WellFormed(root) && root.Branch? && Fits(root) && pos <= NodeLength(root)
    requires Cascade(root, pos)
    ensures WellFormed(SplitFor(root, pos))
    ensures Roomy(SplitFor(root, pos), pos)
  {
    SplitOffSpec(root, pos);
    SplitOffSearch(root, pos);
    var c := Child(root, NodeLength(root));
    HalvesFacts(c, pos);
    var (h1, h2) := Halves(c, pos);
    assert SplitFor(root, pos) == Branch([h1, h2]);
    RootOfTwo(h1, h2);
    PickOfTwo(h1, h2, pos);
  }

  lemma PickOfTwo(h1: Child, h2: Child, pos: nat)
    requires pos <= h1.length + h2.length
    ensures Pick([h1, h2], pos) == if pos <= h1.length then (0, pos) else (1, pos - h1.length)
  {
    if pos > h1.length {
      assert [h1, h2][1..] == [h2];
    }
  }
}
